=== FILE: README.md ===
# Sleep-comfort scoring, modelled in Dafny

This project models the scoring and record-processing core of a sleep-tracker
backend. An ESP32-class device posts five-minute environment readings:
temperature, humidity, noise and light. The backend turns each reading into a
comfort score in [0, 100] and aggregates the scores per session.

The repository holds several drafts of this logic, and each one is modelled in
its own module:

- `SleepRules` covers `app/sleep_rules.py`. It is the deterministic scorer with
  ideals 25.5 °C, 60 %RH and 45 dB, a substitute value for a sensor that
  reads 0, and a fixed imputed light penalty when the light sensor is absent.
- `ModelService` covers `model_service.py`. It has ideals 20 °C, 50 %RH and
  30 dB. Python's `or` makes a reading of exactly 0 count as missing. The
  hybrid predictor adds the residual model's correction and clips the result.
- `ScoringApi` covers `main.py`. It has the same ideals over required
  readings, a confidence heuristic based on the residual's size, and the
  interval, batch, session and debug scoring endpoints reduced to their logic.
- `Poller` covers `app/main.py`. It has a simpler rule scorer and a model
  whose prediction replaces the score. It also models the idempotent
  per-document processor, the write-once session summary, the inactivity
  test and one pass of the polling loop, including the store failures the
  loop catches and the one that ends the pass.
- `Services` covers `app/services.py`. For each recording session it selects
  up to fifty unprocessed readings. It writes one score document per reading
  and flags the reading processed, all in a single all-or-nothing commit.
- `AppApi` covers `app.py`. It handles single and batch interval scoring
  through the hybrid predictor and builds the session summary: mean, minimum,
  maximum, first and last timestamp, trend and per-feature means.
- `Fite` covers `fite.py`. It normalises timestamps into document ids,
  classifies scores into four bands, and runs the skip-if-present backfill
  at startup.

Shared pieces:

- `Wrappers` provides `Option`, `Result`, HTTP errors and streamed
  collections as sequences of `Entry(id, doc)`.
- `Numeric` provides abs, max, min, clip, sum, mean, minimum and maximum
  over `real`.
- `Lex` provides Python's string ordering, used for `min`/`max` of
  timestamps.
- `LightCurve` is a reference definition of the two-breakpoint light curve,
  which every draft re-implements.
- `Residual` is the learned model: an uninterpreted, possibly failing
  function plus a version.
- `SessionStats` holds the per-feature means.
- `Drafts` holds lemmas that compare the drafts with each other.

Modelling conventions:

- Python floats are `real`. `None` is `Option`.
- A Firestore collection is the sequence of its documents in stream order,
  and a lookup by id takes the first match.
- A Firestore equality filter `field == False` does not match a document
  that lacks the field, so such flags are `Option<bool>`.
- The learned model, the clock and the timestamp parsers are parameters.
  Where the source tests for a database, its availability is a boolean
  parameter.
- A store call that can raise is a boolean parameter where the source
  catches the exception or turns it into a status. In the poller these
  are: the direct query and the fallback scan, per session; the reads and
  the ml_scores write of `process_env_doc`, per document; the flag update;
  and the summary step, per session. An exception in the inactivity check
  or the summary lookup has the same effect as a failed summary write, so
  one flag covers all three.
- In the poller, an environment collection is in timestamp order, so a
  query ordered by timestamp keeps the collection's order after dropping
  the documents without a timestamp.
- An exception that ends a request becomes an `Err` carrying the HTTP status
  the framework would send.

## Model

| member | source | states |
|---|---|---|
| LightCurve.HingeZeroIffDark | model_service.py:13-22 | the light curve is never negative, and it is zero exactly for lux at or below 1 |
| LightCurve.HingeMonotone | app/sleep_rules.py:13-17 | more light never costs less |
| LightCurve.HingeAtKnee | main.py:73-79 | the curve is lux − 1 between 1 and 10, is continuous at 10, and rises by 0.6 per lux beyond |
| SleepRules.LightPenaltyFromLux | app/sleep_rules.py:9-17 | the penalty is None exactly for a missing reading; otherwise it is the reference curve at the lux, with 0 lifted to the sensor lower limit, and is non-negative |
| SleepRules.LightTerm | app/sleep_rules.py:41-50 | the light term the score subtracts is never negative, whether the sensor is present or imputed |
| SleepRules.ComputeRuleScore | app/sleep_rules.py:19-54 | the score lies in [0, 100], and it is exactly 100 iff all four penalties are zero |
| SleepRules.DefaultRuleScore | app/sleep_rules.py:9-54 | with the default 0.5 lux lower limit and the sensor fitted, a missing light reading, a 0 lux reading and anything up to 1 lux cost nothing, and brighter rooms cost 1.5 times the reference curve at the reading; light is never imputed; the score stays in [0, 100] |
| SleepRules.DarkIsFree | app/sleep_rules.py:11-13 | lux at or below 1, including a 0 lifted to a limit at or below 1, costs nothing |
| SleepRules.LightPenaltyPieces | app/sleep_rules.py:14-17 | the penalty is lux − 1 on (1, 10] and 9 + 0.6·(lux − 10) above 10 |
| SleepRules.LightPenaltyMonotone | app/sleep_rules.py:9-17 | for non-negative lux, the light penalty never decreases as lux grows |
| SleepRules.AllMissingScoresFull | app/sleep_rules.py:26-45 | with every reading missing and the sensor present, the score is exactly 100 |
| SleepRules.IdealPointScoresFull | app/sleep_rules.py:4-7 | at 25.5 °C and 60 %RH, with noise ≤ 45 dB and lux ≤ 1, the score is exactly 100 |
| SleepRules.QuietIsUnpenalised | app/sleep_rules.py:36-38 | noise at or below 45 dB scores the same as missing noise |
| SleepRules.MissingSensorChargesImputedLight | app/sleep_rules.py:46-50 | without a light sensor the light term is the constant 3.0, whatever light value is passed |
| SleepRules.NoiseNeverHelps | app/sleep_rules.py:36-38 | louder noise never raises the score |
| SleepRules.TemperatureDeviationNeverHelps | app/sleep_rules.py:28-30 | a temperature further from the ideal never raises the score |
| SleepRules.LightNeverHelps | app/sleep_rules.py:40-45 | more light never raises the score |
| ModelService.Or | model_service.py:25-28 | Python `x or d`: the value when present and non-zero, else the default |
| ModelService.LightPenalty | model_service.py:13-22 | 0 for a missing reading, otherwise the reference light curve, never negative |
| ModelService.RuleScore | model_service.py:24-30 | the rule score lies in [0, 100] |
| ModelService.DefaultedScore | model_service.py:29-30 | the clipped score over defaulted readings lies in [0, 100] |
| ModelService.HybridPredict | model_service.py:63-81 | the interval score is clip(rule + residual) in [0, 100]; confidence is 0.7 iff the model version is truthy, else 0.4; without a model, or when it fails, the residual is 0, the version is None and the score equals the rule score; when it succeeds, the residual is pred[0] of the defaulted row |
| ModelService.ZeroReadsAsMissing | model_service.py:25-28 | a reading of exactly 0 scores, and builds the feature row, the same as a missing reading |
| ModelService.IdealPointScoresFull | model_service.py:9-11 | at 20 °C and 50 %RH, with noise ≤ 30 dB and lux ≤ 1, the score is exactly 100 |
| ModelService.ExtremeRoomScoresZero | model_service.py:78 | a hot, humid, loud, bright room clips to 0, with and without a model |
| Residual.PredictFirst | model_service.py:55-58 | the first prediction exists iff the model answers with a non-empty array, and it is that array's first element |
| ScoringApi.LightPenaltyFromLux | main.py:68-79 | 0 (not None) for a missing reading, otherwise the reference curve at the lifted lux |
| ScoringApi.RuleScore | main.py:82-88 | the rule score lies in [0, 100] |
| ScoringApi.Penalties | main.py:315-320 | the four breakdown penalties are non-negative |
| ScoringApi.RuleScoreIsClippedBreakdown | main.py:296-320 | the session rule score is exactly 100 less the sum of the breakdown, clipped |
| ScoringApi.EstimateConfidence | main.py:217-222 | 0.5 without a residual; otherwise in [0, 1], equal to 1 − abs(r)/10 below magnitude 10 and 0 from 10 on |
| ScoringApi.ConfidenceFallsWithResidual | main.py:217-222 | a larger residual never earns more confidence, and a zero residual earns 1 |
| ScoringApi.ScoreInterval | main.py:228-271 | 401 iff the key is missing; the score is clip(rule + residual) in [0, 100]; no model gives confidence 0.5; a failing model gives 0.0; a working one gives its residual, its version and the estimated confidence |
| ScoringApi.ScoredKeepsEveryRecord | main.py:277-288 | with a key present, every record yields its own item, in order |
| ScoringApi.ScoreIntervalBatch | main.py:274-288 | 401 iff the key is missing; otherwise processed == number of results == number of records, and item i is record i's interval response |
| ScoringApi.ScoreSession | main.py:291-328 | 401 iff the key is missing; the breakdown is the four penalties at the request's averages and the rule session score is the rule score at those averages, equal to 100 less the breakdown, clipped; the session score is clip(rule + residual) in [0, 100]; the residual and version come from the model when it answers, and are absent otherwise |
| ScoringApi.DebugScore | main.py:357-377 | 401 unless the admin key matches; each contribution is 100 less its penalty, and the rule score is the clipped contributions less 300 |
| Poller.RuleScoreFn | app/main.py:94-104 | the inline rule score lies in [0, 100] |
| Poller.RuleScoreFnThresholds | app/main.py:94-104 | missing readings, quiet noise (≤ 30) and dark light (≤ 1) cost nothing; light alone costs 1.5·(l − 1), floored at 0 |
| Poller.ModelFeatures | app/main.py:110-115 | the model row is [temp, hum, light, noise] with defaults 20, 50, 0, 25 |
| Poller.ComputeScoreFromEnv | app/main.py:74-133 | the rule score is the inline rule in [0, 100] and the residual stays 0; when the model answers, its prediction is the unclipped score with confidence 0.8 and the configured version; when it fails, the rule score stands with confidence 0.45 and no version |
| Poller.MarkProcessed | app/main.py:180-184 | flagging keeps every id and sets `_ml_processed` on the documents with that id only |
| Poller.ToUtcIso | app/main.py:24-50 | the result always ends in `Z`; a timestamp already ending in `Z` is returned unchanged; any other is the rendering followed by `Z` |
| Poller.ToUtcIsoIdempotent | app/main.py:29-32 | normalising a normalised timestamp changes nothing |
| Poller.IsoIds | app/main.py:289-292 | each id is normalised in place; ids already ending in `Z` are left as they are |
| Poller.MlPayload | app/main.py:159-174 | the ml_scores document carries the environment document's readings and ingest id unchanged, the id it is stored under as its timestamp, and the prediction's score, rule score, residual, version and confidence |
| Poller.ProcessEnvDocIn | app/main.py:136-190 | a raising store call gives 500 and writes nothing; with working store calls, 404 iff the environment document is missing; an existing ml_scores document is returned and nothing changes; otherwise exactly one ml_scores document is appended at the timestamp id, and the environment document is flagged when the update succeeds |
| Poller.ProcessEnvDoc | app/main.py:136-331 | the raw timestamp is normalised first, and everything below is keyed by the normalised id: 500 when a store call raises; otherwise 404 iff no environment document has it; other sessions are untouched; the result is "already processed" iff an ml_scores document existed, and then nothing changes; otherwise one document is appended at that id and carries it as its timestamp |
| Poller.FindMarked | app/main.py:180-184 | after flagging, a lookup finds the document flagged processed |
| Poller.ProcessEnvDocIdempotent | app/main.py:141-155 | a second call with the same raw timestamp, whose store calls succeed, writes nothing and returns the stored document |
| Poller.Selected | app/main.py:284-287 | the selected ids are exactly those of documents whose flag passes the filter |
| Poller.Timed | app/main.py:279-283 | ordering by timestamp keeps only documents with a timestamp, each one from the collection, and every such document |
| Poller.DirectQuery | app/main.py:279-280 | the direct query returns at most the batch limit of ids, each the id of a document that has a timestamp and whose flag is explicitly false; unless the limit is reached, every such document is returned |
| Poller.FallbackScan | app/main.py:283-287 | the fallback scan returns at most the batch limit of ids, each the id of a document that has a timestamp and is not flagged true; every document among the first batch-limit timestamped ones that is not flagged true is returned |
| Poller.DirectQueryNeedsExplicitFalse | app/main.py:279 | a document whose flag is missing or true is never returned by the direct query |
| Poller.UntimedNeverQueried | app/main.py:279-283 | neither query ever returns a document without a timestamp |
| Poller.FallbackSeesOnlyFirstBatch | app/main.py:283-287 | the fallback scan never returns a timestamped document beyond the first batch of timestamped documents, nor one flagged true |
| Poller.ScoredDocs | app/main.py:205-213 | only documents carrying `interval_score` are kept; the result is empty iff none carries one |
| Poller.SummaryOf | app/main.py:215-230 | the average is the mean of the scores, and min ≤ avg ≤ max; every score lies between min and max, and both are attained; first and last timestamps are the lexicographic extremes and come from the documents; num_intervals is the count; each feature mean exists iff `any` of its column holds, and is then the mean of the present values |
| Poller.ComputeSessionSummary | app/main.py:193-235 | "no intervals" iff there are no documents; written only when some document has a score, and then equal to the summary of the scored documents |
| Poller.LastEnv | app/main.py:240-245 | the newest document is None iff no document has a timestamp; otherwise it has one, and no later document does |
| Poller.SessionIsInactive | app/main.py:238-254 | inactive iff there is a newest document with a timestamp that parses and its age exceeds the inactivity window; false in each other case |
| Poller.Step | app/main.py:289-296 | a step whose store calls fail changes nothing; with working store calls, an id that names an environment document ends up with its ml_scores document; at most one document is appended, at that id; ids stay distinct and backed by environment documents; a flagged document keeps having its ml_scores document |
| Poller.ProcessIds | app/main.py:289-296 | the inner loop appends at most one document per id, changes only flags and keeps every id |
| Poller.ProcessIdsAppendsSelected | app/main.py:289-296 | every document the inner loop adds sits at one of the selected ids |
| Poller.ProcessIdsScoresSelected | app/main.py:289-296 | every selected id that names an environment document, and whose store calls succeed, has its ml_scores document once the inner loop is done |
| Poller.ProcessIdsKeepsDistinct | app/main.py:289-296 | the inner loop never writes an ml_scores id twice |
| Poller.ProcessIdsKeepsBacked | app/main.py:289-296 | every ml_scores document the inner loop writes sits at an environment document's id |
| Poller.ProcessIdsKeepsScored | app/main.py:176-187 | the inner loop never flags an environment document whose ml_scores document is missing, since the flag is set only after the write |
| Poller.StepKeepsShape | app/main.py:136-190 | a `process_env_doc` outcome appends at most one document at the processed id and changes only flags |
| Poller.StepScores | app/main.py:143-187 | after a call whose store calls succeed on an existing environment document, that document has its ml_scores document; a flag is set only where the ml_scores document exists |
| Poller.SummaryStep | app/main.py:299-305 | a summary is written iff none exists, the session is inactive, the summary computes and the write succeeds, and then it is that summary; a failed write is swallowed; the documents are otherwise unchanged |
| Poller.PassIds | app/main.py:274-290 | at most batch-limit ids, each the normalised id of a timestamped environment document whose flag is explicitly false, or, after the direct query raised, not true; conversely, the normalised id of every document flagged false is among them unless the limit is reached, and after the direct query raised, that of every document of the first batch not flagged true |
| Poller.SessionPass | app/main.py:274-305 | every id the query returns, once normalised, that names an environment document and whose store calls succeed ends up with its ml_scores document; a session gains at most batch-limit documents, appended at the end; an existing summary is never overwritten; a new summary appears iff the session had none, is inactive, has a computable summary and the write succeeds, and it is that summary; ids stay distinct and backed, and flagged documents keep their ml_scores documents |
| Poller.ExtendsTransitive | app/main.py:264-309 | what one pass may do to a session, two passes may do too |
| Poller.PollPass | app/main.py:264-309 | a pass keeps the session list and leaves every session beyond the first `maxSessions` untouched; with distinct session ids, every session reached before the first raising fallback scan ends up with exactly its `SessionPass` |
| Poller.PassOne | app/main.py:269-307 | one session's pass touches only that session and leaves it with exactly its `SessionPass`, which extends its documents |
| Poller.PassOver | app/main.py:269-310 | the sessions not listed are untouched; when the first session's direct query and fallback scan both raise, the pass ends and nothing changes; with distinct ids, every session reached before the first raising scan ends up with its `SessionPass` of the documents it started with |
| Poller.SessionPassScoresUnprocessed | app/main.py:276-300 | when the direct query did not fill its batch, every timestamped document flagged false whose id is already normalised and whose store calls succeed has its ml_scores document after the pass |
| Poller.DirectQueryComplete | app/main.py:279-280 | when the query returns fewer than the limit, every timestamped document flagged false is among the results |
| Poller.FallbackScanComplete | app/main.py:283-287 | every document of the first batch of timestamped documents that is not flagged true survives the filter |
| Poller.PassOverHead | app/main.py:269-307 | the head session of a pass gets its `SessionPass`, and the rest of the pass leaves it alone while each later reached session gets its own |
| Poller.FailedScanEndsPass | app/main.py:283-310 | once a session's fallback scan raises, that session and every later one not reached before are left as they were |
| Poller.PassOverExtends | app/main.py:269-310 | every session's documents are extended, by at most batch-limit per session when the list has no duplicates; distinct, backed ids and flagged documents with scores stay so |
| Poller.PollPassExtends | app/main.py:264-310 | a full pass extends every session and adds at most batch-limit ml_scores documents to any one session; ids stay distinct and backed, and a flagged environment document keeps its ml_scores document |
| Services.PendingIdx | app/services.py:38-43 | exactly the positions of readings of this session with `is_processed == False`, in stream order |
| Services.BatchIdx | app/services.py:38-43 | at most fifty matching positions, in order; all of them when no more than fifty match |
| Services.SelectBatch | app/services.py:38-43 | the batch is the matching readings at those positions |
| Services.SelectedInBatch | app/services.py:38-43 | a selected position's reading id is among the batch ids |
| Services.InBatchIffSelected | app/services.py:38-43 | with distinct ids, a reading's id is in the batch iff its position was selected |
| Services.BatchIdsDistinct | app/services.py:38-43 | a batch drawn from distinct ids has distinct ids |
| Services.FeatureRows | app/services.py:52-64 | one row per reading, [temperature, humidity, light, sound_level], with missing fields as 0 |
| Services.NewScores | app/services.py:78-91 | score document k pairs reading k's id with scores[k] and the session id |
| Services.MarkProcessed | app/services.py:93-95 | ids are kept; listed readings get `is_processed = True` and the others are unchanged |
| Services.ProcessSingleSession | app/services.py:32-101 | nothing is scored iff no reading matches; the commit happens iff the prediction and the commit succeed; otherwise the store is unchanged; a commit appends the paired scores and flags exactly the batch |
| Services.ReadingIds | app/services.py:87 | the reading ids of the score documents, in order |
| Services.CountAppend | app/services.py:78-91 | counts of score documents per reading add over concatenation |
| Services.CountDistinct | app/services.py:78-91 | with distinct reading ids, each mentioned reading has exactly one score document |
| Services.CommitKeepsPaired | app/services.py:76-97 | committing one score per unprocessed reading keeps every processed reading with exactly one score |
| Services.CommitKeepsReferences | app/services.py:85-91 | after the commit, every score document still points at an existing reading |
| Services.MarkKeepsIds | app/services.py:93-95 | marking readings changes no id |
| Services.CountAfterCommit | app/services.py:76-97 | after the commit, a reading has one score iff it is processed |
| Services.BatchCommitKeepsPaired | app/services.py:76-97 | committing a session's batch keeps the one-score-per-processed-reading pairing |
| Services.BatchScoresPointAtBatch | app/services.py:78-91 | the batch's score documents point, in order, at the batch's readings |
| Services.ProcessSingleSessionKeepsPaired | app/services.py:32-101 | a session pass, successful or not, keeps the pairing |
| Services.RerunWritesNothing | app/services.py:38-95 | after a committed pass that took every match, a second pass finds nothing and changes nothing |
| Services.RecordingIds | app/services.py:25-30 | exactly the sessions whose status is "recording", in stream order |
| Services.SessionStep | app/services.py:29-30 | one session's pass is `process_single_session`'s write batch when the batch is non-empty and goes through (readings of the batch flagged, one score per reading appended in batch order) and nothing otherwise; every reading of a batch that goes through ends up flagged and scored, and no flag is cleared |
| Services.StepScoresBatch | app/services.py:71-97 | a committed pass flags and scores every reading of its batch, and clears no flag |
| Services.ProcessSessions | app/services.py:29-30 | passes over a list of sessions keep reading ids, only append scores and clear no flag; with distinct reading ids, every listed session whose batch, taken from the starting readings, goes through ends with that whole batch flagged and scored |
| Services.OtherBatchUnchanged | app/services.py:38-43 | one session's pass leaves the batch another session's query would select unchanged, since it only flips readings of its own session |
| Services.ProcessSessionsMarksAndPairs | app/services.py:29-30 | passes over sessions only flip pending readings of those sessions, and keep the pairing |
| Services.MarkBatchOnlyMarks | app/services.py:93-95 | flagging a batch flips only pending readings of that session |
| Services.SingleSessionOnlyMarks | app/services.py:32-101 | a session pass flips only pending readings of that session |
| Services.OnlyMarksChain | app/services.py:29-30 | flips made session by session compose into flips for the whole list |
| Services.ProcessActiveSessions | app/services.py:13-30 | without a database nothing changes; otherwise every recording session whose batch goes through ends with that batch flagged and scored, with exactly one score each when the store was paired; the scorer appends scores only, flips only pending readings of recording sessions, and keeps the pairing |
| SessionStats.Present | app.py:145-152 | the present values, in order: empty iff all are None, and each comes from the input |
| SessionStats.AnyTruthy | app.py:145 | Python `any` over the column: true iff some value is present and non-zero |
| SessionStats.FeatureMeanAsWritten | app.py:145-152 | as written, the mean exists iff some value is present and non-zero, and is then the mean of the present values; both summaries use it |
| SessionStats.FeatureMean | app/main.py:226-229 | the intended mean, which the summaries do not use: None iff every value is None, and otherwise between the smallest and largest present value |
| SessionStats.AsWrittenAgreesWhenSomeValueNonZero | app.py:145-152 | when some value is non-zero, the code as written and the corrected mean agree |
| SessionStats.AsWrittenDropsAllZeroValues | app.py:145-152 | present values that are all 0 give None as written, but a mean of 0 |
| SessionStats.DarkNightHasNoLightMeanAsWritten | app.py:149 | a night of 0-lux readings has no light mean as written |
| Numeric.MinLeMeanLeMax | app.py:137-139 | the mean of a non-empty list lies between its minimum and maximum |
| Numeric.MeanOfConstant | app.py:137 | the mean of a constant list is that constant |
| Lex.MinStr | app.py:140 | Python `min` of strings: a member of the list that is lexicographically ≤ every member |
| Lex.MaxStr | app.py:141 | Python `max` of strings: a member of the list that is lexicographically ≥ every member |
| Lex.LexLeTotal | app.py:140-141 | the string order is total |
| Lex.LexLeTransitive | app.py:140-141 | the string order is transitive |
| Lex.LexLeAntisymmetric | app.py:140-141 | the string order is antisymmetric |
| AppApi.NormalizeAndValidate | app.py:37-52 | 400 iff the timestamp does not parse; otherwise the record carries the parsed timestamp and the four readings |
| AppApi.ScoreOne | app.py:59-79 | 400 iff the timestamp does not parse; the output is the hybrid prediction; with a database, the stored raw record is the validated record, and the score document under (session, timestamp) carries that timestamp, the prediction's score, rule score, residual, version and confidence, and the raw record as its input; without a database nothing is written; other documents are untouched |
| AppApi.ScoreInterval | app.py:56-79 | 401 before anything else when the key is missing; the score lies in [0, 100] |
| AppApi.ScoreBatch | app.py:83-102 | 401 with no write when the key is missing; with every timestamp parsing, processed == results == records; result i carries record i's timestamp and hybrid prediction, `written` equal to database availability and, with a database, the path of its score document; every record that no later record overwrites has its validated raw record and its score document in the store; otherwise 400 at the first bad record, with the earlier records written in the same way |
| AppApi.BatchStepHolds | app.py:83-101 | scoring one more record stores its documents and keeps those of every earlier record with a different timestamp |
| AppApi.WithScore | app.py:121-130 | only documents carrying `comfort_score`, taken from the input; empty iff none has one |
| AppApi.TrendOf | app.py:143 | increasing iff last > first, decreasing iff last < first, stable iff equal |
| AppApi.SummaryOf | app.py:135-153 | the average is the mean of the comfort scores, and min ≤ avg ≤ max, with min and max attained; first and last timestamps come from the documents; the trend compares the last score with the first; each feature mean exists iff `any` of its column holds, and is then the mean of the present values |
| AppApi.ScoreFigures | app.py:137-139 | the mean, minimum and maximum comfort score: min and max bound every score and are attained, and the mean is the mean of the scores and lies between them |
| AppApi.StatsOf | app.py:144-152 | each of the four means exists iff `any` of its input column holds, and is then the mean of the present values |
| AppApi.SessionSummary | app.py:106-160 | 401 iff the key is missing; 500 without a database; 404 iff no document has a score; otherwise the summary of the scored documents |
| AppApi.UnscoredDocsAreIgnored | app.py:123 | a document without `comfort_score` does not change the summary |
| AppApi.WithScoreAppendUnscored | app.py:123 | an appended unscored document is filtered out |
| AppApi.LevelSessionIsStable | app.py:137-143 | a session whose scores never change has a stable trend, and its average is that score |
| Fite.NormalizeTs | fite.py:60-62 | same length; each space becomes `_` and each `:` becomes `-`, with all else kept; the output has no space or colon |
| Fite.NormalizeTsIdempotent | fite.py:60-62 | normalising twice is normalising once |
| Fite.NormalizeTsFixesSafeIds | fite.py:60-62 | an id without spaces or colons is its own normal form |
| Fite.NormalizeTsCollides | fite.py:60-62 | two different timestamps can share a document id |
| Fite.Segment | fite.py:89-96 | the if-chain's band matches the score: ≥ 80 excellent, [60, 80) good, [40, 60) fair, < 40 poor |
| Fite.SegmentInline | fite.py:159 | the inline conditional's band matches the score |
| Fite.BandsPartition | fite.py:89-96 | each score lies in exactly one band |
| Fite.ClassifiersAgree | fite.py:89-159 | the two classifiers agree on every score |
| Fite.SegmentMonotone | fite.py:89-96 | a higher score never gets a lower band |
| Fite.Features | fite.py:78-83 | the model row is [temperature, humidity, noise, light] |
| Fite.PredictEnvironment | fite.py:75-127 | 500 iff the model fails; the response keeps the timestamp and the model's score, and its band matches the score; with a database, the log and the prediction are stored under the same normalised id; without one, nothing changes |
| Fite.Visit | fite.py:140-170 | the run stops at a log exactly when its id has no prediction and the model fails; a log whose id already has a prediction leaves the state unchanged |
| Fite.RunStartupPrediction | fite.py:134-170 | existing predictions are kept; each id is written at most once and only if it was absent; each write comes from a log with that id, scored by the model with a matching band; a completed run covers every log's id; an interrupted run stopped at a failing, unpredicted log; a run where every id is already predicted changes nothing |
| Fite.CompletedRunKeys | fite.py:140-170 | after a completed run, the predicted ids are exactly the old ids plus the logs' ids |
| Fite.SecondRunChangesNothing | fite.py:145-148 | when every log's id is already predicted, the backfill writes nothing |
| Drafts.ServiceAgreesWithApi | model_service.py:24-30 | with non-zero temperature, humidity and noise, the model service's rule score equals `main.py`'s |
| Drafts.ZeroTemperatureSplitsDrafts | model_service.py:25 | 0 °C scores 100 in the model service (read as missing) but 30 in `main.py` |
| Drafts.PollerNeverAboveApi | app/main.py:102-103 | the poller's single-slope light term never scores above `main.py`, and agrees up to 10 lux |
| Drafts.SleepRulesIdealIsPenalisedByApi | app/sleep_rules.py:4-6 | the sleep-rules ideal room scores 100 there but 46.75 under `main.py`'s ideals |

## Left out

- HTTP transport: FastAPI routing, Pydantic validation and header plumbing. Only the 400/401/404/500 outcomes are kept, as `Err` results.
- Firebase bootstrapping, credentials and client set-up. Where the modelled operations test for a database, its availability is a boolean parameter.
- Model loading (`ModelWrapper.load_model`, `ResidualModel.load`, joblib). The model is an uninterpreted, possibly failing function together with its version.
- Timestamp parsing and the clock. They are parameters: in `app.py` a parser returning `Option`; in the poller a parser to epoch seconds, the current epoch second, and the rendering `parse_to_utc_iso` gives a string that does not end in `Z`. That rendering is one fixed function per pass, so its fallback to the current time reads the clock once.
- Standard deviations in the `app.py` summary. They need square roots and floating point; only the means are modelled.
- `asyncio` scheduling of the poller: the sleeps, restarts and the endless loop. One pass is modelled.
- Server timestamps (`created_at`, `_ml_processed_at`) and auto-generated score document ids. They are clock and database values with no bearing on the logic.
- The summary write at the end of `session_summary` in `app.py`. It uses a name the file never imports, so only the computation before it is modelled.
- The health, model-info, model-reload and Firestore connectivity endpoints. They only report configuration.
- The `if not features_batch` guard in `app/services.py`. Feature extraction cannot raise, so the guard is unreachable; the model returns "nothing to score" only for an empty batch.
- `process_finished_sessions`. It is imported by a test but defined nowhere in the repository.
- Maintenance scripts, the training script, the hardware simulator and the Firestore write helpers. They are I/O plumbing.
- Fite.PredictEnvironment: the request schema makes all four readings required floats. A stored log missing a field would raise `KeyError` in the backfill; that case is not modelled, and logs carry every field.
- Fite.RunStartupPrediction: the early return when no database is configured (fite.py:135-136) is not modelled; the backfill always runs against the given collections.
- Fite.RunStartupPrediction: a model exception aborts the rest of the startup. The model returns `ok == false` with the predictions written so far and does not model the exception's effect on the server start.
- AppApi.SummaryOf: timestamps are always present strings. Python's `min` over a list that mixes `None` and strings raises `TypeError`; that case is not modelled.
- Poller.SummaryOf: likewise, ml_scores timestamps are strings. Every document this processor writes carries one.
- Poller.SessionPass: the order of the environment collection stands in for the timestamp order of the queries; documents whose stored timestamps disagree with their position are not modelled.
- Poller.PollPass: `list_documents` itself raising, which ends the pass before any session, is not modelled; the session list is given.
- `predict_batch`, which `app/services.py` imports at line 3, is not defined in `app/model_loader.py`, which has only `load_model` and `predict`. The batch predictor is a parameter, so the import error that would stop the module from loading is not modelled.
- Services.FeatureRows: an explicit null reading is read as 0. In the source, `data.get("temperature", 0)` returns `None` for a field that is present with a null value, and the model would receive `None`. Readings are `Option`s, which cannot tell a null field from an absent one.
- Not-a-number and infinite readings are not modelled; all readings are finite reals.

## Findings

| source | as written | input that shows it | evidently intended | confidence | as-written member | corrected member |
|---|---|---|---|---|---|---|
| app.py:145-152, app/main.py:226-229 | a feature mean is reported only when `any(values)` holds, so a list whose present values are all 0 gets no mean | light readings [0.0, 0.0] from a dark bedroom: `light_mean` is None, though both readings are present and their mean is 0 | the mean is None only when no value is present, as the list comprehension that filters out `None` suggests | not executed | SessionStats.FeatureMeanAsWritten (shown by SessionStats.DarkNightHasNoLightMeanAsWritten) | SessionStats.FeatureMean (proved by SessionStats.AsWrittenDropsAllZeroValues) |

=== FILE: app_api.dfy ===
/** The five-minute scoring service of `app.py`: single and batch interval
    scoring, which store the raw interval and its hybrid score under the
    interval's UTC timestamp, and the session summary over stored scores. */
module AppApi {
  import opened Wrappers
  import opened Numeric
  import opened Lex
  import opened Residual
  import ModelService
  import SessionStats

  const UnauthorizedStatus: int := 401
  const BadTimestampStatus: int := 400
  const NoScoresStatus: int := 404
  const NoDatabaseStatus: int := 500

  /** An interval as posted (`IntervalPayload`). */
  datatype IntervalPayload = IntervalPayload(timestamp: string, tempC: Option<real>, humidityPct: Option<real>,
                                             lightLux: Option<real>, noiseDb: Option<real>,
                                             clientIngestId: Option<string>)

  /** The environment record `normalize_and_validate` builds. */
  datatype EnvRecord = EnvRecord(timestamp: string, tempC: Option<real>, humidityPct: Option<real>,
                                 lightLux: Option<real>, noiseDb: Option<real>, clientIngestId: Option<string>)

  /** The ml_scores payload an interval produces. */
  datatype MlRecord = MlRecord(timestamp: string, comfortScore: real, ruleScore: real, residual: real,
                               modelVersion: Option<string>, confidence: real, input: EnvRecord)

  /** Documents keyed by (session id, UTC timestamp); `doc.set` overwrites. */
  datatype AppStore = AppStore(env: map<(string, string), EnvRecord>, ml: map<(string, string), MlRecord>)

  /** One scored interval in a response. */
  datatype ItemResult = ItemResult(timestamp: string, written: bool, firebasePath: Option<string>,
                                   out: ModelService.HybridResult)

  datatype BatchResult = BatchResult(processed: nat, results: seq<ItemResult>)

  /** The document path `write_ml_score` reports. */
  function MlPath(sid: string, iso: string): string
  {
    "sessions/" + sid + "/ml_scores/" + iso
  }

  /** `normalize_and_validate`: the timestamp is parsed to UTC ISO form
      (`parse` stands for `parse_to_utc_iso`; `None` means it raised), which
      becomes a 400; the readings are copied as they are. */
  function NormalizeAndValidate(p: IntervalPayload, parse: string -> Option<string>): (r: Result<EnvRecord, HttpError>)
    ensures r.Err? <==> parse(p.timestamp).None?
    ensures r.Err? ==> r.error.status == BadTimestampStatus
    ensures r.Ok? ==> r.value.timestamp == parse(p.timestamp).value
                      && r.value.tempC == p.tempC && r.value.humidityPct == p.humidityPct
                      && r.value.lightLux == p.lightLux && r.value.noiseDb == p.noiseDb
                      && r.value.clientIngestId == p.clientIngestId
  {
    match parse(p.timestamp)
    case None => Err(HttpError(BadTimestampStatus))
    case Some(iso) => Ok(EnvRecord(iso, p.tempC, p.humidityPct, p.lightLux, p.noiseDb, p.clientIngestId))
  }

  /** The body shared by both scoring endpoints, after the key check: write
      the raw record, score it, write the score. Without a database nothing is
      written and `written` is false. */
  function ScoreOne(store: AppStore, sid: string, p: IntervalPayload, parse: string -> Option<string>,
                    dbAvailable: bool, model: Option<Regressor>): (r: Result<(AppStore, ItemResult), HttpError>)
    ensures r.Err? <==> parse(p.timestamp).None?
    ensures r.Err? ==> r.error.status == BadTimestampStatus
    ensures r.Ok? ==>
              var iso := parse(p.timestamp).value;
              var (store', item) := r.value;
              && item.timestamp == iso
              && item.out == ModelService.HybridPredict(p.tempC, p.humidityPct, p.noiseDb, p.lightLux, model)
              && item.written == dbAvailable
              && (dbAvailable ==> item.firebasePath == Some(MlPath(sid, iso)))
              && (!dbAvailable ==> item.firebasePath.None? && store' == store)
              && (dbAvailable ==>
                    && (sid, iso) in store'.env && (sid, iso) in store'.ml
                    && store'.env[(sid, iso)] == NormalizeAndValidate(p, parse).value
                    && store'.env[(sid, iso)].tempC == p.tempC
                    && store'.env[(sid, iso)].noiseDb == p.noiseDb
                    && store'.ml[(sid, iso)].timestamp == iso
                    && store'.ml[(sid, iso)].comfortScore == item.out.intervalScore
                    && store'.ml[(sid, iso)].ruleScore == item.out.ruleScore
                    && store'.ml[(sid, iso)].residual == item.out.residual
                    && store'.ml[(sid, iso)].modelVersion == item.out.modelVersion
                    && store'.ml[(sid, iso)].confidence == item.out.confidence
                    && store'.ml[(sid, iso)].input == store'.env[(sid, iso)])
              && (forall k :: k != (sid, iso) && k in store.env ==> k in store'.env && store'.env[k] == store.env[k])
              && (forall k :: k != (sid, iso) && k in store.ml ==> k in store'.ml && store'.ml[k] == store.ml[k])
              && store.env.Keys <= store'.env.Keys && store.ml.Keys <= store'.ml.Keys
  {
    match NormalizeAndValidate(p, parse)
    case Err(e) => Err(e)
    case Ok(env) =>
      var iso := env.timestamp;
      var out := ModelService.HybridPredict(env.tempC, env.humidityPct, env.noiseDb, env.lightLux, model);
      if !dbAvailable then Ok((store, ItemResult(iso, false, None, out)))
      else
        var ml := MlRecord(iso, out.intervalScore, out.ruleScore, out.residual, out.modelVersion, out.confidence, env);
        var store' := AppStore(store.env[(sid, iso) := env], store.ml[(sid, iso) := ml]);
        Ok((store', ItemResult(iso, true, Some(MlPath(sid, iso)), out)))
  }

  /** `score_interval`: a missing key is a 401 before anything else. */
  function ScoreInterval(store: AppStore, sid: string, p: IntervalPayload, apiKey: Option<string>,
                         parse: string -> Option<string>, dbAvailable: bool, model: Option<Regressor>)
    : (r: Result<(AppStore, ItemResult), HttpError>)
    ensures apiKey.None? ==> r == Err(HttpError(UnauthorizedStatus))
    ensures apiKey.Some? ==> r == ScoreOne(store, sid, p, parse, dbAvailable, model)
    ensures r.Ok? ==> 0.0 <= r.value.1.out.intervalScore <= 100.0
  {
    if apiKey.None? then Err(HttpError(UnauthorizedStatus))
    else ScoreOne(store, sid, p, parse, dbAvailable, model)
  }

  /** The index of the first record whose timestamp does not parse. */
  predicate FirstBadAt(records: seq<IntervalPayload>, parse: string -> Option<string>, i: nat)
  {
    i < |records| && parse(records[i].timestamp).None?
    && forall j :: 0 <= j < i ==> parse(records[j].timestamp).Some?
  }

  /** No record after the `j`-th and before the `n`-th has the same parsed
      timestamp, so none of them overwrote its documents. */
  predicate NotOverwritten(records: seq<IntervalPayload>, parse: string -> Option<string>, j: nat, n: nat)
    requires j < |records| && n <= |records|
  {
    forall k :: j < k < n ==> parse(records[k].timestamp) != parse(records[j].timestamp)
  }

  /** The store holds what scoring `p` writes: the validated environment
      record and the score document built from the hybrid prediction, both
      at `p`'s parsed timestamp. */
  predicate Holds(store: AppStore, sid: string, p: IntervalPayload, parse: string -> Option<string>,
                  model: Option<Regressor>)
  {
    && parse(p.timestamp).Some?
    && var iso := parse(p.timestamp).value;
       var out := ModelService.HybridPredict(p.tempC, p.humidityPct, p.noiseDb, p.lightLux, model);
       && (sid, iso) in store.env && (sid, iso) in store.ml
       && store.env[(sid, iso)] == NormalizeAndValidate(p, parse).value
       && store.ml[(sid, iso)].timestamp == iso
       && store.ml[(sid, iso)].comfortScore == out.intervalScore
       && store.ml[(sid, iso)].ruleScore == out.ruleScore
       && store.ml[(sid, iso)].residual == out.residual
       && store.ml[(sid, iso)].modelVersion == out.modelVersion
       && store.ml[(sid, iso)].confidence == out.confidence
       && store.ml[(sid, iso)].input == store.env[(sid, iso)]
  }

  /** `item` is the response to record `p`: its parsed timestamp, its hybrid
      score, whether it was written, and the path it was written under. */
  predicate ItemFor(item: ItemResult, sid: string, p: IntervalPayload, parse: string -> Option<string>,
                    dbAvailable: bool, model: Option<Regressor>)
  {
    && parse(p.timestamp).Some?
    && item.timestamp == parse(p.timestamp).value
    && item.out == ModelService.HybridPredict(p.tempC, p.humidityPct, p.noiseDb, p.lightLux, model)
    && item.written == dbAvailable
    && item.firebasePath == (if dbAvailable then Some(MlPath(sid, item.timestamp)) else None)
  }

  /** `score_batch`: after the key check, each record in turn is validated,
      written and scored. A bad timestamp stops the batch with a 400; the
      records before it stay written. Records sharing a timestamp share a
      document, so the last of them is the one stored. */
  method ScoreBatch(store: AppStore, sid: string, records: seq<IntervalPayload>, apiKey: Option<string>,
                    parse: string -> Option<string>, dbAvailable: bool, model: Option<Regressor>)
    returns (r: Result<BatchResult, HttpError>, store': AppStore)
    ensures apiKey.None? ==> r == Err(HttpError(UnauthorizedStatus)) && store' == store
    ensures apiKey.Some? && (forall i :: 0 <= i < |records| ==> parse(records[i].timestamp).Some?) ==> r.Ok?
    ensures r.Ok? ==>
              && r.value.processed == |r.value.results| == |records|
              && (forall i :: 0 <= i < |records| ==> ItemFor(r.value.results[i], sid, records[i], parse, dbAvailable, model))
              && (dbAvailable ==> forall i :: 0 <= i < |records| ==> (sid, r.value.results[i].timestamp) in store'.ml)
    ensures r.Ok? && dbAvailable ==>
              forall i :: 0 <= i < |records| && NotOverwritten(records, parse, i, |records|) ==>
                Holds(store', sid, records[i], parse, model)
    ensures r.Err? && apiKey.Some? ==>
              && r.error.status == BadTimestampStatus
              && exists bad: nat :: FirstBadAt(records, parse, bad)
                   && (forall j :: 0 <= j < bad && dbAvailable ==> (sid, parse(records[j].timestamp).value) in store'.ml)
                   && (forall j :: 0 <= j < bad && dbAvailable && NotOverwritten(records, parse, j, bad) ==>
                         Holds(store', sid, records[j], parse, model))
    ensures store.ml.Keys <= store'.ml.Keys && store.env.Keys <= store'.env.Keys
    ensures !dbAvailable ==> store' == store
  {
    store' := store;
    if apiKey.None? {
      return Err(HttpError(UnauthorizedStatus)), store';
    }
    var results: seq<ItemResult> := [];
    var i := 0;
    while i < |records|
      invariant i <= |records|
      invariant ScoredSoFar(store, store', sid, records, parse, dbAvailable, model, results, i)
    {
      var step := ScoreOne(store', sid, records[i], parse, dbAvailable, model);
      if step.Err? {
        assert FirstBadAt(records, parse, i);
        return Err(step.error), store';
      }
      ScoredSoFarStep(store, store', sid, records, parse, dbAvailable, model, results, i);
      store' := step.value.0;
      results := results + [step.value.1];
      i := i + 1;
    }
    r := Ok(BatchResult(|results|, results));
  }

  /** After the first `i` records: one result per record, each the record's
      item; with a database, their keys stored and the documents of every
      record not overwritten since; nothing removed; nothing written without
      a database. */
  predicate ScoredSoFar(store: AppStore, store': AppStore, sid: string, records: seq<IntervalPayload>,
                        parse: string -> Option<string>, dbAvailable: bool, model: Option<Regressor>,
                        results: seq<ItemResult>, i: nat)
    requires i <= |records|
  {
    && |results| == i
    && (forall j :: 0 <= j < i ==> ItemFor(results[j], sid, records[j], parse, dbAvailable, model))
    && (dbAvailable ==> forall j :: 0 <= j < i ==> (sid, parse(records[j].timestamp).value) in store'.ml)
    && (dbAvailable ==>
          forall j :: 0 <= j < i && NotOverwritten(records, parse, j, i) ==> Holds(store', sid, records[j], parse, model))
    && store.ml.Keys <= store'.ml.Keys && store.env.Keys <= store'.env.Keys
    && (!dbAvailable ==> store' == store)
  }

  /** Scoring one more record keeps `ScoredSoFar`. */
  lemma ScoredSoFarStep(store: AppStore, store': AppStore, sid: string, records: seq<IntervalPayload>,
                        parse: string -> Option<string>, dbAvailable: bool, model: Option<Regressor>,
                        results: seq<ItemResult>, i: nat)
    requires i < |records|
    requires ScoredSoFar(store, store', sid, records, parse, dbAvailable, model, results, i)
    requires ScoreOne(store', sid, records[i], parse, dbAvailable, model).Ok?
    ensures var (store'', item) := ScoreOne(store', sid, records[i], parse, dbAvailable, model).value;
            ScoredSoFar(store, store'', sid, records, parse, dbAvailable, model, results + [item], i + 1)
  {
    var (store'', item) := ScoreOne(store', sid, records[i], parse, dbAvailable, model).value;
    var results' := results + [item];
    assert ItemFor(item, sid, records[i], parse, dbAvailable, model);
    forall j | 0 <= j < i + 1 ensures ItemFor(results'[j], sid, records[j], parse, dbAvailable, model) {
      if j < i {
        assert results'[j] == results[j];
      }
    }
    if dbAvailable {
      forall j | 0 <= j < i + 1 ensures (sid, parse(records[j].timestamp).value) in store''.ml {
        if j < i {
          assert (sid, parse(records[j].timestamp).value) in store'.ml;
        }
      }
      BatchStepHolds(store', store'', sid, records, parse, model, i);
    }
  }

  /** Scoring the `i`-th record keeps every earlier record's documents that
      it does not overwrite, and stores its own. */
  lemma BatchStepHolds(store: AppStore, store': AppStore, sid: string, records: seq<IntervalPayload>,
                       parse: string -> Option<string>, model: Option<Regressor>, i: nat)
    requires i < |records|
    requires ScoreOne(store, sid, records[i], parse, true, model).Ok?
    requires store' == ScoreOne(store, sid, records[i], parse, true, model).value.0
    requires forall j :: 0 <= j < i && NotOverwritten(records, parse, j, i) ==> Holds(store, sid, records[j], parse, model)
    ensures forall j :: 0 <= j < i + 1 && NotOverwritten(records, parse, j, i + 1) ==>
              Holds(store', sid, records[j], parse, model)
  {
    var iso := parse(records[i].timestamp).value;
    forall j | 0 <= j < i + 1 && NotOverwritten(records, parse, j, i + 1)
      ensures Holds(store', sid, records[j], parse, model)
    {
      if j < i {
        assert parse(records[i].timestamp) != parse(records[j].timestamp);
        assert NotOverwritten(records, parse, j, i);
      }
    }
  }

  /** An ml_scores document as the summary reads it: `comfort_score` and
      `input` may be absent (documents the poller writes carry neither). */
  datatype StoredScore = StoredScore(comfortScore: Option<real>, timestamp: string, input: Option<EnvRecord>)

  datatype Trend = Increasing | Decreasing | Stable

  /** The statistics block, means only. */
  datatype Stats = Stats(tempMean: Option<real>, humidityMean: Option<real>, lightMean: Option<real>,
                         noiseMean: Option<real>)

  datatype AppSummary = AppSummary(sessionId: string, avgComfortScore: real, minScore: real, maxScore: real,
                                   firstTimestamp: string, lastTimestamp: string, modelVersion: Option<string>,
                                   comfortTrend: Trend, stats: Stats)

  /** The documents carrying `comfort_score`, in stream order. */
  function WithScore(docs: seq<StoredScore>): (r: seq<StoredScore>)
    ensures |r| <= |docs|
    ensures forall k :: 0 <= k < |r| ==> r[k].comfortScore.Some?
    ensures |r| == 0 <==> forall i :: 0 <= i < |docs| ==> docs[i].comfortScore.None?
    ensures forall k :: 0 <= k < |r| ==> r[k] in docs
  {
    if |docs| == 0 then []
    else
      var rest := WithScore(docs[1..]);
      assert forall i :: 1 <= i < |docs| ==> docs[i] == docs[1..][i - 1];
      if docs[0].comfortScore.Some? then [docs[0]] + rest else rest
  }

  /** Whether the session improved, got worse or stayed level, judged from the
      last score against the first. */
  function TrendOf(first: real, last: real): (t: Trend)
    ensures t == Increasing <==> last > first
    ensures t == Decreasing <==> last < first
    ensures t == Stable <==> last == first
  {
    if last > first then Increasing else if last < first then Decreasing else Stable
  }

  function ScoreColumn(docs: seq<StoredScore>): (r: seq<real>)
    requires forall k :: 0 <= k < |docs| ==> docs[k].comfortScore.Some?
    ensures |r| == |docs|
    ensures forall k {:trigger docs[k]} :: 0 <= k < |docs| ==> r[k] == docs[k].comfortScore.value
  {
    seq(|docs|, k requires 0 <= k < |docs| => docs[k].comfortScore.value)
  }

  function ScoreTimestamp(d: StoredScore): string { d.timestamp }

  lemma TimestampWitness(scored: seq<StoredScore>, v: string)
    requires v in StringColumn(scored, ScoreTimestamp)
    ensures exists k :: 0 <= k < |scored| && scored[k].timestamp == v
  {
    var k := ColumnSource(scored, ScoreTimestamp, v);
    assert ScoreTimestamp(scored[k]) == v;
  }

  /** A reading of the nested `input` map; an absent map reads as empty. */
  function InputOf(d: StoredScore, field: EnvRecord -> Option<real>): Option<real>
  {
    if d.input.Some? then field(d.input.value) else None
  }

  /** The reading fields of an environment record. */
  function TempIn(e: EnvRecord): Option<real> { e.tempC }
  function HumidityIn(e: EnvRecord): Option<real> { e.humidityPct }
  function LightIn(e: EnvRecord): Option<real> { e.lightLux }
  function NoiseIn(e: EnvRecord): Option<real> { e.noiseDb }

  function InputColumn(docs: seq<StoredScore>, field: EnvRecord -> Option<real>): (r: seq<Option<real>>)
    ensures |r| == |docs|
    ensures forall k :: 0 <= k < |docs| ==> r[k] == InputOf(docs[k], field)
  {
    seq(|docs|, k requires 0 <= k < |docs| => InputOf(docs[k], field))
  }

  /** The summary of scored documents. */
  function SummaryOf(sid: string, scored: seq<StoredScore>, modelVersion: Option<string>): (s: AppSummary)
    requires |scored| > 0
    requires forall k :: 0 <= k < |scored| ==> scored[k].comfortScore.Some?
    ensures s.sessionId == sid && s.modelVersion == modelVersion
    ensures s.avgComfortScore == Mean(ScoreColumn(scored))
    ensures s.minScore <= s.avgComfortScore <= s.maxScore
    ensures forall k :: 0 <= k < |scored| ==> s.minScore <= scored[k].comfortScore.value <= s.maxScore
    ensures exists k :: 0 <= k < |scored| && scored[k].comfortScore.value == s.minScore
    ensures exists k :: 0 <= k < |scored| && scored[k].comfortScore.value == s.maxScore
    ensures forall k :: 0 <= k < |scored| ==>
              LexLe(s.firstTimestamp, scored[k].timestamp) && LexLe(scored[k].timestamp, s.lastTimestamp)
    ensures exists k :: 0 <= k < |scored| && scored[k].timestamp == s.firstTimestamp
    ensures exists k :: 0 <= k < |scored| && scored[k].timestamp == s.lastTimestamp
    ensures s.comfortTrend == TrendOf(scored[0].comfortScore.value, scored[|scored| - 1].comfortScore.value)
    ensures SessionStats.ReportedAsWritten(s.stats.tempMean, InputColumn(scored, TempIn))
    ensures SessionStats.ReportedAsWritten(s.stats.humidityMean, InputColumn(scored, HumidityIn))
    ensures SessionStats.ReportedAsWritten(s.stats.lightMean, InputColumn(scored, LightIn))
    ensures SessionStats.ReportedAsWritten(s.stats.noiseMean, InputColumn(scored, NoiseIn))
  {
    var (avg, lo, hi) := ScoreFigures(scored);
    var timestamps := StringColumn(scored, ScoreTimestamp);
    TimestampWitness(scored, MinStr(timestamps));
    TimestampWitness(scored, MaxStr(timestamps));
    AppSummary(sid, avg, lo, hi, MinStr(timestamps), MaxStr(timestamps), modelVersion,
               TrendOf(scored[0].comfortScore.value, scored[|scored| - 1].comfortScore.value), StatsOf(scored))
  }

  /** The mean, minimum and maximum comfort score: the minimum and maximum
      bound every score and are attained, and the mean lies between them. */
  function ScoreFigures(scored: seq<StoredScore>): (r: (real, real, real))
    requires |scored| > 0
    requires forall k :: 0 <= k < |scored| ==> scored[k].comfortScore.Some?
    ensures r.0 == Mean(ScoreColumn(scored))
    ensures r.1 <= r.0 <= r.2
    ensures forall k :: 0 <= k < |scored| ==> r.1 <= scored[k].comfortScore.value <= r.2
    ensures exists k :: 0 <= k < |scored| && scored[k].comfortScore.value == r.1
    ensures exists k :: 0 <= k < |scored| && scored[k].comfortScore.value == r.2
  {
    var scores := ScoreColumn(scored);
    MinLeMeanLeMax(scores);
    (Mean(scores), SeqMin(scores), SeqMax(scores))
  }

  /** The means of the four readings of the nested `input` maps, each guarded
      by `any(values)` as the source writes it: a reading that is 0 or missing
      in every document gets no mean. */
  function StatsOf(scored: seq<StoredScore>): (st: Stats)
    ensures SessionStats.ReportedAsWritten(st.tempMean, InputColumn(scored, TempIn))
    ensures SessionStats.ReportedAsWritten(st.humidityMean, InputColumn(scored, HumidityIn))
    ensures SessionStats.ReportedAsWritten(st.lightMean, InputColumn(scored, LightIn))
    ensures SessionStats.ReportedAsWritten(st.noiseMean, InputColumn(scored, NoiseIn))
  {
    Stats(SessionStats.FeatureMeanAsWritten(InputColumn(scored, TempIn)),
          SessionStats.FeatureMeanAsWritten(InputColumn(scored, HumidityIn)),
          SessionStats.FeatureMeanAsWritten(InputColumn(scored, LightIn)),
          SessionStats.FeatureMeanAsWritten(InputColumn(scored, NoiseIn)))
  }

  /** `session_summary`, without its write: 401 without a key, 500 without a
      database, 404 when no document carries a score. */
  function SessionSummary(sid: string, docs: seq<StoredScore>, apiKey: Option<string>, dbAvailable: bool,
                          modelVersion: Option<string>): (r: Result<AppSummary, HttpError>)
    ensures apiKey.None? <==> r == Err(HttpError(UnauthorizedStatus))
    ensures apiKey.Some? && !dbAvailable ==> r == Err(HttpError(NoDatabaseStatus))
    ensures apiKey.Some? && dbAvailable ==>
              (r == Err(HttpError(NoScoresStatus)) <==> forall i :: 0 <= i < |docs| ==> docs[i].comfortScore.None?)
    ensures r.Ok? ==> 0 < |WithScore(docs)| && r.value == SummaryOf(sid, WithScore(docs), modelVersion)
  {
    if apiKey.None? then Err(HttpError(UnauthorizedStatus))
    else if !dbAvailable then Err(HttpError(NoDatabaseStatus))
    else
      var scored := WithScore(docs);
      if |scored| == 0 then Err(HttpError(NoScoresStatus))
      else Ok(SummaryOf(sid, scored, modelVersion))
  }

  /** Documents without `comfort_score` do not change the summary. */
  lemma UnscoredDocsAreIgnored(sid: string, docs: seq<StoredScore>, extra: StoredScore, apiKey: Option<string>,
                               modelVersion: Option<string>)
    requires extra.comfortScore.None?
    ensures SessionSummary(sid, docs + [extra], apiKey, true, modelVersion)
            == SessionSummary(sid, docs, apiKey, true, modelVersion)
  {
    WithScoreAppendUnscored(docs, extra);
  }

  lemma {:induction false} WithScoreAppendUnscored(docs: seq<StoredScore>, extra: StoredScore)
    requires extra.comfortScore.None?
    ensures WithScore(docs + [extra]) == WithScore(docs)
  {
    if |docs| > 0 {
      assert (docs + [extra])[1..] == docs[1..] + [extra];
      WithScoreAppendUnscored(docs[1..], extra);
    } else {
      assert WithScore([extra]) == WithScore([extra][1..]);
    }
  }

  /** A session whose scores never change has a stable trend. */
  lemma LevelSessionIsStable(sid: string, docs: seq<StoredScore>, apiKey: Option<string>,
                             modelVersion: Option<string>, v: real)
    requires forall i :: 0 <= i < |docs| ==> docs[i].comfortScore == Some(v)
    requires apiKey.Some? && |docs| > 0
    ensures SessionSummary(sid, docs, apiKey, true, modelVersion).Ok?
    ensures SessionSummary(sid, docs, apiKey, true, modelVersion).value.comfortTrend == Stable
    ensures SessionSummary(sid, docs, apiKey, true, modelVersion).value.avgComfortScore == v
  {
    var scored := WithScore(docs);
    assert docs[0].comfortScore.Some?;
    assert forall k :: 0 <= k < |scored| ==> scored[k].comfortScore == Some(v);
    var scores := ScoreColumn(scored);
    assert scores == seq(|scores|, k => v);
    MeanOfConstant(scores, v);
  }
}

=== FILE: drafts.dfy ===
/** How the rule-scorer drafts relate: where the root API's scorer and the
    model service's scorer coincide, where Python's `or` splits them, how the
    poller's single-slope light term compares, and how far apart the
    sleep-rules draft's ideals put it. */
module Drafts {
  import opened Wrappers
  import opened Numeric
  import LightCurve
  import SleepRules
  import ModelService
  import ScoringApi
  import Poller

  /** With every reading present and temperature, humidity and noise non-zero,
      the model service scores exactly as the root API does. */
  lemma ServiceAgreesWithApi(t: real, h: real, n: real, l: real)
    requires t != 0.0 && h != 0.0 && n != 0.0
    ensures ModelService.RuleScore(Some(t), Some(h), Some(n), Some(l)) == ScoringApi.RuleScore(t, h, n, l)
  {
    LightCurve.HingeZeroIffDark(LightCurve.EffectiveLux(l, Some(ScoringApi.RuleLowerLimit)));
    LightCurve.HingeZeroIffDark(l);
  }

  /** A reading of exactly 0 °C is the ideal for the model service (its `or`
      replaces it) but a 70-point penalty for the root API. */
  lemma ZeroTemperatureSplitsDrafts()
    ensures ModelService.RuleScore(Some(0.0), Some(50.0), Some(30.0), Some(0.0)) == 100.0
    ensures ScoringApi.RuleScore(0.0, 50.0, 30.0, 0.0) == 30.0
  {
    LightCurve.HingeZeroIffDark(0.0);
    LightCurve.HingeZeroIffDark(ScoringApi.RuleLowerLimit);
  }

  /** The poller's light term never charges less than the two-breakpoint
      curve, and equals it up to the 10 lux knee; everything else coincides. */
  lemma PollerNeverAboveApi(t: real, h: real, n: real, l: real)
    ensures Poller.RuleScoreFn(Some(t), Some(h), Some(n), Some(l)) <= ScoringApi.RuleScore(t, h, n, l)
    ensures l <= LightCurve.Knee ==>
              Poller.RuleScoreFn(Some(t), Some(h), Some(n), Some(l)) == ScoringApi.RuleScore(t, h, n, l)
  {
    var e := LightCurve.EffectiveLux(l, Some(ScoringApi.RuleLowerLimit));
    LightCurve.HingeZeroIffDark(e);
    LightCurve.HingeAtKnee();
    assert l > 1.0 ==> e == l;
  }

  /** The sleep-rules draft's ideal room scores 100 there and 46.75 under
      the root API's ideals. */
  lemma SleepRulesIdealIsPenalisedByApi()
    ensures SleepRules.DefaultRuleScore(Some(25.5), Some(60.0), Some(45.0), Some(0.0)) == 100.0
    ensures ScoringApi.RuleScore(25.5, 60.0, 45.0, 0.0) == 46.75
  {
    SleepRules.IdealPointScoresFull(45.0, 0.0);
    LightCurve.HingeZeroIffDark(ScoringApi.RuleLowerLimit);
  }
}

=== FILE: fite.dfy ===
/** The environment predictor of `fite.py`: a raw model score per reading,
    classified into four comfort segments and stored under a Firestore-safe
    form of the reading's timestamp, plus the startup backfill that predicts
    every stored log still lacking a prediction. */
module Fite {
  import opened Wrappers

  const Excellent: string := "excellent"
  const Good: string := "good"
  const Fair: string := "fair"
  const Poor: string := "poor"

  /** An uncaught exception in an endpoint becomes a 500. */
  const ServerErrorStatus: int := 500

  /** `normalize_ts`: every space becomes `_` and every `:` becomes `-`. */
  function NormalizeTs(ts: string): (r: string)
    ensures |r| == |ts|
    ensures forall i :: 0 <= i < |ts| ==>
              r[i] == (if ts[i] == ' ' then '_' else if ts[i] == ':' then '-' else ts[i])
    ensures forall i :: 0 <= i < |r| ==> r[i] != ' ' && r[i] != ':'
  {
    seq(|ts|, i requires 0 <= i < |ts| => if ts[i] == ' ' then '_' else if ts[i] == ':' then '-' else ts[i])
  }

  /** Normalising twice is normalising once. */
  lemma NormalizeTsIdempotent(ts: string)
    ensures NormalizeTs(NormalizeTs(ts)) == NormalizeTs(ts)
  {
  }

  /** A timestamp without spaces or colons is already its own document id. */
  lemma NormalizeTsFixesSafeIds(ts: string)
    requires forall i :: 0 <= i < |ts| ==> ts[i] != ' ' && ts[i] != ':'
    ensures NormalizeTs(ts) == ts
  {
  }

  /** Different timestamps can share a document id, so one overwrites the other's log. */
  lemma NormalizeTsCollides()
    ensures NormalizeTs("2:52 PM") == NormalizeTs("2-52_PM")
    ensures "2:52 PM" != "2-52_PM"
  {
    assert "2:52 PM"[1] != "2-52_PM"[1];
  }

  /** The score bands, as a reference for both classifiers. */
  predicate InBand(score: real, seg: string)
  {
    || (seg == Excellent && score >= 80.0)
    || (seg == Good && 60.0 <= score < 80.0)
    || (seg == Fair && 40.0 <= score < 60.0)
    || (seg == Poor && score < 40.0)
  }

  /** The classification chain of `predict_environment`. */
  function Segment(score: real): (seg: string)
    ensures InBand(score, seg)
  {
    if score >= 80.0 then Excellent
    else if score >= 60.0 then Good
    else if score >= 40.0 then Fair
    else Poor
  }

  /** The inline conditional expression of `run_startup_prediction`
      (fite.py:159), which the source writes separately from the chain of
      `predict_environment`; it repeats the same thresholds, and
      `ClassifiersAgree` states that the two agree. */
  function SegmentInline(score: real): (seg: string)
    ensures InBand(score, seg)
  {
    if score >= 80.0 then Excellent else if score >= 60.0 then Good else if score >= 40.0 then Fair else Poor
  }

  /** Every score lies in exactly one band. */
  lemma BandsPartition(score: real, seg: string)
    ensures InBand(score, seg) <==> seg == Segment(score)
  {
  }

  /** Both classifiers give the same segment for every score. */
  lemma ClassifiersAgree(score: real)
    ensures Segment(score) == SegmentInline(score)
  {
    BandsPartition(score, SegmentInline(score));
  }

  /** The order of the segments, worst first. */
  function Rank(seg: string): int
  {
    if seg == Excellent then 3 else if seg == Good then 2 else if seg == Fair then 1 else 0
  }

  /** A higher score never lands in a worse segment. */
  lemma SegmentMonotone(a: real, b: real)
    requires a <= b
    ensures Rank(Segment(a)) <= Rank(Segment(b))
  {
  }

  /** `EnvironmentInput`; also the stored environment_logs document. */
  datatype EnvLog = EnvLog(timestamp: string, temperature: real, humidity: real, noise: real, light: real)

  /** An environment_predictions document. */
  datatype Prediction = Prediction(timestamp: string, predictedScore: real, segment: string)

  /** The two collections, keyed by document id. */
  datatype FiteStore = FiteStore(logs: map<string, EnvLog>, predictions: map<string, Prediction>)

  /** The model's features: [temperature, humidity, noise, light]. */
  function Features(e: EnvLog): (f: seq<real>)
    ensures |f| == 4
    ensures f[0] == e.temperature && f[1] == e.humidity && f[2] == e.noise && f[3] == e.light
  {
    [e.temperature, e.humidity, e.noise, e.light]
  }

  /** `predict_environment`: score, classify, then save the log and the
      prediction under the same normalised id (nothing is saved without a
      database). A model failure escapes as a 500 before any write. `predict`
      stands for `model.predict(features)[0]`. */
  function PredictEnvironment(store: FiteStore, payload: EnvLog, predict: seq<real> -> Option<real>,
                              dbAvailable: bool): (r: Result<(FiteStore, Prediction), HttpError>)
    ensures r.Err? <==> predict(Features(payload)).None?
    ensures r.Err? ==> r.error.status == ServerErrorStatus
    ensures r.Ok? ==>
              var (store', resp) := r.value;
              var id := NormalizeTs(payload.timestamp);
              && Some(resp.predictedScore) == predict(Features(payload))
              && resp.timestamp == payload.timestamp
              && InBand(resp.predictedScore, resp.segment)
              && (dbAvailable ==> store'.logs == store.logs[id := payload]
                                  && store'.predictions == store.predictions[id := resp])
              && (!dbAvailable ==> store' == store)
  {
    match predict(Features(payload))
    case None => Err(HttpError(ServerErrorStatus))
    case Some(score) =>
      var resp := Prediction(payload.timestamp, score, Segment(score));
      var id := NormalizeTs(payload.timestamp);
      if dbAvailable then Ok((FiteStore(store.logs[id := payload], store.predictions[id := resp]), resp))
      else Ok((store, resp))
  }

  /** The prediction stored at `id` was made from log `i`. */
  predicate WrittenFrom(logs: seq<Entry<EnvLog>>, predictions: map<string, Prediction>,
                        predict: seq<real> -> Option<real>, id: string, i: nat)
  {
    && i < |logs|
    && NormalizeTs(logs[i].doc.timestamp) == id
    && id in predictions
    && Some(predictions[id].predictedScore) == predict(Features(logs[i].doc))
    && predictions[id].timestamp == logs[i].doc.timestamp
    && InBand(predictions[id].predictedScore, predictions[id].segment)
  }

  /** Progress of the startup backfill: the predictions so far, the ids
      written, in order, and the index of the log each one came from. */
  datatype Backfill = Backfill(predictions: map<string, Prediction>, written: seq<string>, from: seq<nat>)

  /** After the first `i` logs, starting from `initial`: old predictions are
      kept, each id was written once, never over an existing one, and from a
      log already visited, and every visited log's id has a prediction. */
  ghost predicate Consistent(logs: seq<Entry<EnvLog>>, initial: map<string, Prediction>,
                       predict: seq<real> -> Option<real>, b: Backfill, i: nat)
  {
    && i <= |logs|
    && (forall id :: id in initial ==> id in b.predictions && b.predictions[id] == initial[id])
    && NoDuplicates(b.written)
    && (forall id :: id in b.predictions <==> id in initial || id in b.written)
    && |b.from| == |b.written|
    && (forall j :: 0 <= j < |b.written| ==>
          b.written[j] !in initial && b.from[j] < i && WrittenFrom(logs, b.predictions, predict, b.written[j], b.from[j]))
    && (forall k :: 0 <= k < i ==> NormalizeTs(logs[k].doc.timestamp) in b.predictions)
  }

  /** One log of the stream: skip it when its id already has a prediction,
      otherwise predict and store; `None` when the model fails. */
  function Visit(logs: seq<Entry<EnvLog>>, predict: seq<real> -> Option<real>, b: Backfill, i: nat): (r: Option<Backfill>)
    requires i < |logs|
    ensures r.None? <==> NormalizeTs(logs[i].doc.timestamp) !in b.predictions && predict(Features(logs[i].doc)).None?
    ensures r.Some? && NormalizeTs(logs[i].doc.timestamp) in b.predictions ==> r.value == b
  {
    var log := logs[i].doc;
    var id := NormalizeTs(log.timestamp);
    if id in b.predictions then Some(b)
    else match predict(Features(log))
      case None => None
      case Some(score) =>
        Some(Backfill(b.predictions[id := Prediction(log.timestamp, score, SegmentInline(score))],
                      b.written + [id], b.from + [i]))
  }

  lemma VisitSkipKeeps(logs: seq<Entry<EnvLog>>, initial: map<string, Prediction>,
                       predict: seq<real> -> Option<real>, b: Backfill, i: nat)
    requires i < |logs| && Consistent(logs, initial, predict, b, i)
    requires NormalizeTs(logs[i].doc.timestamp) in b.predictions
    ensures Consistent(logs, initial, predict, b, i + 1)
  {
  }

  lemma VisitWriteKeeps(logs: seq<Entry<EnvLog>>, initial: map<string, Prediction>,
                        predict: seq<real> -> Option<real>, b: Backfill, i: nat)
    requires i < |logs| && Consistent(logs, initial, predict, b, i)
    requires Visit(logs, predict, b, i).Some?
    requires NormalizeTs(logs[i].doc.timestamp) !in b.predictions
    ensures Consistent(logs, initial, predict, Visit(logs, predict, b, i).value, i + 1)
  {
    var id := NormalizeTs(logs[i].doc.timestamp);
    var b' := Visit(logs, predict, b, i).value;
    assert b'.written == b.written + [id] && b'.from == b.from + [i];
    assert id !in b.written;
    forall j | 0 <= j < |b'.written|
      ensures b'.written[j] !in initial && b'.from[j] < i + 1 && WrittenFrom(logs, b'.predictions, predict, b'.written[j], b'.from[j])
    {
      if j < |b.written| {
        assert b'.written[j] == b.written[j] && b'.from[j] == b.from[j];
        assert WrittenFrom(logs, b.predictions, predict, b.written[j], b.from[j]);
      }
    }
  }

  /** `run_startup_prediction` over the streamed logs: each log whose
      normalised timestamp has no prediction yet gets one; a model failure
      stops the run (`ok` is false) with the predictions made so far kept.
      `written` lists the ids written, in order, and `from` the index of the
      log each one was predicted from. */
  method RunStartupPrediction(logs: seq<Entry<EnvLog>>, predictions: map<string, Prediction>,
                              predict: seq<real> -> Option<real>)
    returns (predictions': map<string, Prediction>, written: seq<string>, from: seq<nat>, ok: bool)
    ensures forall id :: id in predictions ==> id in predictions' && predictions'[id] == predictions[id]
    ensures NoDuplicates(written)
    ensures forall id :: id in predictions' <==> id in predictions || id in written
    ensures |from| == |written|
    ensures forall j :: 0 <= j < |written| ==>
              written[j] !in predictions && WrittenFrom(logs, predictions', predict, written[j], from[j])
    ensures ok ==> forall i :: 0 <= i < |logs| ==> NormalizeTs(logs[i].doc.timestamp) in predictions'
    ensures !ok ==> exists i :: 0 <= i < |logs| && predict(Features(logs[i].doc)).None?
                               && NormalizeTs(logs[i].doc.timestamp) !in predictions
    ensures ok ==> forall id :: id in predictions' <==>
                     id in predictions || exists k :: 0 <= k < |logs| && NormalizeTs(logs[k].doc.timestamp) == id
    ensures (forall k :: 0 <= k < |logs| ==> NormalizeTs(logs[k].doc.timestamp) in predictions) ==>
              ok && predictions' == predictions
  {
    var b := Backfill(predictions, [], []);
    var i := 0;
    while i < |logs|
      invariant Consistent(logs, predictions, predict, b, i)
    {
      var next := Visit(logs, predict, b, i);
      if next.None? {
        return b.predictions, b.written, b.from, false;
      }
      if NormalizeTs(logs[i].doc.timestamp) in b.predictions {
        VisitSkipKeeps(logs, predictions, predict, b, i);
      } else {
        VisitWriteKeeps(logs, predictions, predict, b, i);
      }
      b := next.value;
      i := i + 1;
    }
    CompletedRunKeys(logs, predictions, predict, b);
    if forall k :: 0 <= k < |logs| ==> NormalizeTs(logs[k].doc.timestamp) in predictions {
      SecondRunChangesNothing(logs, predictions, predict, b);
    }
    return b.predictions, b.written, b.from, true;
  }

  /** A completed backfill leaves exactly the old ids plus the ids of the
      streamed logs. */
  lemma CompletedRunKeys(logs: seq<Entry<EnvLog>>, initial: map<string, Prediction>,
                         predict: seq<real> -> Option<real>, b: Backfill)
    requires Consistent(logs, initial, predict, b, |logs|)
    ensures forall id :: id in b.predictions <==>
              id in initial || exists k :: 0 <= k < |logs| && NormalizeTs(logs[k].doc.timestamp) == id
  {
    forall id | id in b.predictions && id !in initial
      ensures exists k :: 0 <= k < |logs| && NormalizeTs(logs[k].doc.timestamp) == id
    {
      var j :| 0 <= j < |b.written| && b.written[j] == id;
      assert WrittenFrom(logs, b.predictions, predict, b.written[j], b.from[j]);
    }
  }

  /** Run on a store where every log already has a prediction, a completed
      backfill leaves the predictions as they were. */
  lemma SecondRunChangesNothing(logs: seq<Entry<EnvLog>>, initial: map<string, Prediction>,
                                predict: seq<real> -> Option<real>, b: Backfill)
    requires forall k :: 0 <= k < |logs| ==> NormalizeTs(logs[k].doc.timestamp) in initial
    requires Consistent(logs, initial, predict, b, |logs|)
    ensures b.predictions == initial
  {
    CompletedRunKeys(logs, initial, predict, b);
    assert b.predictions.Keys == initial.Keys;
  }
}

=== FILE: lex.dfy ===
/** Python's ordering of `str` values (code point by code point, a proper prefix
    first), used by the source's `min(timestamps)` and `max(timestamps)`. */
module Lex {

  /** `a <= b` on Python strings. */
  predicate LexLe(a: string, b: string)
  {
    |a| == 0 || (|b| > 0 && (a[0] < b[0] || (a[0] == b[0] && LexLe(a[1..], b[1..]))))
  }

  lemma {:induction false} LexLeReflexive(a: string)
    ensures LexLe(a, a)
  {
    if |a| > 0 {
      LexLeReflexive(a[1..]);
    }
  }

  lemma {:induction false} LexLeTotal(a: string, b: string)
    ensures LexLe(a, b) || LexLe(b, a)
  {
    if |a| > 0 && |b| > 0 && a[0] == b[0] {
      LexLeTotal(a[1..], b[1..]);
    }
  }

  lemma {:induction false} LexLeTransitive(a: string, b: string, c: string)
    requires LexLe(a, b) && LexLe(b, c)
    ensures LexLe(a, c)
  {
    if |a| > 0 && |b| > 0 && |c| > 0 && a[0] == b[0] == c[0] {
      LexLeTransitive(a[1..], b[1..], c[1..]);
    }
  }

  lemma {:induction false} LexLeAntisymmetric(a: string, b: string)
    requires LexLe(a, b) && LexLe(b, a)
    ensures a == b
  {
    if |a| > 0 && |b| > 0 {
      LexLeAntisymmetric(a[1..], b[1..]);
      assert a == [a[0]] + a[1..];
      assert b == [b[0]] + b[1..];
    }
  }

  /** Python's `min` over a non-empty list of strings. */
  function MinStr(xs: seq<string>): (r: string)
    requires |xs| > 0
    ensures r in xs
    ensures forall i :: 0 <= i < |xs| ==> LexLe(r, xs[i])
  {
    if |xs| == 1 then LexLeReflexive(xs[0]); xs[0]
    else
      var m := MinStr(xs[1..]);
      assert forall i :: 1 <= i < |xs| ==> xs[i] == xs[1..][i - 1];
      LexLeTotal(xs[0], m);
      LexLeReflexive(xs[0]);
      if LexLe(xs[0], m) then
        assert forall i :: 1 <= i < |xs| ==> LexLe(xs[0], xs[i]) by {
          forall i | 1 <= i < |xs| ensures LexLe(xs[0], xs[i]) {
            LexLeTransitive(xs[0], m, xs[i]);
          }
        }
        xs[0]
      else
        m
  }

  /** Python's `max` over a non-empty list of strings. */
  function MaxStr(xs: seq<string>): (r: string)
    requires |xs| > 0
    ensures r in xs
    ensures forall i :: 0 <= i < |xs| ==> LexLe(xs[i], r)
  {
    if |xs| == 1 then LexLeReflexive(xs[0]); xs[0]
    else
      var m := MaxStr(xs[1..]);
      assert forall i :: 1 <= i < |xs| ==> xs[i] == xs[1..][i - 1];
      LexLeTotal(xs[0], m);
      LexLeReflexive(xs[0]);
      if LexLe(m, xs[0]) then
        assert forall i :: 1 <= i < |xs| ==> LexLe(xs[i], xs[0]) by {
          forall i | 1 <= i < |xs| ensures LexLe(xs[i], xs[0]) {
            LexLeTransitive(xs[i], m, xs[0]);
          }
        }
        xs[0]
      else
        m
  }

  /** A string field of each element of a list, in order: the source's
      `[d["timestamp"] for d in docs]`. */
  function StringColumn<T>(xs: seq<T>, field: T -> string): (r: seq<string>)
    ensures |r| == |xs|
    ensures forall k :: 0 <= k < |xs| ==> r[k] == field(xs[k])
  {
    seq(|xs|, k requires 0 <= k < |xs| => field(xs[k]))
  }

  /** The position a string of a column was read from. */
  lemma ColumnSource<T>(xs: seq<T>, field: T -> string, v: string) returns (k: nat)
    requires v in StringColumn(xs, field)
    ensures k < |xs| && field(xs[k]) == v
  {
    var col := StringColumn(xs, field);
    k :| 0 <= k < |col| && col[k] == v;
  }
}

=== FILE: light_curve.dfy ===
/** The two-breakpoint light curve shared by the scorers, written as a sum of
    hinge terms: flat at zero up to 1 lux, slope 1 up to the 10 lux knee, slope
    0.6 beyond it. Each scorer's own piecewise definition is proved equal to it. */
module LightCurve {
  import opened Wrappers
  import opened Numeric

  const Floor: real := 1.0
  const Knee: real := 10.0
  const SteepSlope: real := 0.6

  /** The lux value a curve is evaluated at: an exact 0 reading is lifted to
      the sensor's lower limit when one is given. */
  function EffectiveLux(lux: real, sensorLowerLimit: Option<real>): real
  {
    if sensorLowerLimit.Some? && lux == 0.0 then sensorLowerLimit.value else lux
  }

  function Hinge(lux: real): real
  {
    Max(0.0, Min(lux, Knee) - Floor) + SteepSlope * Max(0.0, lux - Knee)
  }

  /** The curve is zero exactly on lux ≤ 1 and positive above. */
  lemma HingeZeroIffDark(lux: real)
    ensures Hinge(lux) >= 0.0
    ensures Hinge(lux) == 0.0 <==> lux <= Floor
  {
  }

  /** The curve never decreases as light increases. */
  lemma HingeMonotone(a: real, b: real)
    requires a <= b
    ensures Hinge(a) <= Hinge(b)
  {
  }

  /** At the knee both pieces meet at 9: the curve is continuous there. */
  lemma HingeAtKnee()
    ensures Hinge(Knee) == Knee - Floor
    ensures forall lux :: Knee <= lux ==> Hinge(lux) == (Knee - Floor) + SteepSlope * (lux - Knee)
    ensures forall lux :: Floor <= lux <= Knee ==> Hinge(lux) == lux - Floor
  {
  }
}

=== FILE: model_service.dfy ===
/** The standalone scorer of `model_service.py`: ideals 20 °C, 50 %RH and a 30 dB
    noise threshold, Python `or` defaults (so 0 reads as missing), and the hybrid
    of rule score and learned residual used by the ingestion API. */
module ModelService {
  import opened Wrappers
  import opened Numeric
  import opened Residual
  import LightCurve

  const TempIdeal: real := 20.0
  const HumIdeal: real := 50.0
  const NoiseThreshold: real := 30.0

  /** Confidence reported when a model produced the residual. */
  const ModelConfidence: real := 0.7
  /** Confidence reported when scoring fell back to the rule alone. */
  const RuleOnlyConfidence: real := 0.4

  /** Python's `x or d` on an optional float: None and 0.0 are both falsy. */
  function Or(x: Option<real>, d: real): (r: real)
    ensures x.Some? && x.value != 0.0 ==> r == x.value
    ensures x.None? || x.value == 0.0 ==> r == d
  {
    if x.Some? && x.value != 0.0 then x.value else d
  }

  /** `light_penalty`: nothing for a missing reading, otherwise the two-breakpoint curve. */
  function LightPenalty(lux: Option<real>): (r: real)
    ensures r >= 0.0
    ensures lux.None? ==> r == 0.0
    ensures lux.Some? ==> r == LightCurve.Hinge(lux.value)
  {
    if lux.None? then 0.0
    else if lux.value <= 1.0 then 0.0
    else if lux.value <= 10.0 then lux.value - 1.0
    else
      var base := 10.0 - 1.0;
      var extra := 0.6 * (lux.value - 10.0);
      base + extra
  }

  /** `rule_score`: a score in [0, 100], computed from the `or`-defaulted inputs. */
  function RuleScore(temp: Option<real>, hum: Option<real>, noiseDb: Option<real>, light: Option<real>): (r: real)
    ensures 0.0 <= r <= 100.0
  {
    DefaultedScore(Or(temp, TempIdeal), Or(hum, HumIdeal), Or(noiseDb, NoiseThreshold), Or(light, 0.0))
  }

  /** The body of `rule_score` once each input has been through its `or`. */
  function DefaultedScore(temp: real, hum: real, noiseDb: real, light: real): (r: real)
    ensures 0.0 <= r <= 100.0
  {
    var tempPen := 3.5 * Abs(temp - TempIdeal);
    var humPen := 0.4 * Abs(hum - HumIdeal);
    var noisePen := 2.0 * Max(0.0, noiseDb - NoiseThreshold);
    var lightPen := 1.5 * LightPenalty(Some(light));
    Clip(100.0 - (tempPen + humPen + noisePen + lightPen), 0.0, 100.0)
  }

  /** The residual model's input row: temperature, humidity, light, noise, each
      `or`-defaulted as in the rule. */
  function FeatureRow(temp: Option<real>, hum: Option<real>, noiseDb: Option<real>, light: Option<real>): seq<real>
  {
    [Or(temp, TempIdeal), Or(hum, HumIdeal), Or(light, 0.0), Or(noiseDb, NoiseThreshold)]
  }

  /** What `hybrid_predict` returns. */
  datatype HybridResult = HybridResult(intervalScore: real, ruleScore: real, residual: real,
                                       modelVersion: Option<string>, confidence: real)

  /** `hybrid_predict`: the rule score plus the residual the model predicts
      (nothing if the model is absent or fails), clipped to [0, 100]. */
  function HybridPredict(temp: Option<real>, hum: Option<real>, noiseDb: Option<real>, light: Option<real>,
                         model: Option<Regressor>): (r: HybridResult)
    ensures 0.0 <= r.intervalScore <= 100.0
    ensures r.ruleScore == RuleScore(temp, hum, noiseDb, light)
    ensures r.intervalScore == Clip(r.ruleScore + r.residual, 0.0, 100.0)
    ensures r.confidence == ModelConfidence <==> Truthy(r.modelVersion)
    ensures r.confidence == ModelConfidence || r.confidence == RuleOnlyConfidence
    ensures model.None? || PredictFirst(model.value, FeatureRow(temp, hum, noiseDb, light)).None? ==>
              r.residual == 0.0 && r.modelVersion.None? && r.confidence == RuleOnlyConfidence
              && r.intervalScore == r.ruleScore
    ensures model.Some? && PredictFirst(model.value, FeatureRow(temp, hum, noiseDb, light)).Some? ==>
              r.residual == PredictFirst(model.value, FeatureRow(temp, hum, noiseDb, light)).value
              && r.modelVersion == model.value.version
  {
    var rule := RuleScore(temp, hum, noiseDb, light);
    var prediction :=
      if model.None? then None else PredictFirst(model.value, FeatureRow(temp, hum, noiseDb, light));
    var residual := if prediction.Some? then prediction.value else 0.0;
    var version := if prediction.Some? then model.value.version else None;
    HybridResult(Clip(rule + residual, 0.0, 100.0), rule, residual, version,
                 if Truthy(version) then ModelConfidence else RuleOnlyConfidence)
  }

  /** A reading of exactly 0 scores as if it were missing, for every input. */
  lemma ZeroReadsAsMissing(temp: Option<real>, hum: Option<real>, noiseDb: Option<real>, light: Option<real>)
    ensures RuleScore(Some(0.0), hum, noiseDb, light) == RuleScore(None, hum, noiseDb, light)
    ensures RuleScore(temp, Some(0.0), noiseDb, light) == RuleScore(temp, None, noiseDb, light)
    ensures RuleScore(temp, hum, Some(0.0), light) == RuleScore(temp, hum, None, light)
    ensures RuleScore(temp, hum, noiseDb, Some(0.0)) == RuleScore(temp, hum, noiseDb, None)
    ensures FeatureRow(Some(0.0), hum, noiseDb, light) == FeatureRow(None, hum, noiseDb, light)
  {
  }

  /** At 20 °C and 50 %RH, with noise at most 30 dB and at most 1 lux (or
      missing), the score is exactly 100. */
  lemma IdealPointScoresFull(noiseDb: Option<real>, light: Option<real>)
    requires noiseDb.None? || noiseDb.value <= NoiseThreshold
    requires light.None? || light.value <= 1.0
    ensures RuleScore(Some(TempIdeal), Some(HumIdeal), noiseDb, light) == 100.0
  {
  }

  /** Every penalty is lost to the clip at the extreme scenario of 35 °C,
      90 %RH, 500 lux and 90 dB: the score is 0. */
  lemma ExtremeRoomScoresZero()
    ensures RuleScore(Some(35.0), Some(90.0), Some(90.0), Some(500.0)) == 0.0
    ensures HybridPredict(Some(35.0), Some(90.0), Some(90.0), Some(500.0), None).intervalScore == 0.0
  {
  }
}

=== FILE: numeric.dfy ===
/** Exact real arithmetic standing in for the source's Python floats and the
    numpy reductions it uses (`abs`, `max`, `np.clip`, `np.mean`, `np.min`, `np.max`). */
module Numeric {

  function Abs(x: real): (r: real)
    ensures r >= 0.0
    ensures r == x || r == -x
  {
    if x < 0.0 then -x else x
  }

  function Max(a: real, b: real): (r: real)
    ensures r >= a && r >= b
    ensures r == a || r == b
  {
    if a >= b then a else b
  }

  function Min(a: real, b: real): (r: real)
    ensures r <= a && r <= b
    ensures r == a || r == b
  {
    if a <= b then a else b
  }

  /** `np.clip(x, lo, hi)`: the point of [lo, hi] nearest to x. */
  function Clip(x: real, lo: real, hi: real): (r: real)
    requires lo <= hi
    ensures lo <= r <= hi
    ensures lo <= x <= hi ==> r == x
    ensures x < lo ==> r == lo
    ensures x > hi ==> r == hi
  {
    if x < lo then lo else if x > hi then hi else x
  }

  /** Clipping is monotone: a larger input never gives a smaller output. */
  lemma ClipMonotone(x: real, y: real, lo: real, hi: real)
    requires lo <= hi
    requires x <= y
    ensures Clip(x, lo, hi) <= Clip(y, lo, hi)
  {
  }

  function Sum(xs: seq<real>): real
  {
    if |xs| == 0 then 0.0 else xs[0] + Sum(xs[1..])
  }

  /** `np.mean` of a non-empty sequence. */
  function Mean(xs: seq<real>): real
    requires |xs| > 0
  {
    Sum(xs) / (|xs| as real)
  }

  /** `np.min` of a non-empty sequence. */
  function SeqMin(xs: seq<real>): (r: real)
    requires |xs| > 0
    ensures r in xs
    ensures forall i :: 0 <= i < |xs| ==> r <= xs[i]
  {
    if |xs| == 1 then xs[0]
    else
      var m := SeqMin(xs[1..]);
      assert forall i :: 1 <= i < |xs| ==> xs[i] == xs[1..][i - 1];
      if xs[0] <= m then xs[0] else m
  }

  /** `np.max` of a non-empty sequence. */
  function SeqMax(xs: seq<real>): (r: real)
    requires |xs| > 0
    ensures r in xs
    ensures forall i :: 0 <= i < |xs| ==> xs[i] <= r
  {
    if |xs| == 1 then xs[0]
    else
      var m := SeqMax(xs[1..]);
      assert forall i :: 1 <= i < |xs| ==> xs[i] == xs[1..][i - 1];
      if xs[0] >= m then xs[0] else m
  }

  /** A sum of values that all lie in [lo, hi] lies between |xs|·lo and |xs|·hi. */
  lemma {:induction false} SumBounds(xs: seq<real>, lo: real, hi: real)
    requires forall i :: 0 <= i < |xs| ==> lo <= xs[i] <= hi
    ensures lo * (|xs| as real) <= Sum(xs) <= hi * (|xs| as real)
  {
    if |xs| > 0 {
      var tail := xs[1..];
      assert forall i :: 0 <= i < |tail| ==> tail[i] == xs[i + 1];
      SumBounds(tail, lo, hi);
      assert (|xs| as real) == (|tail| as real) + 1.0;
    }
  }

  /** A mean lies between the minimum and the maximum. */
  lemma MinLeMeanLeMax(xs: seq<real>)
    requires |xs| > 0
    ensures SeqMin(xs) <= Mean(xs) <= SeqMax(xs)
  {
    MeanBetween(xs, SeqMin(xs), SeqMax(xs));
  }

  /** A mean of values that all lie in [lo, hi] lies in [lo, hi]. */
  lemma MeanBetween(xs: seq<real>, lo: real, hi: real)
    requires |xs| > 0
    requires forall i :: 0 <= i < |xs| ==> lo <= xs[i] <= hi
    ensures lo <= Mean(xs) <= hi
  {
    SumBounds(xs, lo, hi);
    DivBounds(Sum(xs), |xs| as real, lo, hi);
  }

  /** Dividing bounds on `s = q·n` by a positive `n` bounds `q`. */
  lemma DivBounds(s: real, n: real, lo: real, hi: real)
    requires n > 0.0
    requires lo * n <= s <= hi * n
    ensures lo <= s / n <= hi
  {
    assert (s / n) * n == s;
  }

  /** The mean of a sequence whose values are all equal is that value. */
  lemma MeanOfConstant(xs: seq<real>, c: real)
    requires |xs| > 0
    requires forall i :: 0 <= i < |xs| ==> xs[i] == c
    ensures Mean(xs) == c
  {
    SumBounds(xs, c, c);
    DivBounds(Sum(xs), |xs| as real, c, c);
  }
}

=== FILE: poller.dfy ===
/** The poller service of `app/main.py`: a simple rule scorer, a model that
    predicts the final score, an idempotent per-document processor keyed by
    timestamp, a write-once session summary, the inactivity test that triggers
    it, and one pass of the polling loop over the document store. */
module Poller {
  import opened Wrappers
  import opened Numeric
  import opened Lex
  import SessionStats

  const PollIntervalSeconds: nat := 30
  const SessionInactivityMinutes: int := 60
  const ProcessBatchLimit: nat := 200
  const MaxSessionsPerPass: nat := 100
  const NotFoundStatus: int := 404
  /** The endpoint's answer when a store call of `process_env_doc` raises. */
  const StoreFailureStatus: int := 500

  /** Confidence when the model produced the score. */
  const ModelConfidence: real := 0.8
  /** Confidence when the rule score stood in for a failed model. */
  const FallbackConfidence: real := 0.45

  /** A document of `sessions/{id}/environment`, keyed by its ISO timestamp.
      `mlProcessed` is None while the `_ml_processed` field is absent. */
  datatype EnvDoc = EnvDoc(tempC: Option<real>, humidityPct: Option<real>, lightLux: Option<real>,
                           noiseDb: Option<real>, timestamp: Option<string>, clientIngestId: Option<string>,
                           mlProcessed: Option<bool>)

  /** `rule_score_fn`: missing readings cost nothing, noise costs only above
      30 dB and light only above 1 lux, on a single 1.5-per-lux slope. */
  function RuleScoreFn(t: Option<real>, h: Option<real>, n: Option<real>, l: Option<real>): (r: real)
    ensures 0.0 <= r <= 100.0
  {
    var s0 := 100.0;
    var s1 := if t.Some? then s0 - 3.5 * Abs(t.value - 20.0) else s0;
    var s2 := if h.Some? then s1 - 0.4 * Abs(h.value - 50.0) else s1;
    var s3 := if n.Some? && n.value > 30.0 then s2 - 2.0 * (n.value - 30.0) else s2;
    var s4 := if l.Some? && l.value > 1.0 then s3 - 1.5 * Max(0.0, l.value - 1.0) else s3;
    Max(0.0, Min(100.0, s4))
  }

  /** Quiet (≤ 30 dB) and dark (≤ 1 lux) readings score as if they were missing,
      and with nothing measured the score is 100. */
  lemma RuleScoreFnThresholds(t: Option<real>, h: Option<real>, n: real, l: real)
    ensures n <= 30.0 ==> RuleScoreFn(t, h, Some(n), None) == RuleScoreFn(t, h, None, None)
    ensures l <= 1.0 ==> RuleScoreFn(t, h, None, Some(l)) == RuleScoreFn(t, h, None, None)
    ensures RuleScoreFn(None, None, None, None) == 100.0
    ensures l > 1.0 ==> RuleScoreFn(None, None, None, Some(l)) == Max(0.0, 100.0 - 1.5 * (l - 1.0))
  {
  }

  /** The model's input row: temperature, humidity, light, noise, with
      missing values replaced by 20, 50, 0 and 25. */
  function ModelFeatures(env: EnvDoc): (r: seq<real>)
    ensures |r| == 4
    ensures r[0] == env.tempC.GetOr(20.0) && r[1] == env.humidityPct.GetOr(50.0)
    ensures r[2] == env.lightLux.GetOr(0.0) && r[3] == env.noiseDb.GetOr(25.0)
  {
    [if env.tempC.Some? then env.tempC.value else 20.0,
     if env.humidityPct.Some? then env.humidityPct.value else 50.0,
     if env.lightLux.Some? then env.lightLux.value else 0.0,
     if env.noiseDb.Some? then env.noiseDb.value else 25.0]
  }

  /** What `compute_score_from_env` returns. */
  datatype EnvScore = EnvScore(intervalScore: real, ruleScore: real, residual: real,
                               modelVersion: Option<string>, confidence: real)

  /** `compute_score_from_env`: when the model answers, its prediction is the
      interval score as is (neither clipped nor added to the rule); when it
      raises, the rule score stands in. The residual is always 0. */
  function ComputeScoreFromEnv(env: EnvDoc, predict: seq<real> -> Option<real>, modelVersionSetting: string)
    : (r: EnvScore)
    ensures r.ruleScore == RuleScoreFn(env.tempC, env.humidityPct, env.noiseDb, env.lightLux)
    ensures 0.0 <= r.ruleScore <= 100.0
    ensures r.residual == 0.0
    ensures predict(ModelFeatures(env)).Some? ==>
              r.intervalScore == predict(ModelFeatures(env)).value && r.confidence == ModelConfidence
              && r.modelVersion == Some(modelVersionSetting)
    ensures predict(ModelFeatures(env)).None? ==>
              r.intervalScore == r.ruleScore && r.confidence == FallbackConfidence && r.modelVersion.None?
  {
    var rule := RuleScoreFn(env.tempC, env.humidityPct, env.noiseDb, env.lightLux);
    match predict(ModelFeatures(env))
    case Some(p) => EnvScore(p, rule, 0.0, Some(modelVersionSetting), ModelConfidence)
    case None => EnvScore(rule, rule, 0.0, None, FallbackConfidence)
  }

  /** A document of `sessions/{id}/ml_scores`, keyed by the same timestamp as its
      environment document. */
  datatype MlDoc = MlDoc(timestamp: string, tempC: Option<real>, humidityPct: Option<real>,
                         lightLux: Option<real>, noiseDb: Option<real>, intervalScore: Option<real>,
                         ruleScore: real, residual: real, modelVersion: Option<string>, confidence: real,
                         clientIngestId: Option<string>)

  /** The session summary document `sessions/{id}/meta/summary`. */
  datatype Summary = Summary(sessionId: string, avgComfortScore: real, minScore: real, maxScore: real,
                             firstTimestamp: string, lastTimestamp: string, numIntervals: nat,
                             tempMean: Option<real>, humidityMean: Option<real>,
                             lightMean: Option<real>, noiseMean: Option<real>)

  /** One session's sub-collections: environment documents in timestamp order,
      ml_scores documents in stream order, and the optional summary. */
  datatype SessionDocs = SessionDocs(env: seq<Entry<EnvDoc>>, ml: seq<Entry<MlDoc>>, summary: Option<Summary>)

  /** The store: the session ids `list_documents` yields, and each session's documents. */
  datatype Store = Store(sessionIds: seq<string>, sessions: map<string, SessionDocs>)

  const NoDocs: SessionDocs := SessionDocs([], [], None)

  function DocsOf(store: Store, sid: string): SessionDocs
  {
    if sid in store.sessions then store.sessions[sid] else NoDocs
  }

  /** Whether a timestamp string already ends in the UTC designator `Z`. */
  predicate EndsInZ(ts: string)
  {
    |ts| > 0 && ts[|ts| - 1] == 'Z'
  }

  /** `parse_to_utc_iso`: a string ending in `Z` is returned as it is; any
      other is rendered as a naive UTC ISO string followed by `Z`. `reparse`
      stands for that rendering together with its fallbacks (dateutil, and
      the current time when nothing parses), so normalising never fails. */
  function ToUtcIso(ts: string, reparse: string -> string): (r: string)
    ensures EndsInZ(r)
    ensures EndsInZ(ts) ==> r == ts
    ensures !EndsInZ(ts) ==> r == reparse(ts) + "Z"
  {
    if EndsInZ(ts) then ts else reparse(ts) + "Z"
  }

  /** Normalising an already normalised timestamp changes nothing, whatever
      rendering the second call would use. */
  lemma ToUtcIsoIdempotent(ts: string, reparse: string -> string, reparse2: string -> string)
    ensures ToUtcIso(ToUtcIso(ts, reparse), reparse2) == ToUtcIso(ts, reparse)
  {
  }

  /** The normalised form of each document id the poller hands to `process_env_doc`. */
  function IsoIds(ids: seq<string>, reparse: string -> string): (r: seq<string>)
    ensures |r| == |ids|
    ensures forall k :: 0 <= k < |ids| ==> r[k] == ToUtcIso(ids[k], reparse)
    ensures (forall k :: 0 <= k < |ids| ==> EndsInZ(ids[k])) ==> r == ids
  {
    seq(|ids|, k requires 0 <= k < |ids| => ToUtcIso(ids[k], reparse))
  }

  /** Sets `_ml_processed` on the environment document with the given id. */
  function MarkProcessed(env: seq<Entry<EnvDoc>>, id: string): (r: seq<Entry<EnvDoc>>)
    ensures |r| == |env|
    ensures forall i :: 0 <= i < |env| ==> r[i].id == env[i].id
    ensures forall i :: 0 <= i < |env| ==>
              r[i].doc == if env[i].id == id then env[i].doc.(mlProcessed := Some(true)) else env[i].doc
  {
    if |env| == 0 then []
    else
      var e := env[0];
      var head := if e.id == id then Entry(e.id, e.doc.(mlProcessed := Some(true))) else e;
      [head] + MarkProcessed(env[1..], id)
  }

  /** The ml_scores document `process_env_doc` writes for an environment
      document: the readings and ingest id carried over unchanged, the
      timestamp it is stored under, and the prediction. */
  function MlPayload(isoTs: string, env: EnvDoc, pred: EnvScore): (r: MlDoc)
    ensures r.timestamp == isoTs && r.clientIngestId == env.clientIngestId
    ensures r.tempC == env.tempC && r.humidityPct == env.humidityPct
    ensures r.lightLux == env.lightLux && r.noiseDb == env.noiseDb
    ensures r.intervalScore == Some(pred.intervalScore) && r.ruleScore == pred.ruleScore
    ensures r.residual == pred.residual && r.modelVersion == pred.modelVersion && r.confidence == pred.confidence
  {
    MlDoc(isoTs, env.tempC, env.humidityPct, env.lightLux, env.noiseDb, Some(pred.intervalScore),
          pred.ruleScore, pred.residual, pred.modelVersion, pred.confidence, env.clientIngestId)
  }

  /** The outcome of `process_env_doc`: the existing document, or the one just written. */
  datatype Processed = AlreadyProcessed(doc: MlDoc) | NewlyProcessed(doc: MlDoc)

  /** `process_env_doc` on one session's documents. `storeOk` is false when
      one of its store calls raises (the environment read, the ml_scores
      read or the ml_scores write): nothing is written then, and the endpoint
      turns the exception into a 500. */
  function ProcessEnvDocIn(docs: SessionDocs, isoTs: string, storeOk: bool, predict: seq<real> -> Option<real>,
                           modelVersionSetting: string, flagUpdateOk: bool)
    : (r: Result<(SessionDocs, Processed), HttpError>)
    ensures r.Err? <==> !storeOk || Find(docs.env, isoTs).None?
    ensures r.Err? ==> r.error.status == (if storeOk then NotFoundStatus else StoreFailureStatus)
    ensures r.Ok? && Find(docs.ml, isoTs).Some? ==> r.value == (docs, AlreadyProcessed(Find(docs.ml, isoTs).value))
    ensures r.Ok? && Find(docs.ml, isoTs).None? ==>
              && r.value.1.NewlyProcessed?
              && r.value.0.ml == docs.ml + [Entry(isoTs, r.value.1.doc)]
              && r.value.0.summary == docs.summary
              && r.value.0.env == (if flagUpdateOk then MarkProcessed(docs.env, isoTs) else docs.env)
              && r.value.1.doc == MlPayload(isoTs, Find(docs.env, isoTs).value,
                                            ComputeScoreFromEnv(Find(docs.env, isoTs).value, predict, modelVersionSetting))
  {
    if !storeOk then Err(HttpError(StoreFailureStatus))
    else
      match Find(docs.env, isoTs)
      case None => Err(HttpError(NotFoundStatus))
      case Some(env) =>
        match Find(docs.ml, isoTs)
        case Some(existing) => Ok((docs, AlreadyProcessed(existing)))
        case None =>
          var payload := MlPayload(isoTs, env, ComputeScoreFromEnv(env, predict, modelVersionSetting));
          var env' := if flagUpdateOk then MarkProcessed(docs.env, isoTs) else docs.env;
          Ok((SessionDocs(env', docs.ml + [Entry(isoTs, payload)], docs.summary), NewlyProcessed(payload)))
  }

  /** `process_env_doc` behind its endpoint: the raw timestamp is normalised
      first; then 500 when a store call fails and 404 for a missing
      environment document; the stored ml_scores document, untouched, when
      one exists; otherwise exactly one new ml_scores document at the
      normalised timestamp id, with the environment document flagged (unless
      that update failed), and no other session touched. */
  function ProcessEnvDoc(store: Store, sid: string, timestampRaw: string, reparse: string -> string, storeOk: bool,
                         predict: seq<real> -> Option<real>, modelVersionSetting: string, flagUpdateOk: bool)
    : (r: Result<(Store, Processed), HttpError>)
    ensures r.Err? <==> !storeOk || Find(DocsOf(store, sid).env, ToUtcIso(timestampRaw, reparse)).None?
    ensures r.Err? ==> r.error.status == (if storeOk then NotFoundStatus else StoreFailureStatus)
    ensures r.Ok? ==> r.value.0.sessionIds == store.sessionIds
    ensures r.Ok? ==> forall other :: other != sid ==> DocsOf(r.value.0, other) == DocsOf(store, other)
    ensures r.Ok? && r.value.1.AlreadyProcessed? ==> r.value.0 == store
    ensures r.Ok? ==>
              (r.value.1.AlreadyProcessed? <==> Find(DocsOf(store, sid).ml, ToUtcIso(timestampRaw, reparse)).Some?)
    ensures r.Ok? && r.value.1.NewlyProcessed? ==>
              && DocsOf(r.value.0, sid).ml
                   == DocsOf(store, sid).ml + [Entry(ToUtcIso(timestampRaw, reparse), r.value.1.doc)]
              && r.value.1.doc.timestamp == ToUtcIso(timestampRaw, reparse)
              && (flagUpdateOk ==> Find(DocsOf(r.value.0, sid).env, ToUtcIso(timestampRaw, reparse))
                                     == Some(Find(DocsOf(store, sid).env, ToUtcIso(timestampRaw, reparse)).value
                                               .(mlProcessed := Some(true))))
  {
    var isoTs := ToUtcIso(timestampRaw, reparse);
    var docs := DocsOf(store, sid);
    var res := ProcessEnvDocIn(docs, isoTs, storeOk, predict, modelVersionSetting, flagUpdateOk);
    if res.Err? then Err(res.error)
    else
      var docs', outcome := res.value.0, res.value.1;
      if outcome.AlreadyProcessed? then Ok((store, outcome))
      else
        var store' := store.(sessions := store.sessions[sid := docs']);
        assert DocsOf(store', sid) == docs';
        assert forall other :: other != sid ==> DocsOf(store', other) == DocsOf(store, other);
        FindMarked(docs.env, isoTs);
        Ok((store', outcome))
  }

  /** After marking, the document with that id is found flagged. */
  lemma FindMarked(env: seq<Entry<EnvDoc>>, id: string)
    requires Find(env, id).Some?
    ensures Find(MarkProcessed(env, id), id) == Some(Find(env, id).value.(mlProcessed := Some(true)))
  {
    if env[0].id != id {
      assert MarkProcessed(env, id)[1..] == MarkProcessed(env[1..], id);
      FindMarked(env[1..], id);
    }
  }

  /** Processing the same document twice writes once: a second call whose
      store calls succeed finds the ml_scores document and returns it without
      changing the store. */
  lemma ProcessEnvDocIdempotent(store: Store, sid: string, timestampRaw: string, reparse: string -> string,
                                storeOk: bool, storeOk2: bool, predict: seq<real> -> Option<real>,
                                modelVersionSetting: string, flagUpdateOk: bool, flagUpdateOk2: bool)
    requires ProcessEnvDoc(store, sid, timestampRaw, reparse, storeOk, predict, modelVersionSetting, flagUpdateOk).Ok?
    ensures var (store', first) := ProcessEnvDoc(store, sid, timestampRaw, reparse, storeOk, predict,
                                                 modelVersionSetting, flagUpdateOk).value;
            storeOk2 ==>
              ProcessEnvDoc(store', sid, timestampRaw, reparse, storeOk2, predict, modelVersionSetting, flagUpdateOk2)
                == Ok((store', AlreadyProcessed(first.doc)))
  {
    var (store', first) := ProcessEnvDoc(store, sid, timestampRaw, reparse, storeOk, predict, modelVersionSetting,
                                         flagUpdateOk).value;
    var isoTs := ToUtcIso(timestampRaw, reparse);
    var docs := DocsOf(store, sid);
    if first.NewlyProcessed? {
      FindAppend(docs.ml, Entry(isoTs, first.doc), isoTs);
      if flagUpdateOk {
        FindMarked(docs.env, isoTs);
      }
    }
  }

  /** Some environment document with this id has a flag satisfying `keep`. */
  predicate KeptAt(env: seq<Entry<EnvDoc>>, keep: Option<bool> -> bool, id: string)
  {
    exists i :: 0 <= i < |env| && env[i].id == id && keep(env[i].doc.mlProcessed)
  }

  lemma KeptAtTail(env: seq<Entry<EnvDoc>>, keep: Option<bool> -> bool, id: string)
    requires |env| > 0 && KeptAt(env[1..], keep, id)
    ensures KeptAt(env, keep, id)
  {
    var i :| 0 <= i < |env[1..]| && env[1..][i].id == id && keep(env[1..][i].doc.mlProcessed);
    assert env[i + 1] == env[1..][i];
  }

  /** The ids of the environment documents whose `_ml_processed` value
      satisfies `keep`, in order. */
  function Selected(env: seq<Entry<EnvDoc>>, keep: Option<bool> -> bool): (r: seq<string>)
    ensures |r| <= |env|
    ensures forall k :: 0 <= k < |r| ==> KeptAt(env, keep, r[k])
    ensures forall i :: 0 <= i < |env| && keep(env[i].doc.mlProcessed) ==> env[i].id in r
  {
    if |env| == 0 then []
    else
      var rest := Selected(env[1..], keep);
      assert forall i :: 1 <= i < |env| ==> env[i] == env[1..][i - 1];
      assert forall k :: 0 <= k < |rest| ==> KeptAt(env, keep, rest[k]) by {
        forall k | 0 <= k < |rest| {
          KeptAtTail(env, keep, rest[k]);
        }
      }
      if keep(env[0].doc.mlProcessed) then
        var r := [env[0].id] + rest;
        assert forall k :: 1 <= k < |r| ==> r[k] == rest[k - 1];
        r
      else rest
  }

  /** The environment documents that carry a `timestamp` field, in order: the
      only ones a query ordered by timestamp returns. */
  function Timed(env: seq<Entry<EnvDoc>>): (r: seq<Entry<EnvDoc>>)
    ensures |r| <= |env|
    ensures forall k :: 0 <= k < |r| ==> r[k].doc.timestamp.Some? && r[k] in env
    ensures forall i :: 0 <= i < |env| && env[i].doc.timestamp.Some? ==> env[i] in r
  {
    if |env| == 0 then []
    else
      var rest := Timed(env[1..]);
      assert forall i :: 1 <= i < |env| ==> env[i] == env[1..][i - 1];
      assert forall k :: 0 <= k < |rest| ==> rest[k] in env by {
        forall k | 0 <= k < |rest| ensures rest[k] in env {
          var m :| 0 <= m < |env[1..]| && env[1..][m] == rest[k];
          assert env[m + 1] == rest[k];
        }
      }
      if env[0].doc.timestamp.Some? then
        var r := [env[0]] + rest;
        assert forall k :: 1 <= k < |r| ==> r[k] == rest[k - 1];
        r
      else rest
  }

  /** An id a timestamp-ordered query keeps belongs to an environment
      document that has a timestamp and whose flag passes the filter; the
      result is that document's position. */
  lemma KeptTimedIsEnv(env: seq<Entry<EnvDoc>>, keep: Option<bool> -> bool, id: string) returns (i: nat)
    requires KeptAt(Timed(env), keep, id)
    ensures i < |env| && env[i].id == id && env[i].doc.timestamp.Some? && keep(env[i].doc.mlProcessed)
  {
    var j := KeptWitness(Timed(env), keep, id);
    i := TimedIndex(env, j);
  }

  /** The position of a kept document. */
  lemma KeptWitness(env: seq<Entry<EnvDoc>>, keep: Option<bool> -> bool, id: string) returns (j: nat)
    requires KeptAt(env, keep, id)
    ensures j < |env| && env[j].id == id && keep(env[j].doc.mlProcessed)
  {
    j :| 0 <= j < |env| && env[j].id == id && keep(env[j].doc.mlProcessed);
  }

  /** The position in `env` of a timestamped document. */
  lemma TimedIndex(env: seq<Entry<EnvDoc>>, j: nat) returns (i: nat)
    requires j < |Timed(env)|
    ensures i < |env| && env[i] == Timed(env)[j] && env[i].doc.timestamp.Some?
  {
    var t := Timed(env);
    assert t[j] in env;
    i :| 0 <= i < |env| && env[i] == t[j];
  }

  /** What a limited query keeps, the unlimited one keeps too. */
  lemma KeptInPrefix(env: seq<Entry<EnvDoc>>, limit: nat, keep: Option<bool> -> bool, id: string)
    requires KeptAt(Take(env, limit), keep, id)
    ensures KeptAt(env, keep, id)
  {
    var t := Take(env, limit);
    var j :| 0 <= j < |t| && t[j].id == id && keep(t[j].doc.mlProcessed);
    assert t[j] == env[j];
  }

  /** The direct query's filter, `_ml_processed == False`: a missing field
      does not match. */
  predicate FlaggedFalse(flag: Option<bool>)
  {
    flag == Some(false)
  }

  /** The fallback's filter, `not dd.get("_ml_processed", False)`: a missing
      field counts as false. */
  predicate NotFlaggedTrue(flag: Option<bool>)
  {
    flag != Some(true)
  }

  /** Some environment document with this id has a timestamp and a flag
      that is explicitly false: what the direct query matches. */
  predicate DirectMatch(env: seq<Entry<EnvDoc>>, id: string)
  {
    exists i :: 0 <= i < |env| && env[i].id == id && env[i].doc.timestamp.Some? && env[i].doc.mlProcessed == Some(false)
  }

  /** Some environment document with this id has a timestamp and a flag
      that is absent or false: what the fallback scan keeps. */
  predicate FallbackMatch(env: seq<Entry<EnvDoc>>, id: string)
  {
    exists i :: 0 <= i < |env| && env[i].id == id && env[i].doc.timestamp.Some? && env[i].doc.mlProcessed != Some(true)
  }

  /** The direct query `where _ml_processed == False`, ordered by timestamp and
      limited: it matches only timestamped documents whose flag is explicitly
      false. */
  function DirectQuery(env: seq<Entry<EnvDoc>>, limit: nat): (r: seq<string>)
    ensures |r| <= limit
    ensures forall k :: 0 <= k < |r| ==> DirectMatch(env, r[k])
    ensures |r| == limit ||
            forall i :: 0 <= i < |env| && env[i].doc.timestamp.Some? && env[i].doc.mlProcessed == Some(false) ==>
              env[i].id in r
  {
    var found := Take(Selected(Timed(env), FlaggedFalse), limit);
    DirectQueryFinds(env, found);
    DirectQueryComplete(env, limit);
    found
  }

  /** Unless the limit is reached, the direct query's filter keeps every
      timestamped document flagged false. */
  lemma DirectQueryComplete(env: seq<Entry<EnvDoc>>, limit: nat)
    ensures var found := Take(Selected(Timed(env), FlaggedFalse), limit);
            |found| == limit ||
            forall i :: 0 <= i < |env| && env[i].doc.timestamp.Some? && env[i].doc.mlProcessed == Some(false) ==>
              env[i].id in found
  {
    var sel := Selected(Timed(env), FlaggedFalse);
    if |sel| <= limit {
      forall i | 0 <= i < |env| && env[i].doc.timestamp.Some? && env[i].doc.mlProcessed == Some(false)
        ensures env[i].id in sel
      {
        var t := Timed(env);
        var j :| 0 <= j < |t| && t[j] == env[i];
        assert FlaggedFalse(t[j].doc.mlProcessed);
      }
    }
  }

  /** Each id kept by the direct query's filter among the timestamped
      documents is that of a timestamped document flagged false. */
  lemma DirectQueryFinds(env: seq<Entry<EnvDoc>>, found: seq<string>)
    requires forall k :: 0 <= k < |found| ==> KeptAt(Timed(env), FlaggedFalse, found[k])
    ensures forall k :: 0 <= k < |found| ==> DirectMatch(env, found[k])
  {
    forall k | 0 <= k < |found|
      ensures DirectMatch(env, found[k])
    {
      var i := KeptTimedIsEnv(env, FlaggedFalse, found[k]);
      assert FlaggedFalse(env[i].doc.mlProcessed);
    }
  }

  /** The fallback scan: the first `limit` documents by timestamp, keeping
      those whose flag is falsy or absent. */
  function FallbackScan(env: seq<Entry<EnvDoc>>, limit: nat): (r: seq<string>)
    ensures |r| <= limit
    ensures forall k :: 0 <= k < |r| ==> FallbackMatch(env, r[k])
    ensures forall j :: 0 <= j < |Timed(env)| && j < limit && Timed(env)[j].doc.mlProcessed != Some(true) ==>
              Timed(env)[j].id in r
  {
    var found := Selected(Take(Timed(env), limit), NotFlaggedTrue);
    FallbackScanFinds(env, limit, found);
    FallbackScanComplete(env, limit);
    found
  }

  /** The fallback's filter keeps every document of the first batch that is
      not flagged true. */
  lemma FallbackScanComplete(env: seq<Entry<EnvDoc>>, limit: nat)
    ensures var found := Selected(Take(Timed(env), limit), NotFlaggedTrue);
            forall j :: 0 <= j < |Timed(env)| && j < limit && Timed(env)[j].doc.mlProcessed != Some(true) ==>
              Timed(env)[j].id in found
  {
    var t := Timed(env);
    var batch := Take(t, limit);
    forall j | 0 <= j < |t| && j < limit && t[j].doc.mlProcessed != Some(true)
      ensures t[j].id in Selected(batch, NotFlaggedTrue)
    {
      assert batch[j] == t[j];
      assert NotFlaggedTrue(batch[j].doc.mlProcessed);
    }
  }

  /** Each id kept by the fallback's filter among the first `limit`
      timestamped documents is that of a timestamped document not flagged
      true. */
  lemma FallbackScanFinds(env: seq<Entry<EnvDoc>>, limit: nat, found: seq<string>)
    requires forall k :: 0 <= k < |found| ==> KeptAt(Take(Timed(env), limit), NotFlaggedTrue, found[k])
    ensures forall k :: 0 <= k < |found| ==> FallbackMatch(env, found[k])
  {
    forall k | 0 <= k < |found|
      ensures FallbackMatch(env, found[k])
    {
      KeptInPrefix(Timed(env), limit, NotFlaggedTrue, found[k]);
      var i := KeptTimedIsEnv(env, NotFlaggedTrue, found[k]);
      assert NotFlaggedTrue(env[i].doc.mlProcessed);
    }
  }

  /** The direct query never returns a document that carries no flag at all,
      nor one already flagged as processed. */
  lemma DirectQueryNeedsExplicitFalse(env: seq<Entry<EnvDoc>>, limit: nat, i: nat)
    requires DistinctIds(env)
    requires i < |env| && env[i].doc.mlProcessed != Some(false)
    ensures env[i].id !in DirectQuery(env, limit)
  {
  }

  /** Neither query ever returns a document without a `timestamp` field. */
  lemma UntimedNeverQueried(env: seq<Entry<EnvDoc>>, limit: nat, i: nat)
    requires DistinctIds(env)
    requires i < |env| && env[i].doc.timestamp.None?
    ensures env[i].id !in DirectQuery(env, limit)
    ensures env[i].id !in FallbackScan(env, limit)
  {
  }

  /** The fallback scan only ever looks at the first `limit` timestamped
      documents, and never returns one already flagged as processed. */
  lemma FallbackSeesOnlyFirstBatch(env: seq<Entry<EnvDoc>>, limit: nat, i: nat)
    requires DistinctIds(Timed(env))
    requires i < |Timed(env)| && (limit <= i || Timed(env)[i].doc.mlProcessed == Some(true))
    ensures Timed(env)[i].id !in FallbackScan(env, limit)
  {
  }

  /** The result of `compute_and_write_session_summary`. */
  datatype SummaryOutcome = NoIntervals | SummaryFailed | SummaryWritten(summary: Summary)

  /** The streamed ml_scores documents that carry an `interval_score`, in order. */
  function ScoredDocs(ml: seq<Entry<MlDoc>>): (r: seq<MlDoc>)
    ensures |r| <= |ml|
    ensures forall k :: 0 <= k < |r| ==> r[k].intervalScore.Some?
    ensures |r| == 0 <==> forall i :: 0 <= i < |ml| ==> ml[i].doc.intervalScore.None?
  {
    if |ml| == 0 then []
    else
      var rest := ScoredDocs(ml[1..]);
      assert forall i :: 1 <= i < |ml| ==> ml[i] == ml[1..][i - 1];
      if ml[0].doc.intervalScore.Some? then [ml[0].doc] + rest else rest
  }

  /** The `interval_score` column of scored documents. */
  function Scores(docs: seq<MlDoc>): (r: seq<real>)
    requires forall k :: 0 <= k < |docs| ==> docs[k].intervalScore.Some?
    ensures |r| == |docs|
    ensures forall k {:trigger docs[k]} :: 0 <= k < |docs| ==> r[k] == docs[k].intervalScore.value
  {
    seq(|docs|, k requires 0 <= k < |docs| => docs[k].intervalScore.value)
  }

  function MlTimestamp(d: MlDoc): string { d.timestamp }

  lemma TimestampWitness(docs: seq<MlDoc>, v: string)
    requires v in StringColumn(docs, MlTimestamp)
    ensures exists k :: 0 <= k < |docs| && docs[k].timestamp == v
  {
    var k := ColumnSource(docs, MlTimestamp, v);
    assert MlTimestamp(docs[k]) == v;
  }

  lemma ScoreWitness(docs: seq<MlDoc>, v: real)
    requires forall k :: 0 <= k < |docs| ==> docs[k].intervalScore.Some?
    requires v in Scores(docs)
    ensures exists k :: 0 <= k < |docs| && docs[k].intervalScore.value == v
  {
    var j :| 0 <= j < |Scores(docs)| && Scores(docs)[j] == v;
    assert docs[j].intervalScore.value == v;
  }

  /** The reading fields of an ml_scores document. */
  function TempOf(d: MlDoc): Option<real> { d.tempC }
  function HumidityOf(d: MlDoc): Option<real> { d.humidityPct }
  function LightOf(d: MlDoc): Option<real> { d.lightLux }
  function NoiseOf(d: MlDoc): Option<real> { d.noiseDb }

  /** One reading column of ml_scores documents. */
  function Column(docs: seq<MlDoc>, field: MlDoc -> Option<real>): (r: seq<Option<real>>)
    ensures |r| == |docs|
    ensures forall k :: 0 <= k < |docs| ==> r[k] == field(docs[k])
  {
    seq(|docs|, k requires 0 <= k < |docs| => field(docs[k]))
  }

  /** The summary of the scored documents of a session: average, minimum and
      maximum of the scores, the earliest and latest timestamps, the count,
      and the feature means, each guarded by `any(values)` as the source
      writes it. */
  function SummaryOf(sid: string, docs: seq<MlDoc>): (s: Summary)
    requires |docs| > 0
    requires forall k :: 0 <= k < |docs| ==> docs[k].intervalScore.Some?
    ensures s.sessionId == sid
    ensures s.numIntervals == |docs|
    ensures s.avgComfortScore == Mean(Scores(docs))
    ensures s.minScore <= s.avgComfortScore <= s.maxScore
    ensures forall k :: 0 <= k < |docs| ==> s.minScore <= docs[k].intervalScore.value <= s.maxScore
    ensures exists k :: 0 <= k < |docs| && docs[k].intervalScore.value == s.minScore
    ensures exists k :: 0 <= k < |docs| && docs[k].intervalScore.value == s.maxScore
    ensures forall k :: 0 <= k < |docs| ==>
              LexLe(s.firstTimestamp, docs[k].timestamp) && LexLe(docs[k].timestamp, s.lastTimestamp)
    ensures exists k :: 0 <= k < |docs| && docs[k].timestamp == s.firstTimestamp
    ensures exists k :: 0 <= k < |docs| && docs[k].timestamp == s.lastTimestamp
    ensures SessionStats.ReportedAsWritten(s.tempMean, Column(docs, TempOf))
    ensures SessionStats.ReportedAsWritten(s.humidityMean, Column(docs, HumidityOf))
    ensures SessionStats.ReportedAsWritten(s.lightMean, Column(docs, LightOf))
    ensures SessionStats.ReportedAsWritten(s.noiseMean, Column(docs, NoiseOf))
  {
    var scores := Scores(docs);
    var timestamps := StringColumn(docs, MlTimestamp);
    MinLeMeanLeMax(scores);
    ScoreWitness(docs, SeqMin(scores));
    ScoreWitness(docs, SeqMax(scores));
    TimestampWitness(docs, MinStr(timestamps));
    TimestampWitness(docs, MaxStr(timestamps));
    Summary(
      sid, Mean(scores), SeqMin(scores), SeqMax(scores), MinStr(timestamps), MaxStr(timestamps), |docs|,
      SessionStats.FeatureMeanAsWritten(Column(docs, TempOf)),
      SessionStats.FeatureMeanAsWritten(Column(docs, HumidityOf)),
      SessionStats.FeatureMeanAsWritten(Column(docs, LightOf)),
      SessionStats.FeatureMeanAsWritten(Column(docs, NoiseOf)))
  }

  /** The pure part of `compute_and_write_session_summary`: nothing without ml
      documents; a failure (numpy raises on an empty array) when none of them
      carries a score; otherwise the summary of the scored ones. */
  function ComputeSessionSummary(sid: string, ml: seq<Entry<MlDoc>>): (r: SummaryOutcome)
    ensures r.NoIntervals? <==> |ml| == 0
    ensures r.SummaryFailed? <==> |ml| > 0 && forall i :: 0 <= i < |ml| ==> ml[i].doc.intervalScore.None?
    ensures r.SummaryWritten? ==> 0 < |ScoredDocs(ml)| && r.summary == SummaryOf(sid, ScoredDocs(ml))
  {
    if |ml| == 0 then NoIntervals
    else
      var docs := ScoredDocs(ml);
      if |docs| == 0 then SummaryFailed else SummaryWritten(SummaryOf(sid, docs))
  }

  /** The newest environment document: the query ordered by timestamp,
      descending, limit 1, which sees only documents that have a timestamp. */
  function LastEnv(env: seq<Entry<EnvDoc>>): (r: Option<EnvDoc>)
    ensures r.None? <==> forall i :: 0 <= i < |env| ==> env[i].doc.timestamp.None?
    ensures r.Some? ==> r.value.timestamp.Some?
    ensures r.Some? ==> exists i :: 0 <= i < |env| && env[i].doc == r.value
                                  && forall j :: i < j < |env| ==> env[j].doc.timestamp.None?
    decreases |env|
  {
    if |env| == 0 then None
    else if env[|env| - 1].doc.timestamp.Some? then Some(env[|env| - 1].doc)
    else
      var prefix := env[..|env| - 1];
      assert forall i :: 0 <= i < |prefix| ==> prefix[i] == env[i];
      LastEnv(prefix)
  }

  /** `session_is_inactive`, over abstract epoch seconds: false without a
      newest document, without its timestamp, or when the timestamp does not
      parse; otherwise whether it is older than the inactivity window. */
  function SessionIsInactive(last: Option<EnvDoc>, parse: string -> Option<int>, nowSeconds: int,
                             inactivityMinutes: int): (r: bool)
    ensures last.None? ==> !r
    ensures last.Some? && last.value.timestamp.None? ==> !r
    ensures last.Some? && last.value.timestamp.Some? && parse(last.value.timestamp.value).None? ==> !r
    ensures r <==> && last.Some? && last.value.timestamp.Some? && parse(last.value.timestamp.value).Some?
                   && nowSeconds - parse(last.value.timestamp.value).value > inactivityMinutes * 60
  {
    if last.None? || last.value.timestamp.None? then false
    else
      match parse(last.value.timestamp.value)
      case None => false
      case Some(lastSeconds) => nowSeconds - lastSeconds > inactivityMinutes * 60
  }

  /** `b` is `a` with, at most, `_ml_processed` flags changed. */
  predicate FlagsOnlyChanged(a: seq<Entry<EnvDoc>>, b: seq<Entry<EnvDoc>>)
  {
    |a| == |b| && forall i :: 0 <= i < |a| ==> b[i] == Entry(a[i].id, a[i].doc.(mlProcessed := b[i].doc.mlProcessed))
  }

  /** Every ml_scores document sits at the id of an environment document. */
  predicate MlBackedByEnv(docs: SessionDocs)
  {
    forall k :: 0 <= k < |docs.ml| ==> docs.ml[k].id in Ids(docs.env)
  }

  /** Every environment document flagged processed has its ml_scores document:
      the flag is only ever set right after that document is written. */
  predicate FlaggedHaveScores(docs: SessionDocs)
  {
    forall i :: 0 <= i < |docs.env| && docs.env[i].doc.mlProcessed == Some(true) ==> docs.env[i].id in Ids(docs.ml)
  }

  /** The session's documents after one `process_env_doc` call; an error
      leaves them as they were. */
  function Step(docs: SessionDocs, isoTs: string, storeOk: bool, predict: seq<real> -> Option<real>,
                modelVersionSetting: string, flagUpdateOk: bool): (r: SessionDocs)
    ensures |docs.ml| <= |r.ml| <= |docs.ml| + 1
    ensures r.ml[..|docs.ml|] == docs.ml
    ensures |r.ml| > |docs.ml| ==> r.ml[|docs.ml|].id == isoTs && isoTs in Ids(docs.env)
    ensures !storeOk ==> r == docs
    ensures storeOk && isoTs in Ids(docs.env) ==> isoTs in Ids(r.ml)
    ensures r.summary == docs.summary
    ensures FlagsOnlyChanged(docs.env, r.env)
    ensures Ids(r.env) == Ids(docs.env)
    ensures DistinctIds(docs.ml) ==> DistinctIds(r.ml)
    ensures MlBackedByEnv(docs) ==> MlBackedByEnv(r)
    ensures FlaggedHaveScores(docs) ==> FlaggedHaveScores(r)
  {
    var step := ProcessEnvDocIn(docs, isoTs, storeOk, predict, modelVersionSetting, flagUpdateOk);
    var next := if step.Ok? then step.value.0 else docs;
    assert StepOutcome(docs, isoTs, next);
    StepKeepsShape(docs, isoTs, next);
    StepScores(docs, isoTs, storeOk, predict, modelVersionSetting, flagUpdateOk);
    next
  }

  /** The poller's inner loop: `process_env_doc` on each selected id in turn,
      an error on one document skipping just that document. `storeOk(id)` says
      whether the store calls for that id succeed. */
  function ProcessIds(docs: SessionDocs, ids: seq<string>, storeOk: string -> bool,
                      predict: seq<real> -> Option<real>, modelVersionSetting: string, flagUpdateOk: bool)
    : (r: SessionDocs)
    ensures |docs.ml| <= |r.ml| <= |docs.ml| + |ids|
    ensures r.ml[..|docs.ml|] == docs.ml
    ensures r.summary == docs.summary
    ensures FlagsOnlyChanged(docs.env, r.env)
    ensures Ids(r.env) == Ids(docs.env)
    decreases |ids|
  {
    if |ids| == 0 then docs
    else
      var next := Step(docs, ids[0], storeOk(ids[0]), predict, modelVersionSetting, flagUpdateOk);
      var r := ProcessIds(next, ids[1..], storeOk, predict, modelVersionSetting, flagUpdateOk);
      assert r.ml[..|docs.ml|] == next.ml[..|docs.ml|];
      assert FlagsOnlyChanged(docs.env, r.env) by {
        forall i | 0 <= i < |docs.env|
          ensures r.env[i] == Entry(docs.env[i].id, docs.env[i].doc.(mlProcessed := r.env[i].doc.mlProcessed))
        {
          assert next.env[i] == Entry(docs.env[i].id, docs.env[i].doc.(mlProcessed := next.env[i].doc.mlProcessed));
        }
      }
      r
  }

  /** Every document of `after` past the length of `before` sits at one of `ids`. */
  predicate AddedAt(before: seq<Entry<MlDoc>>, after: seq<Entry<MlDoc>>, ids: seq<string>)
  {
    forall k :: |before| <= k < |after| ==> after[k].id in ids
  }

  /** A step that appends at most one document, at `ids[0]`, followed by
      appends at `ids[1..]`, appends only at `ids`. */
  lemma AddedAtCompose(a: seq<Entry<MlDoc>>, b: seq<Entry<MlDoc>>, c: seq<Entry<MlDoc>>, ids: seq<string>)
    requires |ids| > 0
    requires |a| <= |b| <= |a| + 1 && (|b| > |a| ==> b[|a|].id == ids[0])
    requires |b| <= |c| && c[..|b|] == b
    requires AddedAt(b, c, ids[1..])
    ensures AddedAt(a, c, ids)
  {
    forall k | |a| <= k < |c| ensures c[k].id in ids {
      if k < |b| {
        assert c[..|b|][k] == c[k];
      } else {
        var j :| 0 <= j < |ids[1..]| && ids[1..][j] == c[k].id;
        assert ids[j + 1] == c[k].id;
      }
    }
  }

  /** Every ml_scores document the inner loop adds sits at one of the selected ids. */
  lemma {:induction false} ProcessIdsAppendsSelected(docs: SessionDocs, ids: seq<string>, storeOk: string -> bool,
                                                      predict: seq<real> -> Option<real>,
                                                      modelVersionSetting: string, flagUpdateOk: bool)
    ensures AddedAt(docs.ml, ProcessIds(docs, ids, storeOk, predict, modelVersionSetting, flagUpdateOk).ml, ids)
    decreases |ids|
  {
    if |ids| > 0 {
      var next := Step(docs, ids[0], storeOk(ids[0]), predict, modelVersionSetting, flagUpdateOk);
      var r := ProcessIds(next, ids[1..], storeOk, predict, modelVersionSetting, flagUpdateOk);
      ProcessIdsAppendsSelected(next, ids[1..], storeOk, predict, modelVersionSetting, flagUpdateOk);
      AddedAtCompose(docs.ml, next.ml, r.ml, ids);
    }
  }

  /** Every selected id that names an environment document, and whose store
      calls succeed, has its ml_scores document once the inner loop is done:
      it was there already, or the loop wrote it. */
  lemma {:induction false} ProcessIdsScoresSelected(docs: SessionDocs, ids: seq<string>, storeOk: string -> bool,
                                                     predict: seq<real> -> Option<real>,
                                                     modelVersionSetting: string, flagUpdateOk: bool)
    ensures var r := ProcessIds(docs, ids, storeOk, predict, modelVersionSetting, flagUpdateOk);
            forall k :: 0 <= k < |ids| && storeOk(ids[k]) && ids[k] in Ids(docs.env) ==> ids[k] in Ids(r.ml)
    decreases |ids|
  {
    if |ids| > 0 {
      var next := Step(docs, ids[0], storeOk(ids[0]), predict, modelVersionSetting, flagUpdateOk);
      var r := ProcessIds(next, ids[1..], storeOk, predict, modelVersionSetting, flagUpdateOk);
      assert r == ProcessIds(docs, ids, storeOk, predict, modelVersionSetting, flagUpdateOk);
      ProcessIdsScoresSelected(next, ids[1..], storeOk, predict, modelVersionSetting, flagUpdateOk);
      IdsOfPrefix(next.ml, r.ml);
      ScoresSelectedHead(docs, ids, storeOk, next, r);
    }
  }

  /** The inductive step of `ProcessIdsScoresSelected`: the head id is scored
      by its own step and stays so, and the later ids by the rest of the loop. */
  lemma ScoresSelectedHead(docs: SessionDocs, ids: seq<string>, storeOk: string -> bool,
                           next: SessionDocs, r: SessionDocs)
    requires |ids| > 0
    requires storeOk(ids[0]) && ids[0] in Ids(docs.env) ==> ids[0] in Ids(next.ml)
    requires Ids(next.env) == Ids(docs.env)
    requires forall id :: id in Ids(next.ml) ==> id in Ids(r.ml)
    requires forall k :: 0 <= k < |ids[1..]| && storeOk(ids[1..][k]) && ids[1..][k] in Ids(next.env) ==>
               ids[1..][k] in Ids(r.ml)
    ensures forall k :: 0 <= k < |ids| && storeOk(ids[k]) && ids[k] in Ids(docs.env) ==> ids[k] in Ids(r.ml)
  {
    forall k | 0 <= k < |ids| && storeOk(ids[k]) && ids[k] in Ids(docs.env)
      ensures ids[k] in Ids(r.ml)
    {
      if k > 0 {
        assert ids[k] == ids[1..][k - 1];
      }
    }
  }

  /** The inner loop never writes an ml_scores id twice. */
  lemma {:induction false} ProcessIdsKeepsDistinct(docs: SessionDocs, ids: seq<string>, storeOk: string -> bool,
                                                    predict: seq<real> -> Option<real>,
                                                    modelVersionSetting: string, flagUpdateOk: bool)
    ensures DistinctIds(docs.ml) ==>
              DistinctIds(ProcessIds(docs, ids, storeOk, predict, modelVersionSetting, flagUpdateOk).ml)
    decreases |ids|
  {
    if |ids| > 0 {
      var next := Step(docs, ids[0], storeOk(ids[0]), predict, modelVersionSetting, flagUpdateOk);
      assert ProcessIds(next, ids[1..], storeOk, predict, modelVersionSetting, flagUpdateOk)
          == ProcessIds(docs, ids, storeOk, predict, modelVersionSetting, flagUpdateOk);
      ProcessIdsKeepsDistinct(next, ids[1..], storeOk, predict, modelVersionSetting, flagUpdateOk);
    }
  }

  /** Every ml_scores document the inner loop writes sits at an environment id. */
  lemma {:induction false} ProcessIdsKeepsBacked(docs: SessionDocs, ids: seq<string>, storeOk: string -> bool,
                                                  predict: seq<real> -> Option<real>,
                                                  modelVersionSetting: string, flagUpdateOk: bool)
    ensures MlBackedByEnv(docs) ==>
              MlBackedByEnv(ProcessIds(docs, ids, storeOk, predict, modelVersionSetting, flagUpdateOk))
    decreases |ids|
  {
    if |ids| > 0 {
      var next := Step(docs, ids[0], storeOk(ids[0]), predict, modelVersionSetting, flagUpdateOk);
      assert ProcessIds(next, ids[1..], storeOk, predict, modelVersionSetting, flagUpdateOk)
          == ProcessIds(docs, ids, storeOk, predict, modelVersionSetting, flagUpdateOk);
      ProcessIdsKeepsBacked(next, ids[1..], storeOk, predict, modelVersionSetting, flagUpdateOk);
    }
  }

  /** The inner loop flags no environment document whose ml_scores document
      is missing. */
  lemma {:induction false} ProcessIdsKeepsScored(docs: SessionDocs, ids: seq<string>, storeOk: string -> bool,
                                                  predict: seq<real> -> Option<real>,
                                                  modelVersionSetting: string, flagUpdateOk: bool)
    ensures FlaggedHaveScores(docs) ==>
              FlaggedHaveScores(ProcessIds(docs, ids, storeOk, predict, modelVersionSetting, flagUpdateOk))
    decreases |ids|
  {
    if |ids| > 0 {
      var next := Step(docs, ids[0], storeOk(ids[0]), predict, modelVersionSetting, flagUpdateOk);
      assert ProcessIds(next, ids[1..], storeOk, predict, modelVersionSetting, flagUpdateOk)
          == ProcessIds(docs, ids, storeOk, predict, modelVersionSetting, flagUpdateOk);
      ProcessIdsKeepsScored(next, ids[1..], storeOk, predict, modelVersionSetting, flagUpdateOk);
    }
  }

  /** Flagging a document changes no id and only `_ml_processed` flags. */
  lemma MarkKeepsShape(env: seq<Entry<EnvDoc>>, isoTs: string)
    ensures FlagsOnlyChanged(env, MarkProcessed(env, isoTs))
    ensures Ids(MarkProcessed(env, isoTs)) == Ids(env)
  {
    assert Ids(MarkProcessed(env, isoTs)) == Ids(env);
  }

  /** The id a lookup finds is one of the collection's ids. */
  lemma FoundIsAnId<D>(coll: seq<Entry<D>>, id: string)
    requires Find(coll, id).Some?
    ensures id in Ids(coll)
  {
    var i :| 0 <= i < |coll| && coll[i].id == id && coll[i].doc == Find(coll, id).value;
    assert Ids(coll)[i] == id;
  }

  /** A lookup of one of the collection's ids finds a document. */
  lemma IdIsFound<D>(coll: seq<Entry<D>>, id: string)
    requires id in Ids(coll)
    ensures Find(coll, id).Some?
  {
    var i :| 0 <= i < |Ids(coll)| && Ids(coll)[i] == id;
    assert coll[i].id == id;
  }

  /** A collection's ids stay among its ids when documents are appended. */
  lemma IdsOfPrefix<D>(a: seq<Entry<D>>, b: seq<Entry<D>>)
    requires |a| <= |b| && b[..|a|] == a
    ensures forall id :: id in Ids(a) ==> id in Ids(b)
  {
    forall id | id in Ids(a) ensures id in Ids(b) {
      var i :| 0 <= i < |Ids(a)| && Ids(a)[i] == id;
      assert b[..|a|][i] == b[i];
      assert Ids(b)[i] == id;
    }
  }

  /** A `process_env_doc` outcome, as Step sees it: the documents unchanged,
      or one ml document appended at an environment id that had none, with
      that environment document possibly flagged. */
  predicate StepOutcome(docs: SessionDocs, isoTs: string, next: SessionDocs)
  {
    || next == docs
    || (&& Find(docs.env, isoTs).Some? && Find(docs.ml, isoTs).None?
        && |next.ml| == |docs.ml| + 1 && next.ml[..|docs.ml|] == docs.ml && next.ml[|docs.ml|].id == isoTs
        && next.summary == docs.summary
        && (next.env == docs.env || next.env == MarkProcessed(docs.env, isoTs)))
  }

  /** Appending one document at an id no earlier document has keeps the ids
      distinct, and keeps every id within a set that contains the new one. */
  lemma AppendKeepsIds(ml: seq<Entry<MlDoc>>, ml': seq<Entry<MlDoc>>, isoTs: string, envIds: seq<string>)
    requires |ml'| == |ml| + 1 && ml'[..|ml|] == ml && ml'[|ml|].id == isoTs
    requires forall k :: 0 <= k < |ml| ==> ml[k].id != isoTs
    requires isoTs in envIds
    ensures DistinctIds(ml) ==> DistinctIds(ml')
    ensures (forall k :: 0 <= k < |ml| ==> ml[k].id in envIds) ==> forall k :: 0 <= k < |ml'| ==> ml'[k].id in envIds
  {
    forall k | 0 <= k < |ml|
      ensures ml'[k] == ml[k]
    {
      assert ml'[..|ml|][k] == ml[k];
    }
  }

  /** One `process_env_doc` step appends at most one document, at the given id,
      and only flags change in the environment collection. */
  lemma StepKeepsShape(docs: SessionDocs, isoTs: string, next: SessionDocs)
    requires StepOutcome(docs, isoTs, next)
    ensures |docs.ml| <= |next.ml| <= |docs.ml| + 1
    ensures next.ml[..|docs.ml|] == docs.ml
    ensures |next.ml| > |docs.ml| ==> next.ml[|docs.ml|].id == isoTs && isoTs in Ids(docs.env)
    ensures next.summary == docs.summary
    ensures FlagsOnlyChanged(docs.env, next.env)
    ensures Ids(next.env) == Ids(docs.env)
    ensures DistinctIds(docs.ml) ==> DistinctIds(next.ml)
    ensures MlBackedByEnv(docs) ==> MlBackedByEnv(next)
  {
    MarkKeepsShape(docs.env, isoTs);
    if next == docs {
      assert docs.ml[..|docs.ml|] == docs.ml;
    } else {
      FoundIsAnId(docs.env, isoTs);
      AppendKeepsIds(docs.ml, next.ml, isoTs, Ids(docs.env));
    }
  }

  /** After a `process_env_doc` call whose store calls succeed on an existing
      environment document, that document has its ml_scores document; and a
      flag is only set on a document whose ml_scores document exists. */
  lemma StepScores(docs: SessionDocs, isoTs: string, storeOk: bool, predict: seq<real> -> Option<real>,
                   modelVersionSetting: string, flagUpdateOk: bool)
    ensures var step := ProcessEnvDocIn(docs, isoTs, storeOk, predict, modelVersionSetting, flagUpdateOk);
            var next := if step.Ok? then step.value.0 else docs;
            && (storeOk && isoTs in Ids(docs.env) ==> isoTs in Ids(next.ml))
            && (FlaggedHaveScores(docs) ==> FlaggedHaveScores(next))
  {
    var step := ProcessEnvDocIn(docs, isoTs, storeOk, predict, modelVersionSetting, flagUpdateOk);
    if step.Ok? && Find(docs.ml, isoTs).Some? {
      FoundIsAnId(docs.ml, isoTs);
    } else if step.Ok? {
      var next := step.value.0;
      assert Ids(next.ml)[|docs.ml|] == isoTs;
      IdsOfPrefix(docs.ml, next.ml);
      forall i | 0 <= i < |next.env| && next.env[i].doc.mlProcessed == Some(true) && FlaggedHaveScores(docs)
        ensures next.env[i].id in Ids(next.ml)
      {
        if docs.env[i].id != isoTs {
          assert docs.env[i].doc.mlProcessed == Some(true);
        }
      }
    } else if storeOk && isoTs in Ids(docs.env) {
      IdIsFound(docs.env, isoTs);
    }
  }

  /** The summary step of a session's pass: once the session has gone quiet
      and has no summary yet, the computed summary is written when there is
      one and the write succeeds (`writeOk`; the write raises, for instance,
      where the client library lacks `SERVER_TIMESTAMP`, and the poller
      swallows the error); otherwise nothing changes. */
  function SummaryStep(sid: string, d: SessionDocs, parse: string -> Option<int>, nowSeconds: int,
                       inactivityMinutes: int, writeOk: bool): (r: SessionDocs)
    ensures r.env == d.env && r.ml == d.ml
    ensures d.summary.Some? ==> r.summary == d.summary
    ensures d.summary.None? && r.summary.Some? ==>
              && writeOk
              && SessionIsInactive(LastEnv(r.env), parse, nowSeconds, inactivityMinutes)
              && r.summary.value.sessionId == sid
              && r.summary.value.numIntervals > 0
              && ComputeSessionSummary(sid, r.ml) == SummaryWritten(r.summary.value)
    ensures (&& d.summary.None? && writeOk
             && SessionIsInactive(LastEnv(d.env), parse, nowSeconds, inactivityMinutes)
             && ComputeSessionSummary(sid, d.ml).SummaryWritten?) ==> r.summary.Some?
  {
    if d.summary.None? && writeOk && SessionIsInactive(LastEnv(d.env), parse, nowSeconds, inactivityMinutes) then
      match ComputeSessionSummary(sid, d.ml)
      case SummaryWritten(s) => d.(summary := Some(s))
      case _ => d
    else d
  }

  /** What a poll pass depends on besides the store, each a parameter because
      it comes from the store's client, the clock or the model:
      - `queryRaises(sid)`: the direct query raises for that session;
      - `scanRaises(sid)`: the fallback scan raises too, which ends the pass;
      - `storeOk(sid)(id)`: the store calls of `process_env_doc` succeed;
      - `summaryWriteOk(sid)`: the summary write succeeds;
      - `reparse`, `predict`, `modelVersionSetting` and `flagUpdateOk` as for
        `ProcessEnvDoc`; `parse`, `nowSeconds` and `inactivityMinutes` as for
        `SessionIsInactive`; and the batch limit. */
  datatype PassContext = PassContext(
    queryRaises: string -> bool,
    scanRaises: string -> bool,
    storeOk: string -> string -> bool,
    summaryWriteOk: string -> bool,
    reparse: string -> string,
    predict: seq<real> -> Option<real>,
    modelVersionSetting: string,
    flagUpdateOk: bool,
    parse: string -> Option<int>,
    nowSeconds: int,
    inactivityMinutes: int,
    batchLimit: nat)

  /** The ids one session's pass hands to `process_env_doc`: the query's
      document ids (the fallback scan's when the direct query raises), each
      normalised. */
  function PassIds(sid: string, docs: SessionDocs, ctx: PassContext): (ids: seq<string>)
    ensures |ids| <= ctx.batchLimit
    ensures forall k :: 0 <= k < |ids| ==>
              exists i :: && 0 <= i < |docs.env| && ids[k] == ToUtcIso(docs.env[i].id, ctx.reparse)
                          && docs.env[i].doc.timestamp.Some?
                          && (if ctx.queryRaises(sid) then docs.env[i].doc.mlProcessed != Some(true)
                              else docs.env[i].doc.mlProcessed == Some(false))
    ensures !ctx.queryRaises(sid) ==>
              |ids| == ctx.batchLimit ||
              forall i :: 0 <= i < |docs.env| && docs.env[i].doc.timestamp.Some? && docs.env[i].doc.mlProcessed == Some(false) ==>
                ToUtcIso(docs.env[i].id, ctx.reparse) in ids
    ensures ctx.queryRaises(sid) ==>
              forall j :: 0 <= j < |Timed(docs.env)| && j < ctx.batchLimit && Timed(docs.env)[j].doc.mlProcessed != Some(true) ==>
                ToUtcIso(Timed(docs.env)[j].id, ctx.reparse) in ids
  {
    var found := if ctx.queryRaises(sid) then FallbackScan(docs.env, ctx.batchLimit)
                 else DirectQuery(docs.env, ctx.batchLimit);
    IsoIdsKeep(found, ctx.reparse);
    IsoIds(found, ctx.reparse)
  }

  /** Normalising a list of ids normalises each of its members. */
  lemma IsoIdsKeep(ids: seq<string>, reparse: string -> string)
    ensures forall id :: id in ids ==> ToUtcIso(id, reparse) in IsoIds(ids, reparse)
  {
    forall id | id in ids ensures ToUtcIso(id, reparse) in IsoIds(ids, reparse) {
      var k :| 0 <= k < |ids| && ids[k] == id;
      assert IsoIds(ids, reparse)[k] == ToUtcIso(id, reparse);
    }
  }

  /** One session's share of a poll pass (a pass whose fallback scan does not
      raise): process the unprocessed documents the query returns, then, if
      the session has gone quiet and has no summary yet, write its summary. */
  function SessionPass(sid: string, docs: SessionDocs, ctx: PassContext): (r: SessionDocs)
    ensures |docs.ml| <= |r.ml| <= |docs.ml| + ctx.batchLimit
    ensures r.ml[..|docs.ml|] == docs.ml
    ensures forall id :: id in PassIds(sid, docs, ctx) && ctx.storeOk(sid)(id) && id in Ids(docs.env) ==>
              id in Ids(r.ml)
    ensures docs.summary.Some? ==> r.summary == docs.summary
    ensures docs.summary.None? && r.summary.Some? ==>
              && ctx.summaryWriteOk(sid)
              && SessionIsInactive(LastEnv(r.env), ctx.parse, ctx.nowSeconds, ctx.inactivityMinutes)
              && r.summary.value.sessionId == sid
              && r.summary.value.numIntervals > 0
              && ComputeSessionSummary(sid, r.ml) == SummaryWritten(r.summary.value)
    ensures (&& docs.summary.None? && ctx.summaryWriteOk(sid)
             && SessionIsInactive(LastEnv(r.env), ctx.parse, ctx.nowSeconds, ctx.inactivityMinutes)
             && ComputeSessionSummary(sid, r.ml).SummaryWritten?) ==> r.summary.Some?
    ensures FlagsOnlyChanged(docs.env, r.env)
    ensures Extends(docs, r)
  {
    var ids := PassIds(sid, docs, ctx);
    var d := ProcessIds(docs, ids, ctx.storeOk(sid), ctx.predict, ctx.modelVersionSetting, ctx.flagUpdateOk);
    ProcessIdsAppendsSelected(docs, ids, ctx.storeOk(sid), ctx.predict, ctx.modelVersionSetting, ctx.flagUpdateOk);
    ProcessIdsScoresSelected(docs, ids, ctx.storeOk(sid), ctx.predict, ctx.modelVersionSetting, ctx.flagUpdateOk);
    ProcessIdsKeepsDistinct(docs, ids, ctx.storeOk(sid), ctx.predict, ctx.modelVersionSetting, ctx.flagUpdateOk);
    ProcessIdsKeepsBacked(docs, ids, ctx.storeOk(sid), ctx.predict, ctx.modelVersionSetting, ctx.flagUpdateOk);
    ProcessIdsKeepsScored(docs, ids, ctx.storeOk(sid), ctx.predict, ctx.modelVersionSetting, ctx.flagUpdateOk);
    SummaryStep(sid, d, ctx.parse, ctx.nowSeconds, ctx.inactivityMinutes, ctx.summaryWriteOk(sid))
  }

  /** A session's pass scores every unprocessed document the direct query can
      see, as long as the query did not fill its batch: each timestamped
      document flagged false, whose id is already normalised and whose store
      calls succeed, has its ml_scores document afterwards. */
  lemma SessionPassScoresUnprocessed(sid: string, docs: SessionDocs, ctx: PassContext, i: nat)
    requires !ctx.queryRaises(sid) && |PassIds(sid, docs, ctx)| < ctx.batchLimit
    requires i < |docs.env| && docs.env[i].doc.timestamp.Some? && docs.env[i].doc.mlProcessed == Some(false)
    requires EndsInZ(docs.env[i].id) && ctx.storeOk(sid)(docs.env[i].id)
    ensures docs.env[i].id in Ids(SessionPass(sid, docs, ctx).ml)
  {
    var id := docs.env[i].id;
    assert ToUtcIso(id, ctx.reparse) == id;
    assert id in PassIds(sid, docs, ctx);
    assert Ids(docs.env)[i] == id;
  }

  /** The sessions one pass reaches: the first `maxSessions` that `list_documents` yields. */
  function PassSessions(store: Store, maxSessions: nat): seq<string>
  {
    Take(store.sessionIds, maxSessions)
  }

  /** `after` is what a pass may make of a session's documents `before`:
      ml_scores only grows at the end, an existing summary stays, ml_scores
      ids stay distinct and backed by environment documents, and a flagged
      environment document keeps having its ml_scores document. */
  predicate Extends(before: SessionDocs, after: SessionDocs)
  {
    && |before.ml| <= |after.ml|
    && after.ml[..|before.ml|] == before.ml
    && (before.summary.Some? ==> after.summary == before.summary)
    && (DistinctIds(before.ml) ==> DistinctIds(after.ml))
    && (MlBackedByEnv(before) ==> MlBackedByEnv(after))
    && (FlaggedHaveScores(before) ==> FlaggedHaveScores(after))
  }

  lemma ExtendsTransitive(a: SessionDocs, b: SessionDocs, c: SessionDocs)
    requires Extends(a, b) && Extends(b, c)
    ensures Extends(a, c)
  {
    assert c.ml[..|a.ml|] == c.ml[..|b.ml|][..|a.ml|];
  }

  /** One pass of `poller_loop`, without its sleeps: each reached session in
      turn gets its `SessionPass`, until a session's fallback scan raises,
      which ends the pass. */
  function PollPass(store: Store, ctx: PassContext, maxSessions: nat): (r: Store)
    ensures r.sessionIds == store.sessionIds
    ensures forall sid :: sid !in PassSessions(store, maxSessions) ==> DocsOf(r, sid) == DocsOf(store, sid)
    ensures var sids := PassSessions(store, maxSessions);
            NoDuplicates(store.sessionIds) ==>
              forall k :: 0 <= k < |sids| && Reached(sids, k, ctx) ==>
                DocsOf(r, sids[k]) == SessionPass(sids[k], DocsOf(store, sids[k]), ctx)
  {
    var sids := PassSessions(store, maxSessions);
    NoDuplicatesPrefix(store.sessionIds, |sids|);
    PassOver(store, sids, ctx)
  }

  /** A poll pass extends every session's documents, and adds at most
      `batchLimit` ml_scores documents to any one session, since
      `list_documents` yields each session once. */
  lemma PollPassExtends(store: Store, ctx: PassContext, maxSessions: nat, sid: string)
    ensures var r := PollPass(store, ctx, maxSessions);
            && Extends(DocsOf(store, sid), DocsOf(r, sid))
            && (NoDuplicates(store.sessionIds) ==> |DocsOf(r, sid).ml| <= |DocsOf(store, sid).ml| + ctx.batchLimit)
  {
    var sids := PassSessions(store, maxSessions);
    NoDuplicatesPrefix(store.sessionIds, |sids|);
    PassOverExtends(store, sids, ctx, sid);
  }

  /** Whether both queries raise for a session. */
  predicate ScanFails(sid: string, ctx: PassContext)
  {
    ctx.queryRaises(sid) && ctx.scanRaises(sid)
  }

  /** The pass reaches the session at position `k`: no session up to and
      including it has a raising fallback scan. */
  predicate Reached(sids: seq<string>, k: nat, ctx: PassContext)
    requires k < |sids|
  {
    forall j :: 0 <= j <= k ==> !ScanFails(sids[j], ctx)
  }

  /** A session reached after the first one is reached by the rest of the pass. */
  lemma ReachedTail(sids: seq<string>, ctx: PassContext)
    requires |sids| > 0
    ensures forall k :: 0 < k < |sids| && Reached(sids, k, ctx) ==>
              sids[1..][k - 1] == sids[k] && Reached(sids[1..], k - 1, ctx)
  {
    forall k | 0 < k < |sids| && Reached(sids, k, ctx)
      ensures Reached(sids[1..], k - 1, ctx)
    {
      forall j | 0 <= j <= k - 1 ensures !ScanFails(sids[1..][j], ctx) {
        assert sids[1..][j] == sids[j + 1];
      }
    }
  }

  /** The sessions of `sids`, processed in order; a session whose fallback
      scan raises ends the pass, leaving it and every later session as they
      were. */
  function PassOver(store: Store, sids: seq<string>, ctx: PassContext): (r: Store)
    ensures r.sessionIds == store.sessionIds
    ensures forall sid :: sid !in sids ==> DocsOf(r, sid) == DocsOf(store, sid)
    ensures |sids| > 0 && ScanFails(sids[0], ctx) ==> r == store
    ensures RanReached(store, sids, ctx, r)
    decreases |sids|
  {
    if |sids| == 0 || ScanFails(sids[0], ctx) then store
    else
      var next := PassOne(store, sids[0], ctx);
      var r := PassOver(next, sids[1..], ctx);
      PassOverHead(store, sids, ctx, r);
      r
  }

  /** With distinct session ids, every session of `sids` that a pass from
      `store` reaches (no raising fallback scan up to it) has, in `r`, exactly
      its `SessionPass` of the documents it had in `store`. */
  predicate RanReached(store: Store, sids: seq<string>, ctx: PassContext, r: Store)
  {
    NoDuplicates(sids) ==>
      forall k :: 0 <= k < |sids| && Reached(sids, k, ctx) ==>
        DocsOf(r, sids[k]) == SessionPass(sids[k], DocsOf(store, sids[k]), ctx)
  }

  /** The inductive step of `PassOver`: the head session gets its
      `SessionPass`, which the rest of the pass leaves alone, and every later
      reached session gets its own from the documents it started with. */
  lemma PassOverHead(store: Store, sids: seq<string>, ctx: PassContext, r: Store)
    requires |sids| > 0 && !ScanFails(sids[0], ctx)
    requires var next := PassOne(store, sids[0], ctx);
             && (forall sid :: sid !in sids[1..] ==> DocsOf(r, sid) == DocsOf(next, sid))
             && RanReached(next, sids[1..], ctx, r)
    ensures RanReached(store, sids, ctx, r)
  {
    if NoDuplicates(sids) {
      var next := PassOne(store, sids[0], ctx);
      ReachedTail(sids, ctx);
      NoDuplicatesTail(sids);
      forall k | 0 <= k < |sids| && Reached(sids, k, ctx)
        ensures DocsOf(r, sids[k]) == SessionPass(sids[k], DocsOf(store, sids[k]), ctx)
      {
        if k == 0 {
          assert DocsOf(r, sids[0]) == DocsOf(next, sids[0]);
        } else {
          assert sids[k] != sids[0];
          assert DocsOf(next, sids[k]) == DocsOf(store, sids[k]);
          assert Reached(sids[1..], k - 1, ctx) && sids[1..][k - 1] == sids[k];
        }
      }
    }
  }

  /** Once a session's fallback scan raises, no session from there on that
      was not reached earlier in the pass is touched. */
  lemma {:induction false} FailedScanEndsPass(store: Store, sids: seq<string>, ctx: PassContext, k: nat, sid: string)
    requires k < |sids| && ScanFails(sids[k], ctx)
    requires sid !in sids[..k]
    ensures DocsOf(PassOver(store, sids, ctx), sid) == DocsOf(store, sid)
    decreases k
  {
    if k > 0 && !ScanFails(sids[0], ctx) {
      var next := PassOne(store, sids[0], ctx);
      assert sids[1..][k - 1] == sids[k];
      assert sids[1..][..k - 1] == sids[1..k];
      assert sid != sids[0] by {
        assert sids[..k][0] == sids[0];
      }
      assert sid !in sids[1..k] by {
        forall j | 0 <= j < k - 1 ensures sids[1..k][j] != sid {
          assert sids[1..k][j] == sids[..k][j + 1];
        }
      }
      FailedScanEndsPass(next, sids[1..], ctx, k - 1, sid);
    }
  }

  /** The store after one session's `SessionPass`. */
  function PassOne(store: Store, sid: string, ctx: PassContext): (r: Store)
    ensures r.sessionIds == store.sessionIds
    ensures forall other :: other != sid ==> DocsOf(r, other) == DocsOf(store, other)
    ensures DocsOf(r, sid) == SessionPass(sid, DocsOf(store, sid), ctx)
    ensures Extends(DocsOf(store, sid), DocsOf(r, sid))
    ensures |DocsOf(r, sid).ml| <= |DocsOf(store, sid).ml| + ctx.batchLimit
  {
    var docs' := SessionPass(sid, DocsOf(store, sid), ctx);
    assert Extends(DocsOf(store, sid), docs') && |docs'.ml| <= |DocsOf(store, sid).ml| + ctx.batchLimit;
    Put(store, sid, docs')
  }

  /** The store with one session's documents replaced. */
  function Put(store: Store, sid: string, docs: SessionDocs): (r: Store)
    ensures r.sessionIds == store.sessionIds
    ensures DocsOf(r, sid) == docs
    ensures forall other :: other != sid ==> DocsOf(r, other) == DocsOf(store, other)
  {
    store.(sessions := store.sessions[sid := docs])
  }

  lemma {:induction false} PassOverExtends(store: Store, sids: seq<string>, ctx: PassContext, sid: string)
    ensures var r := PassOver(store, sids, ctx);
            && Extends(DocsOf(store, sid), DocsOf(r, sid))
            && (NoDuplicates(sids) ==> |DocsOf(r, sid).ml| <= |DocsOf(store, sid).ml| + ctx.batchLimit)
    decreases |sids|
  {
    if |sids| == 0 || ScanFails(sids[0], ctx) {
      ExtendsReflexive(DocsOf(store, sid));
    } else {
      var next := PassOne(store, sids[0], ctx);
      PassOverExtends(next, sids[1..], ctx, sid);
      if sid == sids[0] {
        ExtendsTransitive(DocsOf(store, sid), DocsOf(next, sid), DocsOf(PassOver(next, sids[1..], ctx), sid));
        NoDuplicatesTail(sids);
      }
    }
  }

  lemma ExtendsReflexive(d: SessionDocs)
    ensures Extends(d, d)
  {
    assert d.ml[..|d.ml|] == d.ml;
  }
}

=== FILE: residual.dfy ===
/** The learned residual model as the core sees it: an opaque artifact whose
    `predict` takes a feature matrix and either returns one value per row or raises. */
module Residual {
  import opened Wrappers

  /** A loaded artifact. `predict` returns None where the Python call raises;
      `version` is the artifact's `version` attribute (or the file's base name). */
  datatype Regressor = Regressor(predict: seq<seq<real>> -> Option<seq<real>>, version: Option<string>)

  /** `float(model.predict([row])[0])`: None when `predict` raises or, through
      the `[0]` index, when it returns an empty array. */
  function PredictFirst(m: Regressor, row: seq<real>): (r: Option<real>)
    ensures r.Some? <==> m.predict([row]).Some? && |m.predict([row]).value| > 0
    ensures r.Some? ==> r.value == m.predict([row]).value[0]
  {
    match m.predict([row])
    case None => None
    case Some(pred) => if |pred| > 0 then Some(pred[0]) else None
  }

  /** Python truthiness of an optional string: neither None nor empty. */
  predicate Truthy(v: Option<string>)
  {
    v.Some? && |v.value| > 0
  }
}

=== FILE: scoring_api.dfy ===
/** The scoring scaffold of `main.py`: a rule scorer with ideals 20 °C, 50 %RH
    and a 30 dB threshold over required readings, a residual model behind an
    optional wrapper, a residual-magnitude confidence heuristic, and the
    interval, batch, session and debug scoring endpoints reduced to their logic. */
module ScoringApi {
  import opened Wrappers
  import opened Numeric
  import opened Residual
  import LightCurve

  const TempIdeal: real := 20.0
  const HumIdeal: real := 50.0
  const NoiseThreshold: real := 30.0
  /** The lower limit `rule_score` passes to the light curve. */
  const RuleLowerLimit: real := 0.5

  const UnauthorizedStatus: int := 401
  /** Confidence when no model is loaded. */
  const NoModelConfidence: real := 0.5
  /** Confidence when the loaded model raised. */
  const FailedModelConfidence: real := 0.0

  /** `light_penalty_from_lux`: 0 (not None) for a missing reading, otherwise
      the two-breakpoint curve at the effective lux. */
  function LightPenaltyFromLux(lux: Option<real>, sensorLowerLimit: Option<real>): (r: real)
    ensures r >= 0.0
    ensures lux.None? ==> r == 0.0
    ensures lux.Some? ==> r == LightCurve.Hinge(LightCurve.EffectiveLux(lux.value, sensorLowerLimit))
  {
    if lux.None? then 0.0
    else
      var l := LightCurve.EffectiveLux(lux.value, sensorLowerLimit);
      if l <= 1.0 then 0.0
      else if l <= 10.0 then 1.0 * (l - 1.0)
      else
        var base := 1.0 * (10.0 - 1.0);
        var extra := 0.6 * (l - 10.0);
        base + extra
  }

  /** `rule_score`: a score in [0, 100]. */
  function RuleScore(temp: real, hum: real, noiseDb: real, light: real): (r: real)
    ensures 0.0 <= r <= 100.0
  {
    var tempPen := 3.5 * Abs(temp - TempIdeal);
    var humPen := 0.4 * Abs(hum - HumIdeal);
    var noisePen := 2.0 * Max(0.0, noiseDb - NoiseThreshold);
    var lightPen := 1.5 * LightPenaltyFromLux(Some(light), Some(RuleLowerLimit));
    Clip(100.0 - (tempPen + humPen + noisePen + lightPen), 0.0, 100.0)
  }

  /** The four penalties as `score_session` reports them in its breakdown. */
  datatype Breakdown = Breakdown(tempPenalty: real, humPenalty: real, noisePenalty: real, lightPenalty: real)
  {
    function Total(): real
    {
      tempPenalty + humPenalty + noisePenalty + lightPenalty
    }
  }

  /** The breakdown of `score_session`, written out separately from `rule_score`. */
  function Penalties(temp: real, hum: real, noiseDb: real, light: real): (b: Breakdown)
    ensures b.tempPenalty >= 0.0 && b.humPenalty >= 0.0 && b.noisePenalty >= 0.0 && b.lightPenalty >= 0.0
  {
    Breakdown(3.5 * Abs(temp - TempIdeal),
              0.4 * Abs(hum - HumIdeal),
              2.0 * Max(0.0, noiseDb - NoiseThreshold),
              1.5 * LightPenaltyFromLux(Some(light), Some(RuleLowerLimit)))
  }

  /** The rule score is exactly 100 less the breakdown's penalties, clipped. */
  lemma RuleScoreIsClippedBreakdown(temp: real, hum: real, noiseDb: real, light: real)
    ensures RuleScore(temp, hum, noiseDb, light) == Clip(100.0 - Penalties(temp, hum, noiseDb, light).Total(), 0.0, 100.0)
  {
  }

  /** `estimate_confidence`: 0.5 without a residual, otherwise a value in [0, 1]
      that is 1 for a zero residual, falls linearly with the residual's magnitude,
      and reaches 0 at magnitude 10. The rule value is not consulted. */
  function EstimateConfidence(ruleVal: real, residual: Option<real>): (r: real)
    ensures 0.0 <= r <= 1.0
    ensures residual.None? ==> r == 0.5
    ensures residual.Some? && Abs(residual.value) >= 10.0 ==> r == 0.0
    ensures residual.Some? && Abs(residual.value) < 10.0 ==> r == 1.0 - Abs(residual.value) / 10.0
  {
    if residual.None? then 0.5
    else
      var score := 1.0 - Min(1.0, Abs(residual.value) / 10.0);
      Clip(score, 0.0, 1.0)
  }

  /** A larger residual never earns more confidence. */
  lemma ConfidenceFallsWithResidual(ruleVal: real, a: real, b: real)
    requires Abs(a) <= Abs(b)
    ensures EstimateConfidence(ruleVal, Some(b)) <= EstimateConfidence(ruleVal, Some(a))
    ensures EstimateConfidence(ruleVal, Some(0.0)) == 1.0
  {
  }

  /** One interval as the API receives it (device and sample-count fields are not scored). */
  datatype IntervalRecord = IntervalRecord(timestamp: string, temperature: real, humidity: real,
                                           light: real, soundLevel: real)

  /** `compute_features_from_interval`: the row [temperature, humidity, light, sound]. */
  function Features(r: IntervalRecord): seq<real>
  {
    [r.temperature, r.humidity, r.light, r.soundLevel]
  }

  datatype IntervalScoreResponse = IntervalScoreResponse(intervalScore: real, ruleScore: real, residual: Option<real>,
                                                         modelVersion: Option<string>, confidence: real,
                                                         timestamp: string)

  /** `score_interval`: 401 without an API key; otherwise the rule score plus
      the model's residual (if any), clipped, with the confidence of the path taken. */
  function ScoreInterval(record: IntervalRecord, apiKey: Option<string>, model: Option<Regressor>)
    : (r: Result<IntervalScoreResponse, HttpError>)
    ensures r.Err? <==> apiKey.None?
    ensures r.Err? ==> r.error.status == UnauthorizedStatus
    ensures r.Ok? ==> 0.0 <= r.value.intervalScore <= 100.0
    ensures r.Ok? ==> r.value.timestamp == record.timestamp
    ensures r.Ok? ==> r.value.ruleScore == RuleScore(record.temperature, record.humidity, record.soundLevel, record.light)
    ensures r.Ok? ==> r.value.intervalScore == Clip(r.value.ruleScore + r.value.residual.GetOr(0.0), 0.0, 100.0)
    ensures r.Ok? && model.None? ==>
              r.value.residual.None? && r.value.modelVersion.None? && r.value.confidence == NoModelConfidence
              && r.value.intervalScore == r.value.ruleScore
    ensures r.Ok? && model.Some? && PredictFirst(model.value, Features(record)).None? ==>
              r.value.residual.None? && r.value.modelVersion.None? && r.value.confidence == FailedModelConfidence
              && r.value.intervalScore == r.value.ruleScore
    ensures r.Ok? && model.Some? && PredictFirst(model.value, Features(record)).Some? ==>
              r.value.residual == PredictFirst(model.value, Features(record))
              && r.value.modelVersion == model.value.version
              && r.value.confidence == EstimateConfidence(r.value.ruleScore, r.value.residual)
  {
    if apiKey.None? then Err(HttpError(UnauthorizedStatus))
    else
      var rule := RuleScore(record.temperature, record.humidity, record.soundLevel, record.light);
      var outcome: (Option<real>, Option<string>, real) :=
        if model.None? then (None, None, NoModelConfidence)
        else match PredictFirst(model.value, Features(record))
          case Some(p) => (Some(p), model.value.version, EstimateConfidence(rule, Some(p)))
          case None => (None, None, FailedModelConfidence);
      var residual := outcome.0;
      Ok(IntervalScoreResponse(Clip(rule + residual.GetOr(0.0), 0.0, 100.0), rule, residual,
                               outcome.1, outcome.2, record.timestamp))
  }

  datatype BatchItem = BatchItem(timestamp: string, intervalScore: real, modelVersion: Option<string>, confidence: real)

  datatype BatchResponse = BatchResponse(results: seq<BatchItem>, processed: int)

  function ItemOf(resp: IntervalScoreResponse): BatchItem
  {
    BatchItem(resp.timestamp, resp.intervalScore, resp.modelVersion, resp.confidence)
  }

  /** The items a batch keeps: one per record that scored, in order; failing
      records are skipped. */
  function Scored(records: seq<IntervalRecord>, apiKey: Option<string>, model: Option<Regressor>): seq<BatchItem>
  {
    if |records| == 0 then []
    else
      var init := Scored(records[..|records| - 1], apiKey, model);
      match ScoreInterval(records[|records| - 1], apiKey, model)
      case Ok(resp) => init + [ItemOf(resp)]
      case Err(_) => init
  }

  /** With a key present no record fails, so every record yields its own item. */
  lemma {:induction false} ScoredKeepsEveryRecord(records: seq<IntervalRecord>, apiKey: Option<string>, model: Option<Regressor>)
    requires apiKey.Some?
    ensures |Scored(records, apiKey, model)| == |records|
    ensures forall i :: 0 <= i < |records| ==>
              Scored(records, apiKey, model)[i] == ItemOf(ScoreInterval(records[i], apiKey, model).value)
  {
    if |records| > 0 {
      var init := records[..|records| - 1];
      ScoredKeepsEveryRecord(init, apiKey, model);
      assert forall i :: 0 <= i < |init| ==> init[i] == records[i];
    }
  }

  /** `score_interval_batch`: 401 without an API key; otherwise every record is
      scored in order, failures are skipped, and `processed` counts the results. */
  method ScoreIntervalBatch(records: seq<IntervalRecord>, apiKey: Option<string>, model: Option<Regressor>)
    returns (r: Result<BatchResponse, HttpError>)
    ensures r.Err? <==> apiKey.None?
    ensures r.Err? ==> r.error.status == UnauthorizedStatus
    ensures r.Ok? ==> r.value.processed == |r.value.results| == |records|
    ensures r.Ok? ==> forall i :: 0 <= i < |records| ==>
              r.value.results[i] == ItemOf(ScoreInterval(records[i], apiKey, model).value)
  {
    if apiKey.None? {
      return Err(HttpError(UnauthorizedStatus));
    }
    var results: seq<BatchItem> := [];
    var i := 0;
    while i < |records|
      invariant 0 <= i <= |records|
      invariant results == Scored(records[..i], apiKey, model)
    {
      assert records[..i + 1][..i] == records[..i];
      match ScoreInterval(records[i], apiKey, model) {
        case Ok(resp) =>
          results := results + [ItemOf(resp)];
        case Err(_) =>
      }
      i := i + 1;
    }
    assert records[..i] == records;
    ScoredKeepsEveryRecord(records, apiKey, model);
    return Ok(BatchResponse(results, |results|));
  }

  /** The session aggregates `score_session` scores. */
  datatype SessionRequest = SessionRequest(sessionId: string, avgTemperature: real, avgHumidity: real,
                                           avgLight: real, avgSoundLevel: real)

  datatype SessionResponse = SessionResponse(sessionScore: real, ruleSessionScore: real, residualSession: Option<real>,
                                             modelVersion: Option<string>, breakdown: Breakdown)

  function SessionFeatures(req: SessionRequest): seq<real>
  {
    [req.avgTemperature, req.avgHumidity, req.avgLight, req.avgSoundLevel]
  }

  /** `score_session`: the rule applied to the session averages, plus the
      model's session residual, clipped; the breakdown lists exactly the
      penalties the rule subtracted. */
  function ScoreSession(req: SessionRequest, apiKey: Option<string>, model: Option<Regressor>)
    : (r: Result<SessionResponse, HttpError>)
    ensures r.Err? <==> apiKey.None?
    ensures r.Err? ==> r.error.status == UnauthorizedStatus
    ensures r.Ok? ==> 0.0 <= r.value.sessionScore <= 100.0
    ensures r.Ok? ==> r.value.ruleSessionScore == Clip(100.0 - r.value.breakdown.Total(), 0.0, 100.0)
    ensures r.Ok? ==> r.value.sessionScore == Clip(r.value.ruleSessionScore + r.value.residualSession.GetOr(0.0), 0.0, 100.0)
    ensures r.Ok? ==> r.value.breakdown == Penalties(req.avgTemperature, req.avgHumidity, req.avgSoundLevel, req.avgLight)
    ensures r.Ok? ==> r.value.ruleSessionScore == RuleScore(req.avgTemperature, req.avgHumidity, req.avgSoundLevel,
                                                            req.avgLight)
    ensures r.Ok? ==> r.value.breakdown.tempPenalty >= 0.0 && r.value.breakdown.humPenalty >= 0.0
                      && r.value.breakdown.noisePenalty >= 0.0 && r.value.breakdown.lightPenalty >= 0.0
    ensures r.Ok? && (model.None? || PredictFirst(model.value, SessionFeatures(req)).None?) ==>
              r.value.residualSession.None? && r.value.modelVersion.None?
              && r.value.sessionScore == r.value.ruleSessionScore
    ensures r.Ok? && model.Some? && PredictFirst(model.value, SessionFeatures(req)).Some? ==>
              r.value.residualSession == PredictFirst(model.value, SessionFeatures(req))
              && r.value.modelVersion == model.value.version
  {
    if apiKey.None? then Err(HttpError(UnauthorizedStatus))
    else
      var rule := RuleScore(req.avgTemperature, req.avgHumidity, req.avgSoundLevel, req.avgLight);
      var residual := if model.None? then None else PredictFirst(model.value, SessionFeatures(req));
      var version := if residual.Some? then model.value.version else None;
      RuleScoreIsClippedBreakdown(req.avgTemperature, req.avgHumidity, req.avgSoundLevel, req.avgLight);
      Ok(SessionResponse(Clip(rule + residual.GetOr(0.0), 0.0, 100.0), rule, residual, version,
                         Penalties(req.avgTemperature, req.avgHumidity, req.avgSoundLevel, req.avgLight)))
  }

  /** Per-factor contributions of `debug_score`: 100 less each penalty. */
  datatype Contributions = Contributions(tempComponent: real, humComponent: real, noiseComponent: real, lightComponent: real)

  datatype DebugResponse = DebugResponse(ruleScore: real, residual: Option<real>, contributions: Contributions)

  /** `debug_score`: 401 unless the admin key matches the configured one;
      otherwise each contribution is 100 less the matching breakdown penalty, so
      the rule score is the clipped sum of the contributions less 300. */
  function DebugScore(record: IntervalRecord, adminKey: Option<string>, configuredAdminKey: string,
                      model: Option<Regressor>): (r: Result<DebugResponse, HttpError>)
    ensures r.Err? <==> adminKey != Some(configuredAdminKey)
    ensures r.Err? ==> r.error.status == UnauthorizedStatus
    ensures r.Ok? ==>
              var b := Penalties(record.temperature, record.humidity, record.soundLevel, record.light);
              var c := r.value.contributions;
              && c.tempComponent == 100.0 - b.tempPenalty
              && c.humComponent == 100.0 - b.humPenalty
              && c.noiseComponent == 100.0 - b.noisePenalty
              && c.lightComponent == 100.0 - b.lightPenalty
              && r.value.ruleScore == Clip(c.tempComponent + c.humComponent + c.noiseComponent + c.lightComponent - 300.0, 0.0, 100.0)
    ensures r.Ok? ==> r.value.residual == (if model.None? then None else PredictFirst(model.value, Features(record)))
  {
    if adminKey != Some(configuredAdminKey) then Err(HttpError(UnauthorizedStatus))
    else
      var rule := RuleScore(record.temperature, record.humidity, record.soundLevel, record.light);
      var residual := if model.None? then None else PredictFirst(model.value, Features(record));
      RuleScoreIsClippedBreakdown(record.temperature, record.humidity, record.soundLevel, record.light);
      Ok(DebugResponse(rule, residual, Contributions(
        100.0 - 3.5 * Abs(record.temperature - TempIdeal),
        100.0 - 0.4 * Abs(record.humidity - HumIdeal),
        100.0 - 2.0 * Max(0.0, record.soundLevel - NoiseThreshold),
        100.0 - 1.5 * LightPenaltyFromLux(Some(record.light), Some(RuleLowerLimit)))))
  }
}

=== FILE: services.dfy ===
/** The batch scorer of `app/services.py`: for every session that is still
    recording, score up to fifty unprocessed readings with one batch
    prediction, and commit the score documents together with the readings'
    processed flags in a single all-or-nothing write batch. */
module Services {
  import opened Wrappers

  /** The `.limit(50)` on the readings query. */
  const BatchLimit: nat := 50

  /** The session status the sessions query selects. */
  const RecordingStatus: string := "recording"

  /** A sensor_readings document; a field the document lacks is `None`. */
  datatype Reading = Reading(sessionId: Option<string>, isProcessed: Option<bool>,
                             temperature: Option<real>, humidity: Option<real>,
                             light: Option<real>, soundLevel: Option<real>)

  /** A sleep_sessions document. */
  datatype SleepSession = SleepSession(status: Option<string>)

  /** An ml_scores document; its auto-generated id and its `created_at` clock
      reading are not modelled. */
  datatype ScoreDoc = ScoreDoc(sessionId: string, readingId: string, score: real)

  /** The three collections the scorer touches, in stream order. */
  datatype Store = Store(sessions: seq<Entry<SleepSession>>, readings: seq<Entry<Reading>>,
                         scores: seq<ScoreDoc>)

  /** The readings query filter: this session, and `is_processed` equal to
      False. A reading without the field does not match. */
  predicate Pending(r: Reading, sid: string)
  {
    r.sessionId == Some(sid) && r.isProcessed == Some(false)
  }

  /** The positions of all readings matching the filter, in stream order. */
  function PendingIdx(readings: seq<Entry<Reading>>, sid: string): (r: seq<nat>)
    ensures forall k :: 0 <= k < |r| ==> r[k] < |readings| && Pending(readings[r[k]].doc, sid)
    ensures forall k, m :: 0 <= k < m < |r| ==> r[k] < r[m]
    ensures forall i :: 0 <= i < |readings| && Pending(readings[i].doc, sid) ==> i in r
    ensures |r| == 0 <==> forall i :: 0 <= i < |readings| ==> !Pending(readings[i].doc, sid)
  {
    if |readings| == 0 then []
    else
      var init := PendingIdx(readings[..|readings| - 1], sid);
      if Pending(readings[|readings| - 1].doc, sid) then init + [|readings| - 1] else init
  }

  /** The positions of the batch one pass takes: the first fifty matching readings. */
  function BatchIdx(readings: seq<Entry<Reading>>, sid: string): (r: seq<nat>)
    ensures |r| <= BatchLimit
    ensures forall k :: 0 <= k < |r| ==> r[k] < |readings| && Pending(readings[r[k]].doc, sid)
    ensures forall k, m :: 0 <= k < m < |r| ==> r[k] < r[m]
    ensures |PendingIdx(readings, sid)| <= BatchLimit ==> r == PendingIdx(readings, sid)
  {
    Take(PendingIdx(readings, sid), BatchLimit)
  }

  /** The batch one pass takes, as the query streams it. */
  function SelectBatch(readings: seq<Entry<Reading>>, sid: string): (r: seq<Entry<Reading>>)
    ensures |r| == |BatchIdx(readings, sid)| <= BatchLimit
    ensures forall k :: 0 <= k < |r| ==> r[k] == readings[BatchIdx(readings, sid)[k]]
    ensures forall k :: 0 <= k < |r| ==> Pending(r[k].doc, sid)
  {
    var idx := BatchIdx(readings, sid);
    seq(|idx|, k requires 0 <= k < |idx| => readings[idx[k]])
  }

  /** A reading in the batch has its id among the batch's ids. */
  lemma SelectedInBatch(readings: seq<Entry<Reading>>, sid: string, i: nat)
    requires i < |readings| && i in BatchIdx(readings, sid)
    ensures readings[i].id in Ids(SelectBatch(readings, sid))
  {
    var idx := BatchIdx(readings, sid);
    var k :| 0 <= k < |idx| && idx[k] == i;
    assert Ids(SelectBatch(readings, sid))[k] == readings[i].id;
  }

  /** With distinct document ids, a reading's id is among the batch's ids
      exactly when the reading is in the batch. */
  lemma InBatchIffSelected(readings: seq<Entry<Reading>>, sid: string, i: nat)
    requires DistinctIds(readings) && i < |readings|
    ensures readings[i].id in Ids(SelectBatch(readings, sid)) <==> i in BatchIdx(readings, sid)
  {
    var idx := BatchIdx(readings, sid);
    var ids := Ids(SelectBatch(readings, sid));
    if readings[i].id in ids {
      var k :| 0 <= k < |ids| && ids[k] == readings[i].id;
      var j := idx[k];
      assert SelectBatch(readings, sid)[k] == readings[j];
      assert readings[j].id == readings[i].id;
      assert j == i;
    }
    if i in idx {
      SelectedInBatch(readings, sid, i);
    }
  }

  /** The batch of a collection with distinct ids has distinct ids. */
  lemma BatchIdsDistinct(readings: seq<Entry<Reading>>, sid: string)
    requires DistinctIds(readings)
    ensures NoDuplicates(Ids(SelectBatch(readings, sid)))
  {
    var idx := BatchIdx(readings, sid);
    var ids := Ids(SelectBatch(readings, sid));
    forall k, m | 0 <= k < m < |ids| ensures ids[k] != ids[m] {
      assert ids[k] == readings[idx[k]].id && ids[m] == readings[idx[m]].id;
    }
  }

  /** The feature rows of a batch: [temperature, humidity, light, sound_level]
      per reading, in reading order, a missing field read as 0. */
  function FeatureRows(batch: seq<Entry<Reading>>): (rows: seq<seq<real>>)
    ensures |rows| == |batch|
    ensures forall k :: 0 <= k < |batch| ==> |rows[k]| == 4
    ensures forall k :: 0 <= k < |batch| ==>
              && rows[k][0] == batch[k].doc.temperature.GetOr(0.0)
              && rows[k][1] == batch[k].doc.humidity.GetOr(0.0)
              && rows[k][2] == batch[k].doc.light.GetOr(0.0)
              && rows[k][3] == batch[k].doc.soundLevel.GetOr(0.0)
  {
    seq(|batch|, k requires 0 <= k < |batch| =>
      var d := batch[k].doc;
      [d.temperature.GetOr(0.0), d.humidity.GetOr(0.0), d.light.GetOr(0.0), d.soundLevel.GetOr(0.0)])
  }

  /** The score documents of a committed batch: one per reading, paired by index. */
  function NewScores(sid: string, batch: seq<Entry<Reading>>, scores: seq<real>): (r: seq<ScoreDoc>)
    requires |scores| >= |batch|
    ensures |r| == |batch|
    ensures forall k :: 0 <= k < |batch| ==> r[k] == ScoreDoc(sid, batch[k].id, scores[k])
  {
    seq(|batch|, k requires 0 <= k < |batch| => ScoreDoc(sid, batch[k].id, scores[k]))
  }

  /** The readings after the batch's updates: those whose id is in `ids`
      get `is_processed` set to True, all others stay as they were. */
  function MarkProcessed(readings: seq<Entry<Reading>>, ids: seq<string>): (r: seq<Entry<Reading>>)
    ensures |r| == |readings|
    ensures forall i {:trigger r[i]} :: 0 <= i < |readings| ==> r[i].id == readings[i].id
    ensures forall i {:trigger r[i]} :: 0 <= i < |readings| ==>
              r[i].doc == if readings[i].id in ids then readings[i].doc.(isProcessed := Some(true))
                          else readings[i].doc
  {
    seq(|readings|, i requires 0 <= i < |readings| =>
      if readings[i].id in ids then Entry(readings[i].id, readings[i].doc.(isProcessed := Some(true)))
      else readings[i])
  }

  /** How a session's pass ended. */
  datatype SessionStatus = NothingToScore | BatchFailed | Committed(count: nat)

  datatype SessionPassResult = SessionPassResult(store: Store, status: SessionStatus)

  /** Whether the batch goes through: the prediction succeeds, yields a score
      for every reading (`scores[i]` raises otherwise) and the commit succeeds. */
  predicate BatchSucceeds(batch: seq<Entry<Reading>>, predictBatch: seq<seq<real>> -> Option<seq<real>>,
                          commitOk: bool)
  {
    var scores := predictBatch(FeatureRows(batch));
    scores.Some? && |scores.value| >= |batch| && commitOk
  }

  /** `process_single_session`: nothing when no reading matches; otherwise
      one batch prediction, then one write batch of score documents and flag
      updates. Any exception, whether from the prediction, a missing score or
      the commit, is caught and leaves every collection untouched. */
  function ProcessSingleSession(store: Store, sid: string, predictBatch: seq<seq<real>> -> Option<seq<real>>,
                                commitOk: bool): (r: SessionPassResult)
    ensures r.store.sessions == store.sessions
    ensures r.status.NothingToScore? <==> |SelectBatch(store.readings, sid)| == 0
    ensures r.status.Committed? <==>
              0 < |SelectBatch(store.readings, sid)| && BatchSucceeds(SelectBatch(store.readings, sid), predictBatch, commitOk)
    ensures !r.status.Committed? ==> r.store == store
    ensures r.status.Committed? ==>
              var batch := SelectBatch(store.readings, sid);
              var scores := predictBatch(FeatureRows(batch));
              && scores.Some? && |scores.value| >= |batch|
              && r.status.count == |batch| <= BatchLimit
              && |r.store.scores| == |store.scores| + |batch|
              && r.store.scores[..|store.scores|] == store.scores
              && (forall k :: 0 <= k < |batch| ==>
                    r.store.scores[|store.scores| + k] == ScoreDoc(sid, batch[k].id, scores.value[k]))
              && r.store.scores == store.scores + NewScores(sid, batch, scores.value)
              && r.store.readings == MarkProcessed(store.readings, Ids(batch))
  {
    var batch := SelectBatch(store.readings, sid);
    if |batch| == 0 then SessionPassResult(store, NothingToScore)
    else if !BatchSucceeds(batch, predictBatch, commitOk) then SessionPassResult(store, BatchFailed)
    else
      var scores := predictBatch(FeatureRows(batch)).value;
      var written := store.scores + NewScores(sid, batch, scores);
      assert written[..|store.scores|] == store.scores;
      SessionPassResult(Store(store.sessions, MarkProcessed(store.readings, Ids(batch)), written),
                        Committed(|batch|))
  }

  /** The reading ids the score documents point at. */
  function ReadingIds(scores: seq<ScoreDoc>): (r: seq<string>)
    ensures |r| == |scores|
    ensures forall k :: 0 <= k < |scores| ==> r[k] == scores[k].readingId
  {
    seq(|scores|, k requires 0 <= k < |scores| => scores[k].readingId)
  }

  /** The number of score documents for a reading. */
  function CountFor(scores: seq<ScoreDoc>, readingId: string): nat
  {
    multiset(ReadingIds(scores))[readingId]
  }

  lemma CountAppend(a: seq<ScoreDoc>, b: seq<ScoreDoc>, readingId: string)
    ensures CountFor(a + b, readingId) == CountFor(a, readingId) + CountFor(b, readingId)
  {
    assert ReadingIds(a + b) == ReadingIds(a) + ReadingIds(b);
  }

  /** Score documents with distinct reading ids hold one document per reading id they mention. */
  lemma {:induction false} CountDistinct(scores: seq<ScoreDoc>, readingId: string)
    requires NoDuplicates(ReadingIds(scores))
    ensures CountFor(scores, readingId) == if readingId in ReadingIds(scores) then 1 else 0
  {
    if |scores| > 0 {
      var init := scores[..|scores| - 1];
      var last := scores[|scores| - 1];
      assert ReadingIds(scores) == ReadingIds(init) + [last.readingId];
      assert ReadingIds(init) == ReadingIds(scores)[..|scores| - 1];
      NoDuplicatesPrefix(ReadingIds(scores), |scores| - 1);
      CountDistinct(init, readingId);
      assert last.readingId !in ReadingIds(init);
    } else {
      assert ReadingIds(scores) == [];
    }
  }

  /** The scorer's invariant: every processed reading has exactly one score
      document, every other reading none, and every score document points at a
      reading. */
  predicate Paired(store: Store)
  {
    && DistinctIds(store.readings)
    && (forall i :: 0 <= i < |store.readings| ==>
          CountFor(store.scores, store.readings[i].id)
          == if store.readings[i].doc.isProcessed == Some(true) then 1 else 0)
    && (forall k :: 0 <= k < |store.scores| ==> store.scores[k].readingId in Ids(store.readings))
  }

  /** Adding one score document per listed reading, all of them unprocessed
      and listed once, and marking exactly those readings keeps the pairing. */
  lemma CommitKeepsPaired(store: Store, idx: seq<nat>, news: seq<ScoreDoc>)
    requires Paired(store)
    requires forall k :: 0 <= k < |idx| ==>
               idx[k] < |store.readings| && store.readings[idx[k]].doc.isProcessed == Some(false)
    requires forall k, m :: 0 <= k < m < |idx| ==> idx[k] < idx[m]
    requires |news| == |idx|
    requires forall k :: 0 <= k < |idx| ==> news[k].readingId == store.readings[idx[k]].id
    ensures Paired(Store(store.sessions, MarkProcessed(store.readings, ReadingIds(news)), store.scores + news))
  {
    var readings' := MarkProcessed(store.readings, ReadingIds(news));
    var scores' := store.scores + news;
    assert NoDuplicates(ReadingIds(news)) by {
      forall k, m | 0 <= k < m < |news| ensures ReadingIds(news)[k] != ReadingIds(news)[m] {
        assert store.readings[idx[k]].id != store.readings[idx[m]].id;
      }
    }
    forall i | 0 <= i < |store.readings|
      ensures CountFor(scores', readings'[i].id) == if readings'[i].doc.isProcessed == Some(true) then 1 else 0
    {
      CountAfterCommit(store, idx, news, i);
    }
    CommitKeepsReferences(store.readings, store.scores, idx, news);
    MarkKeepsIds(store.readings, ReadingIds(news));
    DistinctIdsFromIds(store.readings, readings');
  }

  lemma CommitKeepsReferences(readings: seq<Entry<Reading>>, scores: seq<ScoreDoc>, idx: seq<nat>, news: seq<ScoreDoc>)
    requires forall k :: 0 <= k < |scores| ==> scores[k].readingId in Ids(readings)
    requires forall k :: 0 <= k < |idx| ==> idx[k] < |readings|
    requires |news| == |idx|
    requires forall k :: 0 <= k < |idx| ==> news[k].readingId == readings[idx[k]].id
    ensures forall k :: 0 <= k < |scores + news| ==> (scores + news)[k].readingId in Ids(readings)
  {
    forall k | 0 <= k < |scores + news| ensures (scores + news)[k].readingId in Ids(readings) {
      AppendAt(scores, news, k);
      if k >= |scores| {
        assert Ids(readings)[idx[k - |scores|]] == news[k - |scores|].readingId;
      }
    }
  }

  /** Marking readings changes no id. */
  lemma MarkKeepsIds(readings: seq<Entry<Reading>>, ids: seq<string>)
    ensures Ids(MarkProcessed(readings, ids)) == Ids(readings)
  {
    assert Ids(MarkProcessed(readings, ids)) == Ids(readings);
  }

  lemma CountAfterCommit(store: Store, idx: seq<nat>, news: seq<ScoreDoc>, i: nat)
    requires Paired(store) && i < |store.readings|
    requires forall k :: 0 <= k < |idx| ==>
               idx[k] < |store.readings| && store.readings[idx[k]].doc.isProcessed == Some(false)
    requires |news| == |idx|
    requires forall k :: 0 <= k < |idx| ==> news[k].readingId == store.readings[idx[k]].id
    requires NoDuplicates(ReadingIds(news))
    ensures var readings' := MarkProcessed(store.readings, ReadingIds(news));
            CountFor(store.scores + news, readings'[i].id)
            == if readings'[i].doc.isProcessed == Some(true) then 1 else 0
  {
    var id := store.readings[i].id;
    CountAppend(store.scores, news, id);
    CountDistinct(news, id);
    if id in ReadingIds(news) {
      var k :| 0 <= k < |news| && ReadingIds(news)[k] == id;
      assert store.readings[idx[k]].id == store.readings[i].id;
      assert idx[k] == i;
    }
  }

  /** Committing a session's batch, one score per selected reading, keeps the
      pairing. */
  lemma BatchCommitKeepsPaired(store: Store, sid: string, scores: seq<real>)
    requires Paired(store)
    requires |scores| >= |SelectBatch(store.readings, sid)|
    ensures var batch := SelectBatch(store.readings, sid);
            Paired(Store(store.sessions, MarkProcessed(store.readings, Ids(batch)),
                         store.scores + NewScores(sid, batch, scores)))
  {
    BatchScoresPointAtBatch(store.readings, sid, scores);
    CommitKeepsPaired(store, BatchIdx(store.readings, sid), NewScores(sid, SelectBatch(store.readings, sid), scores));
  }

  /** The score documents of a batch point, in order, at the batch's readings. */
  lemma BatchScoresPointAtBatch(readings: seq<Entry<Reading>>, sid: string, scores: seq<real>)
    requires |scores| >= |SelectBatch(readings, sid)|
    ensures var idx := BatchIdx(readings, sid);
            var batch := SelectBatch(readings, sid);
            var news := NewScores(sid, batch, scores);
            && |news| == |idx|
            && (forall k :: 0 <= k < |idx| ==> idx[k] < |readings| && readings[idx[k]].doc.isProcessed == Some(false))
            && (forall k :: 0 <= k < |idx| ==> news[k].readingId == readings[idx[k]].id)
            && ReadingIds(news) == Ids(batch)
  {
    var batch := SelectBatch(readings, sid);
    assert ReadingIds(NewScores(sid, batch, scores)) == Ids(batch);
  }

  /** A session pass keeps the pairing between score documents and processed
      readings: the readings it scores are exactly the ones it marks. */
  lemma ProcessSingleSessionKeepsPaired(store: Store, sid: string,
                                        predictBatch: seq<seq<real>> -> Option<seq<real>>, commitOk: bool)
    ensures Paired(store) ==> Paired(ProcessSingleSession(store, sid, predictBatch, commitOk).store)
  {
    var r := ProcessSingleSession(store, sid, predictBatch, commitOk);
    if r.status.Committed? && Paired(store) {
      var batch := SelectBatch(store.readings, sid);
      var scores := predictBatch(FeatureRows(batch)).value;
      BatchCommitKeepsPaired(store, sid, scores);
      assert r.store == Store(store.sessions, MarkProcessed(store.readings, Ids(batch)),
                              store.scores + NewScores(sid, batch, scores));
    }
  }

  /** After a committed pass that took every matching reading, a second pass
      over the same session finds nothing to score and writes nothing. */
  lemma RerunWritesNothing(store: Store, sid: string, predictBatch: seq<seq<real>> -> Option<seq<real>>,
                           commitOk: bool, predictBatch2: seq<seq<real>> -> Option<seq<real>>, commitOk2: bool)
    requires |PendingIdx(store.readings, sid)| <= BatchLimit
    requires ProcessSingleSession(store, sid, predictBatch, commitOk).status.Committed?
    ensures var once := ProcessSingleSession(store, sid, predictBatch, commitOk).store;
            var twice := ProcessSingleSession(once, sid, predictBatch2, commitOk2);
            twice.status == NothingToScore && twice.store == once
  {
    var once := ProcessSingleSession(store, sid, predictBatch, commitOk).store;
    assert forall i :: 0 <= i < |once.readings| ==> !Pending(once.readings[i].doc, sid) by {
      forall i | 0 <= i < |once.readings| ensures !Pending(once.readings[i].doc, sid) {
        if Pending(store.readings[i].doc, sid) {
          SelectedInBatch(store.readings, sid, i);
        }
      }
    }
  }

  /** `b` is `a` except that some readings of the given sessions went from
      `is_processed` False to True. */
  predicate OnlyMarks(a: seq<Entry<Reading>>, b: seq<Entry<Reading>>, sids: seq<string>)
  {
    && |a| == |b|
    && forall i :: 0 <= i < |a| ==>
         && b[i].id == a[i].id
         && (b[i].doc == a[i].doc
             || (&& a[i].doc.sessionId.Some? && a[i].doc.sessionId.value in sids
                 && a[i].doc.isProcessed == Some(false)
                 && b[i].doc == a[i].doc.(isProcessed := Some(true))))
  }

  /** Some session with this id has status "recording". */
  predicate RecordingAt(sessions: seq<Entry<SleepSession>>, id: string)
  {
    exists i :: 0 <= i < |sessions| && sessions[i].id == id && sessions[i].doc.status == Some(RecordingStatus)
  }

  lemma RecordingAtTail(sessions: seq<Entry<SleepSession>>, id: string)
    requires |sessions| > 0 && RecordingAt(sessions[1..], id)
    ensures RecordingAt(sessions, id)
  {
    var i :| 0 <= i < |sessions[1..]| && sessions[1..][i].id == id && sessions[1..][i].doc.status == Some(RecordingStatus);
    assert sessions[i + 1] == sessions[1..][i];
  }

  /** The ids of the sessions whose status is "recording", in stream order. */
  function RecordingIds(sessions: seq<Entry<SleepSession>>): (r: seq<string>)
    ensures forall k :: 0 <= k < |r| ==> RecordingAt(sessions, r[k])
    ensures forall i :: 0 <= i < |sessions| && sessions[i].doc.status == Some(RecordingStatus) ==> sessions[i].id in r
  {
    if |sessions| == 0 then []
    else
      var rest := RecordingIds(sessions[1..]);
      assert forall i :: 1 <= i < |sessions| ==> sessions[i] == sessions[1..][i - 1];
      assert forall k :: 0 <= k < |rest| ==> RecordingAt(sessions, rest[k]) by {
        forall k | 0 <= k < |rest| {
          RecordingAtTail(sessions, rest[k]);
        }
      }
      if sessions[0].doc.status == Some(RecordingStatus) then
        var r := [sessions[0].id] + rest;
        assert forall k :: 1 <= k < |r| ==> r[k] == rest[k - 1];
        r
      else rest
  }

  /** `after` keeps what `before` achieved: the same number of readings, no
      processed flag cleared, and the score documents extended at the end. */
  predicate Persists(before: Store, after: Store)
  {
    && |after.readings| == |before.readings|
    && (forall i :: 0 <= i < |before.readings| && before.readings[i].doc.isProcessed == Some(true) ==>
          after.readings[i].doc.isProcessed == Some(true))
    && |before.scores| <= |after.scores|
    && after.scores[..|before.scores|] == before.scores
  }

  lemma PersistsTransitive(a: Store, b: Store, c: Store)
    requires Persists(a, b) && Persists(b, c)
    ensures Persists(a, c)
  {
    assert c.scores[..|a.scores|] == c.scores[..|b.scores|][..|a.scores|];
  }

  /** If the batch `sid` takes from `before` goes through, every reading in it
      is flagged processed in `after` and has a score document there. */
  predicate BatchScored(before: Store, after: Store, sid: string,
                        predictBatch: seq<seq<real>> -> Option<seq<real>>, commitOk: bool)
  {
    BatchSucceeds(SelectBatch(before.readings, sid), predictBatch, commitOk) ==>
      forall i :: 0 <= i < |before.readings| && i in BatchIdx(before.readings, sid) ==>
        && i < |after.readings|
        && after.readings[i].doc.isProcessed == Some(true)
        && before.readings[i].id in ReadingIds(after.scores)
  }

  /** What a session pass achieved survives later passes. */
  lemma BatchScoredPersists(before: Store, mid: Store, after: Store, sid: string,
                            predictBatch: seq<seq<real>> -> Option<seq<real>>, commitOk: bool)
    requires BatchScored(before, mid, sid, predictBatch, commitOk) && Persists(mid, after)
    ensures BatchScored(before, after, sid, predictBatch, commitOk)
  {
    if BatchSucceeds(SelectBatch(before.readings, sid), predictBatch, commitOk) {
      forall i | 0 <= i < |before.readings| && i in BatchIdx(before.readings, sid)
        ensures before.readings[i].id in ReadingIds(after.scores)
      {
        var k :| 0 <= k < |mid.scores| && ReadingIds(mid.scores)[k] == before.readings[i].id;
        assert after.scores[k] == after.scores[..|mid.scores|][k] == mid.scores[k];
        assert ReadingIds(after.scores)[k] == before.readings[i].id;
      }
    }
  }

  /** Session passes over `sids`, in order; whether each commit succeeds is a
      parameter. With distinct reading ids, every listed session whose batch
      goes through has that batch (taken from the starting readings) scored
      and flagged at the end. */
  function ProcessSessions(store: Store, sids: seq<string>, predictBatch: seq<seq<real>> -> Option<seq<real>>,
                           commitOk: string -> bool): (r: Store)
    ensures r.sessions == store.sessions
    ensures Ids(r.readings) == Ids(store.readings)
    ensures Persists(store, r)
    ensures DistinctIds(store.readings) ==>
              forall sid :: sid in sids ==> BatchScored(store, r, sid, predictBatch, commitOk(sid))
    decreases |sids|
  {
    if |sids| == 0 then
      assert store.scores[..|store.scores|] == store.scores;
      store
    else
      var step := SessionStep(store, sids[0], predictBatch, commitOk(sids[0]));
      var r := ProcessSessions(step, sids[1..], predictBatch, commitOk);
      PersistsTransitive(store, step, r);
      ProcessSessionsHead(store, sids, predictBatch, commitOk, step, r);
      r
  }

  /** The inductive step of `ProcessSessions`: the head session's batch is
      scored by its own pass, and every later session still sees the batch
      it would have seen in the starting store. */
  lemma ProcessSessionsHead(store: Store, sids: seq<string>, predictBatch: seq<seq<real>> -> Option<seq<real>>,
                            commitOk: string -> bool, step: Store, r: Store)
    requires |sids| > 0 && step == SessionStep(store, sids[0], predictBatch, commitOk(sids[0]))
    requires Persists(step, r)
    requires DistinctIds(step.readings) ==>
               forall sid :: sid in sids[1..] ==> BatchScored(step, r, sid, predictBatch, commitOk(sid))
    ensures DistinctIds(store.readings) ==>
              forall sid :: sid in sids ==> BatchScored(store, r, sid, predictBatch, commitOk(sid))
  {
    if DistinctIds(store.readings) {
      DistinctIdsFromIds(store.readings, step.readings);
      forall sid | sid in sids ensures BatchScored(store, r, sid, predictBatch, commitOk(sid)) {
        if sid == sids[0] {
          BatchScoredPersists(store, step, r, sid, predictBatch, commitOk(sid));
        } else {
          assert sid in sids[1..];
          LaterSessionScored(store, sids[0], sid, predictBatch, commitOk(sids[0]), commitOk(sid), r);
        }
      }
    }
  }

  /** A later session's batch, scored from the store after the head session's
      pass, is the batch it would have taken from the starting store. */
  lemma LaterSessionScored(store: Store, sid0: string, sid: string, predictBatch: seq<seq<real>> -> Option<seq<real>>,
                           commitOk0: bool, commitOk: bool, r: Store)
    requires sid != sid0 && DistinctIds(store.readings)
    requires BatchScored(SessionStep(store, sid0, predictBatch, commitOk0), r, sid, predictBatch, commitOk)
    ensures BatchScored(store, r, sid, predictBatch, commitOk)
  {
    var step := SessionStep(store, sid0, predictBatch, commitOk0);
    OtherBatchUnchanged(store, sid0, sid, predictBatch, commitOk0);
    assert forall i :: 0 <= i < |store.readings| ==> store.readings[i].id == Ids(store.readings)[i] == step.readings[i].id;
  }

  /** One session's pass does not change the batch another session takes:
      it only flips readings of its own session. */
  lemma OtherBatchUnchanged(store: Store, sid0: string, sid: string,
                            predictBatch: seq<seq<real>> -> Option<seq<real>>, commitOk: bool)
    requires sid != sid0 && DistinctIds(store.readings)
    ensures var step := SessionStep(store, sid0, predictBatch, commitOk);
            && BatchIdx(step.readings, sid) == BatchIdx(store.readings, sid)
            && SelectBatch(step.readings, sid) == SelectBatch(store.readings, sid)
  {
    var step := SessionStep(store, sid0, predictBatch, commitOk);
    var a := store.readings;
    var b := step.readings;
    if b != a {
      assert b == MarkProcessed(a, Ids(SelectBatch(a, sid0)));
      forall i | 0 <= i < |a|
        ensures Pending(b[i].doc, sid) <==> Pending(a[i].doc, sid)
        ensures Pending(a[i].doc, sid) ==> b[i] == a[i]
      {
        MarkOtherKeepsPending(a, sid0, sid, i);
      }
      PendingIdxSame(a, b, sid);
      SelectBatchSame(a, b, sid);
    }
  }

  /** Marking one session's batch neither adds nor removes a reading of
      another session from that session's filter, and leaves those readings
      as they were. */
  lemma MarkOtherKeepsPending(a: seq<Entry<Reading>>, sid0: string, sid: string, i: nat)
    requires sid != sid0 && DistinctIds(a) && i < |a|
    ensures var b := MarkProcessed(a, Ids(SelectBatch(a, sid0)));
            && (Pending(b[i].doc, sid) <==> Pending(a[i].doc, sid))
            && (Pending(a[i].doc, sid) ==> b[i] == a[i])
  {
    var b := MarkProcessed(a, Ids(SelectBatch(a, sid0)));
    InBatchIffSelected(a, sid0, i);
    if a[i].id in Ids(SelectBatch(a, sid0)) {
      assert Pending(a[i].doc, sid0);
      assert b[i].doc.sessionId == a[i].doc.sessionId == Some(sid0);
    } else {
      assert b[i].doc == a[i].doc && b[i].id == a[i].id;
    }
  }

  /** Two collections with the same matching positions, equal at every
      matching position, give the same batch. */
  lemma SelectBatchSame(a: seq<Entry<Reading>>, b: seq<Entry<Reading>>, sid: string)
    requires |a| == |b| && PendingIdx(a, sid) == PendingIdx(b, sid)
    requires forall i :: 0 <= i < |a| && Pending(a[i].doc, sid) ==> b[i] == a[i]
    ensures BatchIdx(b, sid) == BatchIdx(a, sid)
    ensures SelectBatch(b, sid) == SelectBatch(a, sid)
  {
    var idx := BatchIdx(a, sid);
    assert forall k :: 0 <= k < |idx| ==> b[idx[k]] == a[idx[k]];
  }

  /** Two collections of readings that agree on which positions match the
      filter have the same matching positions. */
  lemma {:induction false} PendingIdxSame(a: seq<Entry<Reading>>, b: seq<Entry<Reading>>, sid: string)
    requires |a| == |b|
    requires forall i :: 0 <= i < |a| ==> (Pending(b[i].doc, sid) <==> Pending(a[i].doc, sid))
    ensures PendingIdx(a, sid) == PendingIdx(b, sid)
    decreases |a|
  {
    if |a| > 0 {
      PendingIdxSame(a[..|a| - 1], b[..|b| - 1], sid);
    }
  }

  /** The store after one session's pass: exactly `process_single_session`'s
      write batch when the batch goes through, nothing otherwise. */
  function SessionStep(store: Store, sid: string, predictBatch: seq<seq<real>> -> Option<seq<real>>,
                       commitOk: bool): (r: Store)
    ensures r.sessions == store.sessions
    ensures |store.scores| <= |r.scores| && r.scores[..|store.scores|] == store.scores
    ensures Ids(r.readings) == Ids(store.readings)
    ensures var batch := SelectBatch(store.readings, sid);
            |batch| == 0 || !BatchSucceeds(batch, predictBatch, commitOk) ==> r == store
    ensures var batch := SelectBatch(store.readings, sid);
            |batch| > 0 && BatchSucceeds(batch, predictBatch, commitOk) ==>
              && r.readings == MarkProcessed(store.readings, Ids(batch))
              && r.scores == store.scores + NewScores(sid, batch, predictBatch(FeatureRows(batch)).value)
    ensures Persists(store, r)
    ensures BatchScored(store, r, sid, predictBatch, commitOk)
  {
    SingleSessionOnlyMarks(store, sid, predictBatch, commitOk);
    StepScoresBatch(store, sid, predictBatch, commitOk);
    ProcessSingleSession(store, sid, predictBatch, commitOk).store
  }

  /** A committed session pass flags and scores every reading of its batch,
      and clears no flag. */
  lemma StepScoresBatch(store: Store, sid: string, predictBatch: seq<seq<real>> -> Option<seq<real>>,
                        commitOk: bool)
    ensures var r := ProcessSingleSession(store, sid, predictBatch, commitOk).store;
            Persists(store, r) && BatchScored(store, r, sid, predictBatch, commitOk)
  {
    var res := ProcessSingleSession(store, sid, predictBatch, commitOk);
    var batch := SelectBatch(store.readings, sid);
    if res.status.Committed? {
      var scores := predictBatch(FeatureRows(batch)).value;
      CommitScoresBatch(store, sid, scores);
      assert res.store == Store(store.sessions, MarkProcessed(store.readings, Ids(batch)),
                                store.scores + NewScores(sid, batch, scores));
    } else {
      assert res.store == store;
      assert store.scores[..|store.scores|] == store.scores;
      if BatchSucceeds(batch, predictBatch, commitOk) {
        assert |batch| == 0;
      }
    }
  }

  /** The write batch of a session pass flags and scores every reading of the
      batch, and clears no flag. */
  lemma CommitScoresBatch(store: Store, sid: string, scores: seq<real>)
    requires |scores| >= |SelectBatch(store.readings, sid)|
    ensures var batch := SelectBatch(store.readings, sid);
            var r := Store(store.sessions, MarkProcessed(store.readings, Ids(batch)),
                           store.scores + NewScores(sid, batch, scores));
            && Persists(store, r)
            && forall i :: 0 <= i < |store.readings| && i in BatchIdx(store.readings, sid) ==>
                 r.readings[i].doc.isProcessed == Some(true) && store.readings[i].id in ReadingIds(r.scores)
  {
    var batch := SelectBatch(store.readings, sid);
    var news := NewScores(sid, batch, scores);
    MarkPersists(store, Ids(batch), news);
    forall i | 0 <= i < |store.readings| && i in BatchIdx(store.readings, sid)
      ensures MarkProcessed(store.readings, Ids(batch))[i].doc.isProcessed == Some(true)
      ensures store.readings[i].id in ReadingIds(store.scores + news)
    {
      SelectedInBatch(store.readings, sid, i);
      BatchScoreAt(store.readings, store.scores, sid, scores, i);
    }
  }

  /** Marking readings and appending score documents keeps what was there. */
  lemma MarkPersists(store: Store, ids: seq<string>, news: seq<ScoreDoc>)
    ensures Persists(store, Store(store.sessions, MarkProcessed(store.readings, ids), store.scores + news))
  {
    assert (store.scores + news)[..|store.scores|] == store.scores;
  }

  /** A reading of the batch has a score document among the appended ones. */
  lemma BatchScoreAt(readings: seq<Entry<Reading>>, old_scores: seq<ScoreDoc>, sid: string, scores: seq<real>, i: nat)
    requires |scores| >= |SelectBatch(readings, sid)|
    requires i < |readings| && i in BatchIdx(readings, sid)
    ensures readings[i].id in ReadingIds(old_scores + NewScores(sid, SelectBatch(readings, sid), scores))
  {
    var idx := BatchIdx(readings, sid);
    var news := NewScores(sid, SelectBatch(readings, sid), scores);
    var k :| 0 <= k < |idx| && idx[k] == i;
    assert news[k].readingId == readings[i].id;
    assert ReadingIds(old_scores + news)[|old_scores| + k] == (old_scores + news)[|old_scores| + k].readingId;
  }

  /** Session passes only flip matching readings of the sessions they visit,
      and keep the pairing of scores with processed readings. */
  lemma {:induction false} ProcessSessionsMarksAndPairs(store: Store, sids: seq<string>,
                                                         predictBatch: seq<seq<real>> -> Option<seq<real>>,
                                                         commitOk: string -> bool)
    ensures var r := ProcessSessions(store, sids, predictBatch, commitOk);
            && (DistinctIds(store.readings) ==> OnlyMarks(store.readings, r.readings, sids))
            && (Paired(store) ==> Paired(r))
    decreases |sids|
  {
    if |sids| > 0 {
      var step := SessionStep(store, sids[0], predictBatch, commitOk(sids[0]));
      ProcessSingleSessionKeepsPaired(store, sids[0], predictBatch, commitOk(sids[0]));
      SingleSessionOnlyMarks(store, sids[0], predictBatch, commitOk(sids[0]));
      var r := ProcessSessions(step, sids[1..], predictBatch, commitOk);
      assert r == ProcessSessions(store, sids, predictBatch, commitOk);
      ProcessSessionsMarksAndPairs(step, sids[1..], predictBatch, commitOk);
      DistinctIdsFromIds(store.readings, step.readings);
      OnlyMarksCompose(store.readings, step.readings, r.readings, sids);
    } else {
      assert OnlyMarks(store.readings, store.readings, sids);
    }
  }

  /** Marking a session's batch flips only pending readings of that session
      and changes no id. */
  lemma MarkBatchOnlyMarks(readings: seq<Entry<Reading>>, sid: string)
    ensures var marked := MarkProcessed(readings, Ids(SelectBatch(readings, sid)));
            && Ids(marked) == Ids(readings)
            && (DistinctIds(readings) ==> OnlyMarks(readings, marked, [sid]))
  {
    var marked := MarkProcessed(readings, Ids(SelectBatch(readings, sid)));
    assert Ids(marked) == Ids(readings);
    if DistinctIds(readings) {
      forall i | 0 <= i < |readings|
        ensures readings[i].id in Ids(SelectBatch(readings, sid)) ==> Pending(readings[i].doc, sid)
      {
        InBatchIffSelected(readings, sid, i);
      }
    }
  }

  lemma OnlyMarksRefl(a: seq<Entry<Reading>>, sids: seq<string>)
    ensures OnlyMarks(a, a, sids)
  {
  }

  lemma SingleSessionOnlyMarks(store: Store, sid: string, predictBatch: seq<seq<real>> -> Option<seq<real>>,
                               commitOk: bool)
    ensures var r := ProcessSingleSession(store, sid, predictBatch, commitOk).store;
            && |store.scores| <= |r.scores| && r.scores[..|store.scores|] == store.scores
            && Ids(r.readings) == Ids(store.readings)
            && (DistinctIds(store.readings) ==> OnlyMarks(store.readings, r.readings, [sid]))
  {
    var res := ProcessSingleSession(store, sid, predictBatch, commitOk);
    if res.status.Committed? {
      MarkBatchOnlyMarks(store.readings, sid);
      assert res.store.readings == MarkProcessed(store.readings, Ids(SelectBatch(store.readings, sid)));
    } else {
      assert res.store == store;
      assert store.scores[..|store.scores|] == store.scores;
      OnlyMarksRefl(store.readings, [sid]);
    }
  }

  lemma DistinctIdsFromIds(a: seq<Entry<Reading>>, b: seq<Entry<Reading>>)
    requires Ids(a) == Ids(b)
    ensures DistinctIds(a) ==> DistinctIds(b)
  {
    assert forall i :: 0 <= i < |a| ==> a[i].id == Ids(a)[i] == b[i].id;
  }

  lemma OnlyMarksCompose(a: seq<Entry<Reading>>, b: seq<Entry<Reading>>, c: seq<Entry<Reading>>, sids: seq<string>)
    requires |sids| > 0
    ensures OnlyMarks(a, b, [sids[0]]) && OnlyMarks(b, c, sids[1..]) ==> OnlyMarks(a, c, sids)
  {
    if OnlyMarks(a, b, [sids[0]]) && OnlyMarks(b, c, sids[1..]) {
      OnlyMarksChain(a, b, c, sids);
    }
  }

  lemma OnlyMarksChain(a: seq<Entry<Reading>>, b: seq<Entry<Reading>>, c: seq<Entry<Reading>>, sids: seq<string>)
    requires |sids| > 0
    requires OnlyMarks(a, b, [sids[0]]) && OnlyMarks(b, c, sids[1..])
    ensures OnlyMarks(a, c, sids)
  {
    forall i | 0 <= i < |a|
      ensures c[i].doc == a[i].doc
              || (&& a[i].doc.sessionId.Some? && a[i].doc.sessionId.value in sids
                  && a[i].doc.isProcessed == Some(false)
                  && c[i].doc == a[i].doc.(isProcessed := Some(true)))
    {
      if b[i].doc != a[i].doc {
        assert b[i].doc.isProcessed == Some(true);
        assert c[i].doc == b[i].doc;
      } else if c[i].doc != b[i].doc {
        assert b[i].doc.sessionId.value in sids[1..];
      }
    }
  }

  /** `process_active_sessions`: nothing at all without a database; otherwise
      a session pass for every recording session, in stream order. */
  function ProcessActiveSessions(store: Store, dbAvailable: bool, predictBatch: seq<seq<real>> -> Option<seq<real>>,
                                 commitOk: string -> bool): (r: Store)
    ensures !dbAvailable ==> r == store
    ensures r.sessions == store.sessions
    ensures |store.scores| <= |r.scores| && r.scores[..|store.scores|] == store.scores
    ensures DistinctIds(store.readings) ==> OnlyMarks(store.readings, r.readings, RecordingIds(store.sessions))
    ensures Paired(store) ==> Paired(r)
    ensures dbAvailable && DistinctIds(store.readings) ==>
              forall sid :: sid in RecordingIds(store.sessions) ==> BatchScored(store, r, sid, predictBatch, commitOk(sid))
    ensures dbAvailable && Paired(store) ==>
              forall sid, i :: && sid in RecordingIds(store.sessions) && 0 <= i < |store.readings|
                               && i in BatchIdx(store.readings, sid)
                               && BatchSucceeds(SelectBatch(store.readings, sid), predictBatch, commitOk(sid)) ==>
                CountFor(r.scores, store.readings[i].id) == 1
  {
    if !dbAvailable then store
    else
      ProcessSessionsMarksAndPairs(store, RecordingIds(store.sessions), predictBatch, commitOk);
      ProcessSessions(store, RecordingIds(store.sessions), predictBatch, commitOk)
  }
}

=== FILE: session_stats.dfy ===
/** The per-feature means both session summaries report: the mean of the values
    actually present, or None when there is nothing to average. */
module SessionStats {
  import opened Wrappers
  import opened Numeric

  /** The present values, in order (`[x for x in xs if x is not None]`). */
  function Present(xs: seq<Option<real>>): (r: seq<real>)
    ensures |r| <= |xs|
    ensures |r| == 0 <==> forall i :: 0 <= i < |xs| ==> xs[i].None?
    ensures forall k :: 0 <= k < |r| ==> Some(r[k]) in xs
    ensures forall i :: 0 <= i < |xs| && xs[i].Some? ==> xs[i].value in r
  {
    if |xs| == 0 then []
    else
      var rest := Present(xs[1..]);
      assert forall i :: 1 <= i < |xs| ==> xs[i] == xs[1..][i - 1];
      if xs[0].Some? then [xs[0].value] + rest else rest
  }

  /** Python's `any(xs)` over optional floats, scanning left to right: true
      exactly when some value is neither None nor 0. */
  function AnyTruthy(xs: seq<Option<real>>): (b: bool)
    ensures b <==> exists i :: 0 <= i < |xs| && xs[i].Some? && xs[i].value != 0.0
  {
    if |xs| == 0 then false
    else
      assert forall i :: 1 <= i < |xs| ==> xs[i] == xs[1..][i - 1];
      (xs[0].Some? && xs[0].value != 0.0) || AnyTruthy(xs[1..])
  }

  /** `m` is what the source reports for the values `xs`: a mean exactly when
      `any(xs)` holds, and then the mean of the present values. */
  predicate ReportedAsWritten(m: Option<real>, xs: seq<Option<real>>)
  {
    (m.Some? <==> AnyTruthy(xs)) && (m.Some? ==> m == FeatureMean(xs))
  }

  /** The feature mean as the source computes it: `np.nanmean` of the present
      values, but only when `any(values)` holds. */
  function FeatureMeanAsWritten(xs: seq<Option<real>>): (r: Option<real>)
    ensures r.Some? <==> AnyTruthy(xs)
    ensures ReportedAsWritten(r, xs)
  {
    if AnyTruthy(xs) then Some(Mean(Present(xs))) else None
  }

  /** The feature mean as intended: None exactly when no value is present,
      otherwise the mean of the present values, which lies between the
      smallest and the largest of them. */
  function FeatureMean(xs: seq<Option<real>>): (r: Option<real>)
    ensures r.None? <==> forall i :: 0 <= i < |xs| ==> xs[i].None?
    ensures r.Some? ==> SeqMin(Present(xs)) <= r.value <= SeqMax(Present(xs))
  {
    var present := Present(xs);
    if |present| == 0 then None
    else
      MinLeMeanLeMax(present);
      Some(Mean(present))
  }

  /** The two agree whenever some present value is non-zero. */
  lemma AsWrittenAgreesWhenSomeValueNonZero(xs: seq<Option<real>>)
    requires AnyTruthy(xs)
    ensures FeatureMeanAsWritten(xs) == FeatureMean(xs)
  {
  }

  /** They disagree exactly when values are present but all are zero: the
      source then reports no mean although the mean is 0. */
  lemma AsWrittenDropsAllZeroValues(xs: seq<Option<real>>)
    requires exists i :: 0 <= i < |xs| && xs[i].Some?
    requires forall i :: 0 <= i < |xs| && xs[i].Some? ==> xs[i].value == 0.0
    ensures FeatureMeanAsWritten(xs).None?
    ensures FeatureMean(xs) == Some(0.0)
  {
    var present := Present(xs);
    assert forall k :: 0 <= k < |present| ==> present[k] == 0.0 by {
      forall k | 0 <= k < |present| ensures present[k] == 0.0 {
        assert Some(present[k]) in xs;
      }
    }
    MeanOfConstant(present, 0.0);
  }

  /** A night in a dark room: two light readings of 0 lux. */
  lemma DarkNightHasNoLightMeanAsWritten()
    ensures FeatureMeanAsWritten([Some(0.0), Some(0.0)]).None?
    ensures FeatureMean([Some(0.0), Some(0.0)]) == Some(0.0)
  {
    var night: seq<Option<real>> := [Some(0.0), Some(0.0)];
    assert night[0].Some?;
    AsWrittenDropsAllZeroValues(night);
  }
}

=== FILE: sleep_rules.dfy ===
/** The shared rule scorer of `app/sleep_rules.py`, the draft used both to label
    training data and by the production service: ideals 25.5 °C, 60 %RH and a
    45 dB noise threshold, a sensor-lower-limit substitution for a zero lux reading,
    and a fixed imputed light penalty when no light sensor is fitted. */
module SleepRules {
  import opened Wrappers
  import opened Numeric
  import LightCurve

  const TempIdeal: real := 25.5
  const HumIdeal: real := 60.0
  const NoiseThreshold: real := 45.0
  const SensorLowerLimit: real := 0.5
  /** Lux assumed when the light sensor is absent. */
  const ImputedLux: real := 5.0

  /** `light_penalty_from_lux`: None for a missing reading, otherwise the
      two-breakpoint curve at the effective lux. */
  function LightPenaltyFromLux(lux: Option<real>, sensorLowerLimit: Option<real>): (r: Option<real>)
    ensures r.None? <==> lux.None?
    ensures r.Some? ==> r.value >= 0.0
    ensures r.Some? ==> r.value == LightCurve.Hinge(LightCurve.EffectiveLux(lux.value, sensorLowerLimit))
  {
    if lux.None? then None
    else
      var l := LightCurve.EffectiveLux(lux.value, sensorLowerLimit);
      if l <= 1.0 then Some(0.0)
      else if l <= 10.0 then Some(1.0 * (l - 1.0))
      else
        var base := 1.0 * (10.0 - 1.0);
        var extra := 0.6 * (l - 10.0);
        Some(base + extra)
  }

  function TempPenalty(temp: Option<real>): real
  {
    if temp.Some? then 3.5 * Abs(temp.value - TempIdeal) else 0.0
  }

  function HumPenalty(hum: Option<real>): real
  {
    if hum.Some? then 0.4 * Abs(hum.value - HumIdeal) else 0.0
  }

  function NoisePenalty(noiseDb: Option<real>): real
  {
    if noiseDb.Some? then 2.0 * Max(0.0, noiseDb.value - NoiseThreshold) else 0.0
  }

  /** The light term: 1.5 times the curve when a sensor is fitted (nothing for
      a missing reading), otherwise half of that at the imputed 5 lux. */
  function LightTerm(light: Option<real>, sensorLowerLimit: Option<real>, lightSensorPresent: bool): (r: real)
    ensures r >= 0.0
  {
    if lightSensorPresent then
      match LightPenaltyFromLux(light, sensorLowerLimit)
      case Some(lp) => 1.5 * lp
      case None => 0.0
    else
      (1.5 * 0.5) * LightPenaltyFromLux(Some(ImputedLux), None).value
  }

  /** The score before clipping: 100 less the four penalties. */
  function RawScore(temp: Option<real>, hum: Option<real>, noiseDb: Option<real>, light: Option<real>,
                    sensorLowerLimit: Option<real>, lightSensorPresent: bool): real
  {
    100.0 - TempPenalty(temp) - HumPenalty(hum) - NoisePenalty(noiseDb)
      - LightTerm(light, sensorLowerLimit, lightSensorPresent)
  }

  /** `compute_rule_score`: always a score in [0, 100]; 100 is reached only
      when every penalty is zero. */
  function ComputeRuleScore(temp: Option<real>, hum: Option<real>, noiseDb: Option<real>, light: Option<real>,
                            sensorLowerLimit: Option<real>, lightSensorPresent: bool): (r: real)
    ensures 0.0 <= r <= 100.0
    ensures r == 100.0 <==>
              TempPenalty(temp) == 0.0 && HumPenalty(hum) == 0.0 && NoisePenalty(noiseDb) == 0.0
              && LightTerm(light, sensorLowerLimit, lightSensorPresent) == 0.0
  {
    Clip(RawScore(temp, hum, noiseDb, light, sensorLowerLimit, lightSensorPresent), 0.0, 100.0)
  }

  /** The call made by the training script and the API: default lower limit,
      sensor fitted. A missing light reading, a 0 lux reading (lifted to
      0.5 lux) and any reading up to 1 lux all cost nothing; brighter readings
      cost 1.5 times the curve at the reading itself. No light is ever imputed. */
  function DefaultRuleScore(temp: Option<real>, hum: Option<real>, noiseDb: Option<real>, light: Option<real>)
    : (r: real)
    ensures 0.0 <= r <= 100.0
    ensures light.None? || light.value <= 1.0 ==>
              r == Clip(100.0 - TempPenalty(temp) - HumPenalty(hum) - NoisePenalty(noiseDb), 0.0, 100.0)
    ensures light.Some? && light.value > 1.0 ==>
              r == Clip(100.0 - TempPenalty(temp) - HumPenalty(hum) - NoisePenalty(noiseDb)
                          - 1.5 * LightCurve.Hinge(light.value), 0.0, 100.0)
  {
    ComputeRuleScore(temp, hum, noiseDb, light, Some(SensorLowerLimit), true)
  }

  /** Dark is free: no light penalty up to 1 lux, and a 0 reading lifted to the
      default 0.5 lux lower limit is still dark. */
  lemma DarkIsFree(lux: real, sensorLowerLimit: Option<real>)
    requires lux <= 1.0
    requires sensorLowerLimit.None? || sensorLowerLimit.value <= 1.0
    ensures LightPenaltyFromLux(Some(lux), sensorLowerLimit) == Some(0.0)
  {
  }

  /** Between 1 and 10 lux the penalty is lux − 1; above 10 it is 9 + 0.6·(lux − 10). */
  lemma LightPenaltyPieces(lux: real, sensorLowerLimit: Option<real>)
    requires lux != 0.0
    ensures 1.0 < lux <= 10.0 ==> LightPenaltyFromLux(Some(lux), sensorLowerLimit) == Some(lux - 1.0)
    ensures 10.0 < lux ==> LightPenaltyFromLux(Some(lux), sensorLowerLimit) == Some(9.0 + 0.6 * (lux - 10.0))
  {
  }

  /** A brighter room is never penalised less, provided a zero reading is not
      lifted above the 1 lux floor. */
  lemma LightPenaltyMonotone(a: real, b: real, sensorLowerLimit: Option<real>)
    requires 0.0 <= a <= b
    requires sensorLowerLimit.None? || sensorLowerLimit.value <= 1.0
    ensures LightPenaltyFromLux(Some(a), sensorLowerLimit).value <= LightPenaltyFromLux(Some(b), sensorLowerLimit).value
  {
    var ea, eb := LightCurve.EffectiveLux(a, sensorLowerLimit), LightCurve.EffectiveLux(b, sensorLowerLimit);
    LightCurve.HingeZeroIffDark(ea);
    LightCurve.HingeZeroIffDark(eb);
    if ea > eb {
      assert a == 0.0;
      assert ea <= 1.0;
    } else {
      LightCurve.HingeMonotone(ea, eb);
    }
  }

  /** With every reading missing (and a light sensor fitted) nothing is penalised. */
  lemma AllMissingScoresFull(sensorLowerLimit: Option<real>)
    ensures ComputeRuleScore(None, None, None, None, sensorLowerLimit, true) == 100.0
  {
  }

  /** At the ideal temperature and humidity, with noise at or below the
      threshold and a dark room, the score is exactly 100. */
  lemma IdealPointScoresFull(noiseDb: real, lux: real)
    requires noiseDb <= NoiseThreshold
    requires lux <= 1.0
    ensures DefaultRuleScore(Some(TempIdeal), Some(HumIdeal), Some(noiseDb), Some(lux)) == 100.0
  {
    DarkIsFree(lux, Some(SensorLowerLimit));
  }

  /** Noise at or below 45 dB scores the same as no noise reading at all. */
  lemma QuietIsUnpenalised(temp: Option<real>, hum: Option<real>, noiseDb: real, light: Option<real>,
                           sensorLowerLimit: Option<real>, lightSensorPresent: bool)
    requires noiseDb <= NoiseThreshold
    ensures ComputeRuleScore(temp, hum, Some(noiseDb), light, sensorLowerLimit, lightSensorPresent)
         == ComputeRuleScore(temp, hum, None, light, sensorLowerLimit, lightSensorPresent)
  {
  }

  /** Without a light sensor the light argument is ignored and a fixed 3.0 is
      charged, which is 0.75 times the curve at the imputed 5 lux. */
  lemma MissingSensorChargesImputedLight(temp: Option<real>, hum: Option<real>, noiseDb: Option<real>,
                                         light: Option<real>, sensorLowerLimit: Option<real>)
    ensures LightTerm(light, sensorLowerLimit, false) == 3.0
    ensures ComputeRuleScore(temp, hum, noiseDb, light, sensorLowerLimit, false)
         == Clip(RawScore(temp, hum, noiseDb, None, sensorLowerLimit, true) - 3.0, 0.0, 100.0)
  {
  }

  /** More noise never raises the score. */
  lemma NoiseNeverHelps(temp: Option<real>, hum: Option<real>, n1: real, n2: real, light: Option<real>,
                        sensorLowerLimit: Option<real>, lightSensorPresent: bool)
    requires n1 <= n2
    ensures ComputeRuleScore(temp, hum, Some(n2), light, sensorLowerLimit, lightSensorPresent)
         <= ComputeRuleScore(temp, hum, Some(n1), light, sensorLowerLimit, lightSensorPresent)
  {
    ClipMonotone(RawScore(temp, hum, Some(n2), light, sensorLowerLimit, lightSensorPresent),
                 RawScore(temp, hum, Some(n1), light, sensorLowerLimit, lightSensorPresent), 0.0, 100.0);
  }

  /** A temperature further from 25.5 °C never scores higher. */
  lemma TemperatureDeviationNeverHelps(t1: real, t2: real, hum: Option<real>, noiseDb: Option<real>,
                                       light: Option<real>, sensorLowerLimit: Option<real>, lightSensorPresent: bool)
    requires Abs(t1 - TempIdeal) <= Abs(t2 - TempIdeal)
    ensures ComputeRuleScore(Some(t2), hum, noiseDb, light, sensorLowerLimit, lightSensorPresent)
         <= ComputeRuleScore(Some(t1), hum, noiseDb, light, sensorLowerLimit, lightSensorPresent)
  {
    ClipMonotone(RawScore(Some(t2), hum, noiseDb, light, sensorLowerLimit, lightSensorPresent),
                 RawScore(Some(t1), hum, noiseDb, light, sensorLowerLimit, lightSensorPresent), 0.0, 100.0);
  }

  /** A brighter room never scores higher. */
  lemma LightNeverHelps(temp: Option<real>, hum: Option<real>, noiseDb: Option<real>, l1: real, l2: real,
                        sensorLowerLimit: Option<real>)
    requires 0.0 <= l1 <= l2
    requires sensorLowerLimit.None? || sensorLowerLimit.value <= 1.0
    ensures ComputeRuleScore(temp, hum, noiseDb, Some(l2), sensorLowerLimit, true)
         <= ComputeRuleScore(temp, hum, noiseDb, Some(l1), sensorLowerLimit, true)
  {
    LightPenaltyMonotone(l1, l2, sensorLowerLimit);
    ClipMonotone(RawScore(temp, hum, noiseDb, Some(l2), sensorLowerLimit, true),
                 RawScore(temp, hum, noiseDb, Some(l1), sensorLowerLimit, true), 0.0, 100.0);
  }
}

=== FILE: wrappers.dfy ===
/** Optional values and error results, the model's stand-ins for Python's `None`
    and for exceptions that the source turns into HTTP error responses. */
module Wrappers {

  /** A value that may be missing (`None` in Python). */
  datatype Option<+T> = None | Some(value: T) {

    /** The value, or `default` when it is missing. */
    function GetOr(default: T): (r: T)
      ensures Some? ==> r == value
      ensures None? ==> r == default
    {
      match this
      case Some(v) => v
      case None => default
    }
  }

  /** An HTTP error the source raises with `HTTPException(status_code=...)`. */
  datatype HttpError = HttpError(status: int)

  /** Either a value or an error. */
  datatype Result<+R, +E> = Ok(value: R) | Err(error: E)

  /** A document together with its id, as a collection stream yields it. */
  datatype Entry<+D> = Entry(id: string, doc: D)

  /** The first document with the given id in a streamed collection. */
  function Find<D>(coll: seq<Entry<D>>, id: string): (r: Option<D>)
    ensures r.None? <==> forall i :: 0 <= i < |coll| ==> coll[i].id != id
    ensures r.Some? ==> exists i :: 0 <= i < |coll| && coll[i].id == id && coll[i].doc == r.value
  {
    if |coll| == 0 then None
    else if coll[0].id == id then Some(coll[0].doc)
    else
      var r := Find(coll[1..], id);
      assert r.Some? ==> exists i :: 1 <= i < |coll| && coll[i].id == id && coll[i].doc == r.value by {
        if r.Some? {
          var j :| 0 <= j < |coll[1..]| && coll[1..][j].id == id && coll[1..][j].doc == r.value;
          assert coll[j + 1] == coll[1..][j];
        }
      }
      r
  }

  /** The ids of a collection, in stream order. */
  function Ids<D>(coll: seq<Entry<D>>): (r: seq<string>)
    ensures |r| == |coll|
    ensures forall i :: 0 <= i < |coll| ==> r[i] == coll[i].id
  {
    if |coll| == 0 then [] else [coll[0].id] + Ids(coll[1..])
  }

  /** No two documents of a collection share an id. */
  predicate DistinctIds<D>(coll: seq<Entry<D>>)
  {
    forall i, j :: 0 <= i < j < |coll| ==> coll[i].id != coll[j].id
  }

  /** Appending a document leaves earlier lookups alone and makes a new id findable. */
  lemma FindAppend<D>(coll: seq<Entry<D>>, e: Entry<D>, id: string)
    ensures Find(coll + [e], id) == if Find(coll, id).Some? then Find(coll, id)
                                   else if e.id == id then Some(e.doc) else None
  {
    if |coll| > 0 {
      assert (coll + [e])[1..] == coll[1..] + [e];
      FindAppend(coll[1..], e, id);
    }
  }

  /** A query's `.limit(n)`: the first `n` elements, or all of them. */
  function Take<T>(s: seq<T>, n: nat): (r: seq<T>)
    ensures |r| <= n && |r| <= |s|
    ensures r == s[..|r|]
    ensures |s| <= n ==> r == s
    ensures n <= |s| ==> |r| == n
  {
    if |s| <= n then s else s[..n]
  }

  /** No value occurs twice. */
  predicate NoDuplicates<T(==)>(s: seq<T>)
  {
    forall i, j :: 0 <= i < j < |s| ==> s[i] != s[j]
  }

  lemma NoDuplicatesPrefix<T>(s: seq<T>, n: nat)
    requires n <= |s|
    ensures NoDuplicates(s) ==> NoDuplicates(s[..n])
  {
  }

  /** Indexing into a concatenation. */
  lemma AppendAt<T>(a: seq<T>, b: seq<T>, k: nat)
    requires k < |a| + |b|
    ensures k < |a| ==> (a + b)[k] == a[k]
    ensures |a| <= k ==> (a + b)[k] == b[k - |a|]
  {
  }

  lemma NoDuplicatesTail<T>(s: seq<T>)
    requires |s| > 0
    ensures NoDuplicates(s) ==> s[0] !in s[1..] && NoDuplicates(s[1..])
  {
  }
}
